=== FILE: README.md ===
# DAG explorer core, modelled in Dafny

The explorer shows a DAG ledger as a graph. The server (`controllers/`)
answers socket requests with slices of the unit graph and with address
pages. The page (`public/js/main.js`) places each slice on the canvas,
joins it to what is already drawn, and paces its own requests. This
project models that core as pure functions over immutable data and proves
what the code promises.

Modules (one file each):

- `Base`: the `Option` result and `Dict`. A `Dict` is an insertion-ordered
  map, which is how the code's plain objects behave when it iterates them.
- `Text`: the `unit.substr(0, 7) + '...'` label and the `child_parent`
  edge key. It also holds `htmlEscape` and `numberFormat`.
- `Render`: the rendering library's collection as a `Scene`. The library
  calls the code makes are `add`, `remove`, `getElementById` and
  position updates.
- `Conflicts`: `setMaxWidthNodes` and `fixConflicts`.
- `Stability`: `updListNotStableUnit` and `setChangesStableUnits`.
- `Boundary`: `createEdges`. It draws edges whose ends are loaded and puts
  a placeholder node for an end that is not.
- `Placement`: `generate` (a slice appended below) and `setNew` (a slice
  put on top).
- `Viewport`: the scroll/pan coordinate converters.
- `Requests`: the page's request flags (`start`, `getNext`, `getPrev`,
  `getNew`, `getHighlightNode`, `highlightNode` and the end of its pan
  animation) and their socket handlers, including the `info` reply's
  release of the jump flag, as a state machine.
- `Session`: the page's copy of the loaded units, its edges, and
  `firstUnit`/`lastUnit`.
- `Units`: `controllers/units.js`. This covers mapping rows to nodes and
  edges, the before/after selections and their sort, parents and
  children, unit outputs, and the units that became stable.
- `Address`: `controllers/address.js`. This covers grouping transaction
  rows, funding sources, spent marking, the page cursor, and the balance.
- `Dispatch`: `controllers/ws.js`. This covers which reply `start`,
  `next`, `prev`, `newUnits`, `highlightNode` and `nextPageTransactions`
  send, and their `end` flags.

Database queries are not modelled as SQL. Each query result is a
parameter, given as the rows the query returns:

- the unit table is a sequence of rows in ascending `ROWID`;
- parenthood, output, spend and transaction rows are sequences in the
  query's order;
- `Units.SelectBefore` and `Units.SelectAfter` model the
  `ROWID <`/`ROWID >` selections with their `ORDER BY` and `LIMIT`.

The dagre layout is not modelled either. It is a parameter: the laid-out
nodes with their coordinates.

A JavaScript crash is modelled as `None`. Two cases matter:

- reading `nodes[nodes.length - 1].rowid` on an empty list;
- reading `rowsDefinitions[0].definition` on an empty result.

Coordinates are `real`.

## Model

| member | source | states |
|---|---|---|
| Text.ShortLabel | controllers/units.js:44 | the label is at most seven leading characters of the unit followed by `...`, and a prefix of the unit |
| Text.JoinKeyInjective | controllers/units.js:58 | `child_parent` keys of two edges are equal exactly when both ends are, provided the child ids contain no underscore |
| Text.HtmlEscape | public/js/main.js:1167-1174 | the escaped text contains none of `" ' < >`, every `&` in it starts one of the five entities, decoding its entities gives the input back, and the chained replacements amount to escaping each character on its own |
| Text.ChainIsPerChar | public/js/main.js:1168-1173 | the five whole-string replacements, `&` first, escape every character independently (no entity is escaped twice) |
| Text.DecodeEscapeEach | public/js/main.js:1167-1174 | escaping is invertible: decoding entities undoes it |
| Text.NumberFormat | public/js/main.js:1132-1134 | for a string of digits the result is the number grouped in threes from the right with commas, and removing the commas gives the input back |
| Text.NumberFormatDigits | public/js/main.js:1133 | the regular-expression split, trim and space-to-comma pipeline equals the reference three-digit grouping for every digit string |
| Text.StripGrouped | public/js/main.js:1133 | grouping only inserts commas: removing them restores the digits |
| Conflicts.ClampWidth | public/js/main.js:398-408 | the result lies in [-500, 500], equals the input inside that band and the nearer bound outside it |
| Conflicts.FixConflicts | public/js/main.js:410-438 | the nodes keep their order, ids, rows and classes; a node without a near neighbour on its row is untouched; a conflicting node moves by the running offset of its row (for distinct ids, as the layout's are) |
| Conflicts.MoveIsMultipleOf60 | public/js/main.js:420-436 | every node moves by a whole number of 60-pixel steps, at most one step per earlier conflicting node on its row |
| Conflicts.KthMovesRight | public/js/main.js:427-430 | when the conflicting nodes of a row all sit at x >= 0, the k-th of them moves exactly 60·k to the right |
| Conflicts.KthMovesLeft | public/js/main.js:431-434 | when they all sit at x < 0, the k-th moves exactly 60·k to the left |
| Conflicts.MixedSignsCollide | public/js/main.js:420-436 | with mixed signs on one row the offsets cancel: nodes at 1, -1, 2 end at 61, -1, 62, so two nodes still come within 60 of each other |
| Stability.NotStableIds | public/js/main.js:209-217 | the list holds exactly the ids of drawn nodes lacking the `is_stable` class |
| Stability.UpdListNotStable | public/js/main.js:209-217 | only the not-stable list changes, and it lists exactly the unstable drawn units |
| Stability.MarkAll | public/js/main.js:487-504 | only the classes change: `is_stable` is gained by every reported unit and never lost; `is_on_main_chain` follows the last report about the unit; other classes stay |
| Stability.SetChangesStable | public/js/main.js:487-504 | no report changes nothing; otherwise every node is marked and the not-stable list is rebuilt from the marked nodes |
| Stability.SetChangesStableIdempotent | public/js/main.js:487-504 | applying the same stability report twice is the same as once |
| Stability.ReportedLeaveNotStable | public/js/main.js:490-503 | a unit reported stable is no longer on the not-stable list |
| Boundary.Pending | public/js/main.js:443-454 | the edges to draw are exactly the stored edges whose key is not among the keys the rendered edges' ends produce (`source() + '_' + target()`) |
| Boundary.MovePhantoms | public/js/main.js:447-452 | only heights change: a node in the top table goes to the upper line (`newOffset - 166` as `createEdges` passes it), one only in the bottom table to the lower line (`generateOffset + 166`), the top table winning; every other node is untouched |
| Boundary.EmitEdge | public/js/main.js:455-482 | an edge with both ends loaded is drawn as is; one loaded end gives a placeholder for the other end, on the lower or upper line; no loaded end is a crash |
| Boundary.EmitAll | public/js/main.js:453-483 | the pass succeeds exactly when every edge has a loaded end; each placeholder pushes its line 60 further |
| Boundary.EmitAllKeys | public/js/main.js:460-481 | the placeholder tables grow by exactly the missing targets (bottom) and missing sources (top) |
| Boundary.EmitAllClosed | public/js/main.js:453-483 | every edge drawn ends at a node that is loaded or is created in the same pass |
| Boundary.CreateEdges | public/js/main.js:440-485 | succeeds exactly when every pending edge has a loaded end; only the placeholders' y changes |
| Boundary.CreatedEdges | public/js/main.js:453-483 | the edges added are exactly the pending ones, and each of them is closed over the scene plus the new placeholders |
| Boundary.CreatedPlaceholders | public/js/main.js:460-481 | every created node is a fresh id with no classes, labelled as a unit, standing 166 below `generateOffset` or 166 above `newOffset` and recorded in the matching table |
| Boundary.BottomPhantomRecorded | public/js/main.js:460-470 | for a missing target, the bottom table ends up holding its last edge's source x plus the lower line's offset at that edge |
| Boundary.BottomPhantomAt | public/js/main.js:460-469 | the placeholder for a missing target stands on the lower line at its source's x plus the running offset, which has grown by 60 for every earlier edge of the pass with a missing target |
| Boundary.TopPhantomAt | public/js/main.js:471-480 | the placeholder for a missing source stands on the upper line at its target's x plus the running top offset, which has grown by 60 for every earlier edge of the pass with a missing source |
| Boundary.AddedNoDangling | public/js/main.js:484 | after the additions no drawn edge dangles |
| Boundary.AddedRendersStore | public/js/main.js:440-485 | after the additions every stored edge key is rendered |
| Placement.ClassesOf | public/js/main.js:233-237 | the classes are `is_on_main_chain`, `is_stable`, `finalBad` and `tempBad`, each exactly when its flag or sequence says so |
| Placement.CentredWhenFirstIsLeftmost | public/js/main.js:226-239 | when the first layout node is the leftmost, the shift centres the slice on x = 0 |
| Placement.HomeX | public/js/main.js:253-264 | x is clamped to [-500, 500]; a node landing at x = 0 and not on the main chain goes to 40 |
| Placement.PlacedX | public/js/main.js:243-264 | a node that was a placeholder keeps the placeholder's x; any other node gets its home x |
| Placement.PlacedPhantoms | public/js/main.js:243-252 | placement removes exactly the placeholders whose ids the slice brings, and the rest stays in the table |
| Placement.RemoveAll | public/js/main.js:246 | removing nodes drops exactly those ids and their incident edges, and keeps ids unique and edges non-dangling |
| Placement.LandIds | public/js/main.js:243-268 | after landing, the drawn ids are the old ones less the replaced placeholders, plus the slice |
| Placement.LandAppends | public/js/main.js:267-268 | the placed slice, conflicts fixed, is appended after the surviving nodes |
| Placement.RaisedTop | public/js/main.js:333-334 | the new upper line lies at least 66 above the old one |
| Placement.Generate | public/js/main.js:219-274 | a slice landing below moves `generateOffset` to the last drawn node's y, keeps `newOffset`, and recomputes the not-stable list |
| Placement.GenerateShowsSlice | public/js/main.js:219-274 | after `generate` every unit of the slice is drawn, no placeholder entry remains for it, ids stay unique and no edge dangles |
| Placement.GenerateOffsetAtLastUnit | public/js/main.js:269 | when the slice fills its placeholders, `generateOffset` is the last layout node's y plus the lower offset |
| Placement.SetNew | public/js/main.js:309-368 | a slice landing on top keeps `generateOffset` and raises `newOffset` by at least 66 |
| Placement.StackedStrictlyAbove | public/js/main.js:333-334 | when a second upward slice does not start 66 or more lower in its own layout than the first, all of its nodes land strictly above all of the first's |
| Placement.SetNewShowsSlice | public/js/main.js:309-368 | after `setNew` every unit of the slice is drawn, no top placeholder remains for it, ids stay unique and no edge dangles |
| Viewport.ScrollToPan | public/js/main.js:1119-1122 | pan plus scroll position equals half the height less the container's top, with a 0 or absent argument read as the live scroll |
| Viewport.PanToScroll | public/js/main.js:1124-1128 | the same relation read the other way, with the top taken from the argument when given |
| Viewport.ScrollPanRoundTrip | public/js/main.js:1119-1128 | converting a non-zero scroll position to pan and back gives it back |
| Viewport.PanScrollRoundTrip | public/js/main.js:1119-1128 | converting a non-zero pan to scroll and back gives it back |
| Viewport.ZeroPanReadsAsMissing | public/js/main.js:1125 | a pan of exactly 0 is taken as missing, so the round trip breaks there |
| Requests.CallStart | public/js/main.js:41-53 | `start` sends one request; a unit hash closes the top at once, and no other flag changes |
| Requests.GetNext | public/js/main.js:1018-1023 | a request goes out exactly when none is pending and the graph is initialised, and then it is pending |
| Requests.GetPrev | public/js/main.js:1025-1030 | the same for the upward request |
| Requests.GetNew | public/js/main.js:1006-1016 | nothing while more units wait above; otherwise one request when none is pending, else the call is remembered as delayed |
| Requests.GetHighlight | public/js/main.js:1032-1037 | a request goes out exactly when none is pending, and one is pending afterwards |
| Requests.Highlight | public/js/main.js:516-546 | a drawn unit asks for its info, and raises the `prev` flag exactly when it lies off screen; any other unit is remembered and asked for by a jump request, sent only when none is pending |
| Requests.AnimationEnd | public/js/main.js:530-537 | the end of the pan drops the `prev` flag and sends nothing |
| Requests.Replay | public/js/main.js:700-703 | a remembered unit is highlighted again and then forgotten; without one nothing is sent; the direction, `new` and top/bottom flags are untouched |
| Requests.OnStart | public/js/main.js:654-659 | with `init` (lines 12-39): the page is initialised, the bottom reopened, the top closed exactly for a unit hash, the jump flag cleared; a unit hash asks for info when drawn (raising the `prev` flag when off screen) and for a jump otherwise |
| Requests.OnNext | public/js/main.js:661-682 | after the bottom was reached the reply is ignored; otherwise the `next` and jump flags clear, a remembered unit is replayed (info when drawn, a jump request otherwise), and an empty batch marks the bottom |
| Requests.OnPrev | public/js/main.js:684-705 | the `prev` and jump flags clear, an `end` reply reopens the page to `new` requests, and a remembered unit is replayed; the `prev` flag is raised again exactly when the replayed unit pans into view |
| Requests.OnNew | public/js/main.js:861-881 | the wait clears; a full batch of 100 closes the top, so `getNew` sends nothing afterwards; a delayed call made during the reply is deferred again instead of sent |
| Requests.NextInFlight | public/js/main.js:1018-1023 | over any event sequence, downward requests sent never exceed replies received plus one |
| Requests.PrevInFlight | public/js/main.js:1025-1030 | upward requests sent never exceed replies received plus ends of the pan animation plus one |
| Requests.PrevTwiceInFlight | public/js/main.js:527-537 | a pan that starts and ends while an upward request is pending lets a second one out before any reply |
| Requests.OnInfo | public/js/main.js:804-805 | the `info` reply drops the jump flag and sends nothing |
| Requests.UnknownHighlightDoesNotBlock | public/js/main.js:804-805 | a jump to a unit the server does not know is answered by `info`, after which the next jump request goes out |
| Requests.FromInitial | public/js/main.js:646-647 | from the flags the page loads with, `getNext` and `getPrev` send nothing, and at most one `next` and one `new` request are ever in flight |
| Requests.StartForUnitBlocksNew | public/js/main.js:45-48 | after `start` for a unit hash, `getNew` sends nothing even before the reply |
| Requests.NewInFlight | public/js/main.js:1006-1016 | the same bound for requests for new units |
| Requests.DelayedNewIsDeferredAgain | public/js/main.js:870-873 | a second `getNew` made while the first is pending is not sent when the reply arrives, only on the next call |
| Requests.NextStaysBlockedAfterBottom | public/js/main.js:654-682 | once an empty batch closes the bottom, a later request's reply is ignored, and after a new `start` `getNext` sends nothing more |
| Session.MergeEdges | public/js/main.js:664-668 | merged edges hold the union of keys, a received edge overwriting an old one under its key, in the old insertion order extended |
| Session.OnNextData | public/js/main.js:661-682 | the nodes become the old list followed by the received units, the edges the old edges with the received ones merged in by key, and `lastUnit` the last loaded ROWID; nothing loaded and nothing received is a crash |
| Session.OnUpperData | public/js/main.js:684-705 | an empty batch changes nothing; otherwise the nodes become the received units followed by the old list, the edges are merged by key, and `firstUnit` becomes the first received ROWID |
| Session.NextKeepsRepeats | public/js/main.js:664 | a unit already loaded and received again is listed twice |
| Session.UpperKeepsRepeats | public/js/main.js:687 | the same when units arrive from above |
| Session.BoundsOfOrderedBatch | public/js/main.js:670-693 | with a batch in the server's highest-first order, `firstUnit` is its highest ROWID and `lastUnit` its lowest |
| Units.NodeOf | controllers/units.js:43-49 | a unit row becomes a node with the same unit and ROWID and the short label |
| Units.EdgeOf | controllers/units.js:24-30 | a parenthood row becomes an edge from child to parent, best exactly when the parent is the child's best parent |
| Units.EdgeMap | controllers/units.js:57-65 | the map holds a key exactly for each `child_parent` pair among the rows |
| Units.EdgeMapLastWins | controllers/units.js:57-65 | each key holds the edge of the last row with that pair |
| Units.EdgeMapKeyedByEnds | controllers/units.js:58-62 | every stored edge sits under the key of its own ends |
| Units.LastUnits | controllers/units.js:9-34 | one node per parenthood row, repeats included, and an edge key for exactly the rows' pairs |
| Units.Below | controllers/units.js:41 | the rows below a bound are exactly the table's rows under it, still ascending |
| Units.SelectBefore | controllers/units.js:41 | the selection has min(limit, rows below) rows, all of them in the table and under the bound |
| Units.SelectBeforeHolds | controllers/units.js:41 | every row within `limit` ROWIDs below the bound is selected |
| Units.SelectBeforeNearest | controllers/units.js:41 | `ORDER BY ROWID DESC LIMIT` keeps the rows nearest the bound: a row below the bound that is left out lies below every row kept, whatever gaps the ROWIDs have |
| Units.SelectBeforeDescending | controllers/units.js:41 | the selection comes highest first |
| Units.SelectAfter | controllers/units.js:80 | the selection has min(limit, rows above) rows, all above the bound |
| Units.SelectAfterNearest | controllers/units.js:80 | `ORDER BY ROWID ASC LIMIT` keeps the rows nearest the bound: a row above the bound that is left out lies above every row kept |
| Units.SelectAfterHolds | controllers/units.js:80 | every row within `limit` ROWIDs above the bound is selected |
| Units.SortDesc | controllers/units.js:91-99 | the sorted nodes are a permutation of the input, highest ROWID first |
| Units.Touching | controllers/units.js:53-56 | the edge query keeps exactly the rows whose child or parent is selected |
| Units.UnitsBefore | controllers/units.js:36-73 | nodes strictly descending, as many as the selection, all below the bound; no nodes means no edges; edges keyed by their ends and touching the selection |
| Units.UnitsAfter | controllers/units.js:75-123 | nodes sorted highest first, a permutation of the selection, all above the bound; no nodes means no edges |
| Units.EdgesTouch | controllers/units.js:103-115 | every edge built from touching rows has an end among the selected units |
| Units.ParentsAndChildren | controllers/units.js:125-146 | the parents are exactly the parents of rows whose child is the unit; the children are the children of all other rows; one entry per row, so there are as many parents as rows whose child is the unit |
| Units.SpenderMap | controllers/units.js:161-171 | the map has an entry exactly for each output id spent, the last row winning |
| Units.SpentOf | controllers/units.js:180-185 | an output reads as spent exactly when a non-empty spender is known, and then names it |
| Units.UnitOutputs | controllers/units.js:173-192 | a group exists exactly for each asset key among the outputs, a missing asset keyed `null` |
| Units.UnitOutputsGroups | controllers/units.js:178-187 | each group holds exactly its asset's outputs in query order, annotated with their spenders |
| Units.OfAssetContents | controllers/units.js:178-187 | a group lists only outputs of its own asset, each with its spender, and every output of the asset appears in it |
| Units.BecameStable | controllers/units.js:313-318 | an empty list answers nothing without a query; otherwise every stable row of a listed unit is answered, and every answered row is one of them, with its main-chain flag |
| Address.AddSender | controllers/address.js:141 | a sender is added once: membership grows by the address, with no repeats |
| Address.AddOut | controllers/address.js:142-148 | an output key is added once, as unspent, and existing outputs are never overwritten |
| Address.AddRow | controllers/address.js:131-149 | one row adds its `unit_asset` record if missing, its sender and its output, and changes no other record |
| Address.GroupKeys | controllers/address.js:130-149 | there is a record exactly for each `unit_asset` pair among the rows |
| Address.GroupFromFirstRow | controllers/address.js:132-140 | a record's unit, asset and output id come from the first row of its pair |
| Address.GroupSenders | controllers/address.js:141 | a record's senders are exactly the input addresses of its rows |
| Address.GroupSendersDistinct | controllers/address.js:141 | no sender is listed twice |
| Address.GroupOutputs | controllers/address.js:142-148 | each output of a record is the first row's address and amount for that output key, unspent |
| Address.OutputsFromRows | controllers/address.js:142-148 | every output of a record comes from some row of that record |
| Address.MarkSpent | controllers/address.js:151-156 | a record becomes spent exactly when it already was or the address is among its senders; the sender list is cleared and nothing else changes |
| Address.TxUnits | controllers/address.js:10-13 | the unit list has no repeats and holds exactly the records' units |
| Address.AddSources | controllers/address.js:19-35 | the funding rows never create or reorder records: the record order and the set of keys stay as they were |
| Address.AddSourcesFrom | controllers/address.js:19-35 | each record's sources grow by exactly the funding rows for its key, in order, and nothing else about the record changes |
| Address.SetSpent | controllers/address.js:82-88 | only spent marks of existing outputs change |
| Address.SetSpentLastWins | controllers/address.js:82-88 | an output's final mark is its last spender, and an output nobody spends keeps its mark |
| Address.CursorOf | controllers/address.js:111-114 | the next-page cursor is the last row's input and output ROWIDs, and absent when there are no rows |
| Address.AddressTransactions | controllers/address.js:118-174 | no units or no rows gives null; otherwise one well-formed record per `unit_asset` pair among the rows |
| Address.SpentIffSender | controllers/address.js:151-156 | in the page, a record is spent exactly when the address sent one of its rows |
| Address.EndOf | controllers/address.js:193 | `end` is absent without a page, and otherwise true exactly when the page has fewer than five records |
| Address.BalanceOf | controllers/address.js:179-190 | the balance has `bytes` first and exactly the keys `bytes` and those of the assets among the unspent outputs |
| Address.BalanceKeysMembers | controllers/address.js:181-188 | a balance key is gathered exactly when some unspent output has that asset (`bytes` for none) |
| Address.BalanceSums | controllers/address.js:181-188 | each key of the balance holds the sum of the amounts of its asset's outputs |
| Address.NoSumOutside | controllers/address.js:179-190 | an asset with no unspent output sums to 0 |
| Address.AddressBalance | controllers/address.js:179-190 | the balance is absent exactly when there is neither a page nor an unspent output |
| Dispatch.Lookup | controllers/ws.js:20 | the lookup fails exactly when no row has the unit, and otherwise returns a row of that unit |
| Dispatch.AddressInfoOf | controllers/address.js:176-208 | the handler crashes exactly when a definition hash has no definition row; the page, `end` and balance are absent as the queries dictate; the definition is present exactly with a hash, and is the first row's |
| Dispatch.Start | controllers/ws.js:8-64 | `last` sends the last units; `unit` sends the units around it or, when unknown, the last units flagged not found; `address` sends an empty view for an unknown address, the gathered `getAddressInfo` view for a known one, and nothing when that view crashes |
| Dispatch.StartShowsUnit | controllers/ws.js:30-37 | a known unit is among the nodes `start` sends |
| Dispatch.AroundUnitHolds | controllers/ws.js:30 | the 100 units below ROWID + 25 include the unit itself |
| Dispatch.Next | controllers/ws.js:66-78 | at most 100 nodes, all below `last`, as many as exist; no unstable list means no stable rows |
| Dispatch.Prev | controllers/ws.js:80-93 | nodes above `first`, and `end` is sent |
| Dispatch.PrevEndIffTop | controllers/ws.js:88 | `end` holds exactly when fewer than 100 units lie above `first` |
| Dispatch.New | controllers/ws.js:95-107 | nodes above the given unit; no unstable list means no stable rows |
| Dispatch.UnitsAfterCount | controllers/units.js:79-123 | the reply holds min(limit, units above) nodes |
| Dispatch.BeforeHolds | controllers/units.js:36-73 | every selected unit below the bound is among the nodes sent |
| Dispatch.AfterHolds | controllers/units.js:75-123 | every selected unit above the bound is among the nodes sent |
| Dispatch.Highlight | controllers/ws.js:120-156 | unknown units get `info`; a unit within 200 above `first` gets the upward batch; otherwise one within 200 below `last` gets the downward batch; any other unit gets a fresh start around it; the upward batch is min(200, units above) units all above `first`, the downward one min(200, units below) units all below `last`, the start the window around the unit; the upward `end` is the count test |
| Dispatch.HighlightShowsUnit | controllers/ws.js:120-156 | whichever branch is taken, the highlighted unit is among the nodes sent |
| Dispatch.HighlightPrevEnd | controllers/ws.js:126-133 | though the query asks for 200, `end` still means fewer than 100 units above `first` |
| Dispatch.NextPageOf | controllers/ws.js:158-170 | no page when there are no units or rows; `end` exactly when there is no page or it has fewer than five records |

## Left out

- The rendering library, the dagre layout and the DOM are not modelled.
  The library is modelled only through the effects the code relies on:
  - adding a node whose id is present is skipped;
  - removing a node removes its edges;
  - an edge's `source()` and `target()` stringify to its end nodes' ids,
    so the key `source() + '_' + target()` read back from a drawn edge is
    the join of those ids.
- The layout's coordinates are inputs.
- `createCy`, `createGraph`, `animationPanUp`, `scrollUp`, `goToTop`,
  `updateScrollHeigth` and the pan/scroll/zoom event handlers of
  `main.js`: these are animation and UI wiring with no state the core
  reads back.
- Of `highlightNode`, only what reaches the request flags is modelled: the
  selection of the node, its `active` class and the pan itself are drawing.
  Whether the unit is drawn and whether it is off screen are inputs.
- The `info` page handler is modelled only through its release of
  `bWaitingForHighlightNode` (`Requests.OnInfo`); the panel it fills is
  HTML built from server data.
- The `addressInfo` and `nextPageTransactions` page handlers and
  `getNextPageTransactions` are not modelled. Besides building HTML they
  clear and re-raise `bWaitingForNextPageTransactions` and store the page
  cursor; that flag of the address view is not part of the request
  model, which covers the DAG view's requests.
- `generateMessageInfo` and `generateTransactionsList` are not modelled:
  they build HTML from server data.
- `init`'s scene reset (main.js lines 12-31) is not modelled as a step: a
  new canvas, `generateOffset = 0`, `newOffset = -116`, empty placeholder
  and not-stable tables, and `firstUnit`/`lastUnit` read from the first
  and last node (which fails on an empty reply). Every member takes the
  scene and its offsets as inputs, so these starting values are inputs
  too.
- `formatAllNumbers` walks the DOM and is not modelled. The number
  formatting it calls is `Text.NumberFormat`.
- `getInfoOnUnit`, `getTransfersInfo`, `getUnitCommissions`,
  `setDefinitionInAuthors` and `getUnitSequence` of `units.js`, and the
  `info` handler of `ws.js`: these serve the unit info panel, which is
  outside this core. `getParentsAndChildren`, `getSpentOutputs` and
  `getUnitOutputs` are modelled as functions of their rows.
- SQL queries are not modelled. Their results are given as rows in the
  query's order, and the joins and the `GROUP BY` in
  `getUnitsForTransactionsAddress` are not re-derived.
- The commission sums of `getAmountForInfoAddress` are not modelled.
  `async.each` can append commission sources in callback order. The
  funding rows are taken in arrival order, and each commission sum is
  given with its row.
- Dates (`moment`) are not modelled, nor the `date` field.
- Socket I/O is not modelled. Replies are values and requests are events.
- Floating point is not modelled. Coordinates and amounts are unbounded
  numbers.
- Units.UnitsBefore: its own contract states order, count, bound and
  edges but not which rows are sent. That every selected row is sent is
  proved separately as `Dispatch.BeforeHolds`.
- Address.AddressTransactions: its contract states keys, well-formedness,
  the cursor and the cleared sender lists. What each record holds is
  proved separately, in `Address.SpentIffSender`, `Address.AddSourcesFrom`
  and `Address.SetSpentLastWins`.
- Placement.Generate: the x of each placed node is not stated here. It is
  proved in `Placement.PlacedX`, and the offset in
  `Placement.GenerateOffsetAtLastUnit`.
- Conflicts.FixConflicts: the code matches conflicting nodes back to the
  list by `data.id` and moves each id once, so the contract follows the
  code only for distinct ids. The layout's node ids are distinct.
- Requests.OnNew: the sending of the delayed request is stated only
  through `Requests.DelayedNewIsDeferredAgain`.
- Viewport.ScrollPanRoundTrip: this holds only for non-zero values. A
  value of 0 is read as missing, as `Viewport.ZeroPanReadsAsMissing`
  shows.
- Text.NumberFormat: this is stated for digit strings only. Decimals and
  signs pass through the same regular expressions but are not
  characterised.

## Behaviour of the code worth knowing

- `fixConflicts` does not keep nodes 60 apart when a row mixes signs. The
  offsets of left- and right-moving nodes cancel
  (`Conflicts.MixedSignsCollide`).
- The scroll/pan converters treat a position of exactly 0 as absent
  (`Viewport.ZeroPanReadsAsMissing`).
- In the `new` handler, a delayed `getNew` runs while `bWaitingForNew` is
  still set. It is therefore delayed again rather than sent
  (`Requests.DelayedNewIsDeferredAgain`).
- After an empty `next` batch, later `next` replies are ignored, and
  `bWaitingForNext` is never cleared. `start` does not clear it either, so
  `getNext` stays silent afterwards (`Requests.NextStaysBlockedAfterBottom`).
- `highlightNode` raises `bWaitingForPrev` for the length of its pan, and
  the pan's end clears it even when a `prev` request is pending. A second
  `prev` request can then go out before the first reply
  (`Requests.PrevTwiceInFlight`).
- `highlightNode`'s upward branch asks for 200 units but sends
  `end: nodes.length < 100`. That still means fewer than 100 units above
  `first` (`Dispatch.HighlightPrevEnd`).
- Received units are concatenated without removing repeats
  (`Session.NextKeepsRepeats`).
- `getLastUnits` sends one node per parenthood row. A unit with several
  parents is listed several times (`Units.LastUnits`).
- `getAddressInfo` reads `rowsDefinitions[0]` without checking for an
  empty result, so a definition hash without a definition row crashes the
  handler (`Dispatch.AddressInfoOf`).
- When nothing lies past the bound, the `units.js` selections answer
  `cb([], [])`. The edges are then an empty array instead of an object, and
  the model gives an empty edge store.
- `setChangesStableUnits` calls `splice(indexOf(unit), 1)`. For a unit not
  in the list this removes the list's last element. The list is rebuilt
  from the drawn nodes right after, so the model keeps only the rebuild
  (`Stability.SetChangesStable`).

=== FILE: address.dfy ===
/** Address page aggregation (controllers/address.js): the transactions of an
    address grouped by unit and asset, the inputs that fund them, the spent
    marks on their outputs, the balance per asset, the pagination cursor and
    the end flag. Query results are given as row sequences in query order. */
module Address {
  import opened Base
  import opened Text
  import opened Render
  import opened Units

  /** A row of the transaction query: one input address and one output of a
      unit. */
  datatype TxRow = TxRow(
    unit: UnitId,
    address: string,
    addressTo: string,
    amount: int,
    asset: Option<string>,
    outputId: int,
    messageIndex: int,
    outputIndex: int)

  /** The key of an output inside a transaction, `output_id_message_index_output_index`;
      decimal numbers hold no underscore, so the key is as fine as the triple. */
  datatype OutKey = OutKey(outputId: int, messageIndex: int, outputIndex: int)

  /** The spent mark of an output: 0 until a spender is known. */
  datatype OutSpent = Unspent | SpentIn(unit: UnitId)

  /** An output of a transaction. */
  datatype Out = Out(address: string, amount: int, spent: OutSpent)

  /** Where a transaction's funds come from. */
  datatype Source =
    | Transfer(address: string, amount: int)
    | Issue(amount: int, serial: int, address: string)
    | Commission(kind: string, address: string, fromMci: int, toMci: int, sum: int)

  /** A transaction record while the rows are read: `senders` is the list of
      input addresses, later replaced by the sources. */
  datatype Tx = Tx(
    unit: UnitId,
    senders: seq<string>,
    from: seq<Source>,
    to: Dict<OutKey, Out>,
    spent: bool,
    asset: Option<string>,
    outputId: int)

  /** The key of a transaction record, `unit + '_' + asset`. Unit hashes hold
      no underscore, so two keys are equal exactly when unit and asset key
      are (`Text.JoinKeyInjective`); the pair stands for the joined string. */
  datatype TxId = TxId(unit: UnitId, asset: string)

  type Txs = Dict<TxId, Tx>

  /** The record map and every record's output map are well formed. */
  ghost predicate WellFormed(txs: Txs) {
    && txs.Valid()
    && forall k :: k in txs.values ==> txs.values[k].to.Valid()
  }

  /** The record key of a row. */
  function TxKey(r: TxRow): TxId {
    TxId(r.unit, AssetKey(r.asset))
  }

  function OutKeyOf(r: TxRow): OutKey {
    OutKey(r.outputId, r.messageIndex, r.outputIndex)
  }

  /** The record a row lands in: the existing one of its key, or a fresh one
      taking unit, asset and output id from the row. */
  function Entry(txs: Txs, r: TxRow): (tx: Tx)
    ensures TxKey(r) in txs.values ==> tx == txs.values[TxKey(r)]
    ensures TxKey(r) !in txs.values ==> tx == Tx(r.unit, [], [], EmptyDict(), false, r.asset, r.outputId)
  {
    if TxKey(r) in txs.values then txs.values[TxKey(r)]
    else Tx(r.unit, [], [], EmptyDict(), false, r.asset, r.outputId)
  }

  /** The input address appended unless already listed. */
  function AddSender(senders: seq<string>, a: string): (s: seq<string>)
    ensures forall x :: x in s <==> x in senders || x == a
    ensures Distinct(senders) ==> Distinct(s)
  {
    if a in senders then senders else senders + [a]
  }

  /** The output of a row added unless its key is present: the first row
      naming an output wins. */
  function AddOut(to: Dict<OutKey, Out>, r: TxRow): (d: Dict<OutKey, Out>)
    ensures to.Valid() ==> d.Valid()
    ensures d.values.Keys == to.values.Keys + {OutKeyOf(r)}
    ensures forall o :: o in to.values ==> d.values[o] == to.values[o]
    ensures OutKeyOf(r) !in to.values ==> d.values[OutKeyOf(r)] == Out(r.addressTo, r.amount, Unspent)
  {
    if OutKeyOf(r) in to.values then to else Put(to, OutKeyOf(r), Out(r.addressTo, r.amount, Unspent))
  }

  /** One row read into the records: a record is created from the first row
      of its key; the input address is added unless listed; the output is
      added unless its key is present. */
  function AddRow(txs: Txs, r: TxRow): (t: Txs)
    requires WellFormed(txs)
    ensures WellFormed(t)
    ensures t.values.Keys == txs.values.Keys + {TxKey(r)}
    ensures forall k :: k in txs.values && k != TxKey(r) ==> t.values[k] == txs.values[k]
    ensures t.values[TxKey(r)] == Entry(txs, r).(senders := AddSender(Entry(txs, r).senders, r.address),
                                                  to := AddOut(Entry(txs, r).to, r))
  {
    var tx := Entry(txs, r);
    Put(txs, TxKey(r), tx.(senders := AddSender(tx.senders, r.address), to := AddOut(tx.to, r)))
  }

  /** The rows read in order (the loop over the transaction rows). */
  function Group(rows: seq<TxRow>): (t: Txs)
    ensures WellFormed(t)
    decreases |rows|
  {
    if rows == [] then EmptyDict()
    else AddRow(Group(rows[..|rows| - 1]), rows[|rows| - 1])
  }

  /** Some row has key `k`. */
  ghost predicate KeyFrom(rows: seq<TxRow>, k: TxId) {
    exists i :: 0 <= i < |rows| && TxKey(rows[i]) == k
  }

  lemma KeyFromSnoc(rows: seq<TxRow>, k: TxId)
    requires rows != []
    ensures KeyFrom(rows, k) <==> KeyFrom(rows[..|rows| - 1], k) || TxKey(rows[|rows| - 1]) == k
  {
    var init := rows[..|rows| - 1];
    if KeyFrom(rows, k) {
      var i :| 0 <= i < |rows| && TxKey(rows[i]) == k;
      if i < |init| { assert init[i] == rows[i]; }
    }
    if KeyFrom(init, k) {
      var i :| 0 <= i < |init| && TxKey(init[i]) == k;
      assert rows[i] == init[i];
    }
  }

  /** There is a record for every key of the rows and for no other key. */
  lemma {:induction false} GroupKeys(rows: seq<TxRow>, k: TxId)
    ensures k in Group(rows).values <==> KeyFrom(rows, k)
    decreases |rows|
  {
    if rows != [] {
      KeyFromSnoc(rows, k);
      GroupKeys(rows[..|rows| - 1], k);
    }
  }

  /** `i` is the first row with key `k`. */
  ghost predicate FirstOfKey(rows: seq<TxRow>, k: TxId, i: int) {
    0 <= i < |rows| && TxKey(rows[i]) == k && forall j :: 0 <= j < i ==> TxKey(rows[j]) != k
  }

  /** A record takes its unit, asset and output id from the first row of its
      key. */
  lemma {:induction false} GroupFromFirstRow(rows: seq<TxRow>, k: TxId, i: int)
    requires FirstOfKey(rows, k, i)
    ensures k in Group(rows).values
    ensures Group(rows).values[k].unit == rows[i].unit
    ensures Group(rows).values[k].asset == rows[i].asset
    ensures Group(rows).values[k].outputId == rows[i].outputId
    decreases |rows|
  {
    var init := rows[..|rows| - 1];
    if i < |rows| - 1 {
      assert FirstOfKey(init, k, i) by {
        assert forall j :: 0 <= j <= i ==> init[j] == rows[j];
      }
      GroupFromFirstRow(init, k, i);
    } else {
      assert forall j :: 0 <= j < |init| ==> TxKey(init[j]) != k by {
        assert forall j :: 0 <= j < |init| ==> init[j] == rows[j];
      }
      GroupKeys(init, k);
    }
  }

  /** Some row of key `k` has input address `a`. */
  ghost predicate SentFrom(rows: seq<TxRow>, k: TxId, a: string) {
    exists i :: 0 <= i < |rows| && TxKey(rows[i]) == k && rows[i].address == a
  }

  lemma SentFromSnoc(rows: seq<TxRow>, k: TxId, a: string)
    requires rows != []
    ensures SentFrom(rows, k, a) <==>
      SentFrom(rows[..|rows| - 1], k, a) || (TxKey(rows[|rows| - 1]) == k && rows[|rows| - 1].address == a)
  {
    var init := rows[..|rows| - 1];
    if SentFrom(rows, k, a) {
      var i :| 0 <= i < |rows| && TxKey(rows[i]) == k && rows[i].address == a;
      if i < |init| { assert init[i] == rows[i]; }
    }
    if SentFrom(init, k, a) {
      var i :| 0 <= i < |init| && TxKey(init[i]) == k && init[i].address == a;
      assert rows[i] == init[i];
    }
  }

  /** The senders of a record are exactly the input addresses of its rows. */
  lemma {:induction false} GroupSenders(rows: seq<TxRow>, k: TxId, a: string)
    requires k in Group(rows).values
    ensures a in Group(rows).values[k].senders <==> SentFrom(rows, k, a)
    decreases |rows|
  {
    var init := rows[..|rows| - 1];
    SentFromSnoc(rows, k, a);
    AddRowSenders(Group(init), rows[|rows| - 1], k, a);
    if k in Group(init).values {
      GroupSenders(init, k, a);
    } else {
      GroupKeys(init, k);
      assert !SentFrom(init, k, a);
    }
  }

  /** One row read: the record's senders gain the row's input address when
      the row is of its key. */
  lemma AddRowSenders(txs: Txs, r: TxRow, k: TxId, a: string)
    requires WellFormed(txs) && k in AddRow(txs, r).values
    ensures a in AddRow(txs, r).values[k].senders <==>
      (k in txs.values && a in txs.values[k].senders) || (TxKey(r) == k && r.address == a)
  {
  }

  /** No input address is listed twice. */
  lemma {:induction false} GroupSendersDistinct(rows: seq<TxRow>, k: TxId)
    requires k in Group(rows).values
    ensures Distinct(Group(rows).values[k].senders)
    decreases |rows|
  {
    var init := rows[..|rows| - 1];
    if k in Group(init).values {
      GroupSendersDistinct(init, k);
    }
  }

  /** `i` is the first row of key `k` carrying output key `o`. */
  ghost predicate FirstOfOut(rows: seq<TxRow>, k: TxId, o: OutKey, i: int) {
    && 0 <= i < |rows| && TxKey(rows[i]) == k && OutKeyOf(rows[i]) == o
    && forall j :: 0 <= j < i ==> !(TxKey(rows[j]) == k && OutKeyOf(rows[j]) == o)
  }

  /** An output of a record is the one of the first row that names it, with
      spent mark 0. */
  lemma {:induction false} GroupOutputs(rows: seq<TxRow>, k: TxId, o: OutKey, i: int)
    requires FirstOfOut(rows, k, o, i)
    ensures k in Group(rows).values && o in Group(rows).values[k].to.values
    ensures Group(rows).values[k].to.values[o] == Out(rows[i].addressTo, rows[i].amount, Unspent)
    decreases |rows|
  {
    var init := rows[..|rows| - 1];
    if i < |rows| - 1 {
      assert FirstOfOut(init, k, o, i) by {
        assert forall j :: 0 <= j <= i ==> init[j] == rows[j];
      }
      GroupOutputs(init, k, o, i);
    } else if k in Group(init).values {
      assert forall j :: 0 <= j < |init| ==> !(TxKey(init[j]) == k && OutKeyOf(init[j]) == o) by {
        assert forall j :: 0 <= j < |init| ==> init[j] == rows[j];
      }
      NoRowNoOutput(init, k, o);
    }
  }

  /** Some row of key `k` carries output key `o`. */
  ghost predicate OutFrom(rows: seq<TxRow>, k: TxId, o: OutKey) {
    exists i :: 0 <= i < |rows| && TxKey(rows[i]) == k && OutKeyOf(rows[i]) == o
  }

  /** Every output key of a record comes from one of its rows. */
  lemma {:induction false} OutputsFromRows(rows: seq<TxRow>, k: TxId, o: OutKey)
    requires k in Group(rows).values && o in Group(rows).values[k].to.values
    ensures OutFrom(rows, k, o)
    decreases |rows|
  {
    var init := rows[..|rows| - 1];
    OutFromSnoc(rows, k, o);
    if !(TxKey(rows[|rows| - 1]) == k && OutKeyOf(rows[|rows| - 1]) == o) {
      AddRowOutputFrom(Group(init), rows[|rows| - 1], k, o);
      OutputsFromRows(init, k, o);
    }
  }

  /** An output a row does not name was in the record before the row. */
  lemma AddRowOutputFrom(txs: Txs, r: TxRow, k: TxId, o: OutKey)
    requires WellFormed(txs)
    requires k in AddRow(txs, r).values && o in AddRow(txs, r).values[k].to.values
    requires !(TxKey(r) == k && OutKeyOf(r) == o)
    ensures k in txs.values && o in txs.values[k].to.values
  {
  }

  lemma OutFromSnoc(rows: seq<TxRow>, k: TxId, o: OutKey)
    requires rows != []
    ensures OutFrom(rows, k, o) <==>
      OutFrom(rows[..|rows| - 1], k, o) || (TxKey(rows[|rows| - 1]) == k && OutKeyOf(rows[|rows| - 1]) == o)
  {
    var init := rows[..|rows| - 1];
    if OutFrom(rows, k, o) {
      var i :| 0 <= i < |rows| && TxKey(rows[i]) == k && OutKeyOf(rows[i]) == o;
      if i < |init| { assert init[i] == rows[i]; }
    }
    if OutFrom(init, k, o) {
      var i :| 0 <= i < |init| && TxKey(init[i]) == k && OutKeyOf(init[i]) == o;
      assert rows[i] == init[i];
    }
  }

  /** The contrapositive: no row naming the output, no output. */
  lemma {:induction false} NoRowNoOutput(rows: seq<TxRow>, k: TxId, o: OutKey)
    requires k in Group(rows).values
    requires forall j :: 0 <= j < |rows| ==> !(TxKey(rows[j]) == k && OutKeyOf(rows[j]) == o)
    ensures o !in Group(rows).values[k].to.values
    decreases |rows|
  {
    var init := rows[..|rows| - 1];
    if k in Group(init).values {
      assert forall j :: 0 <= j < |init| ==> init[j] == rows[j];
      NoRowNoOutput(init, k, o);
    }
    assert !(TxKey(rows[|rows| - 1]) == k && OutKeyOf(rows[|rows| - 1]) == o);
    AddRowKeepsAbsent(Group(init), rows[|rows| - 1], k, o);
  }

  /** A row that does not name the output leaves it absent from the record. */
  lemma AddRowKeepsAbsent(txs: Txs, r: TxRow, k: TxId, o: OutKey)
    requires WellFormed(txs)
    requires !(TxKey(r) == k && OutKeyOf(r) == o)
    requires k in txs.values ==> o !in txs.values[k].to.values
    ensures k in AddRow(txs, r).values ==> o !in AddRow(txs, r).values[k].to.values
  {
  }

  /** The pass after grouping: a record is marked spent when the address is
      among its senders, and its senders are cleared. */
  function MarkSpent(txs: Txs, address: string): (t: Txs)
    requires WellFormed(txs)
    ensures WellFormed(t)
    ensures t.order == txs.order && t.values.Keys == txs.values.Keys
    ensures forall k :: k in t.values ==>
      && t.values[k] == txs.values[k].(spent := t.values[k].spent, senders := [])
      && (t.values[k].spent <==> txs.values[k].spent || address in txs.values[k].senders)
  {
    var values := map k | k in txs.values ::
      var tx := txs.values[k];
      tx.(spent := tx.spent || address in tx.senders, senders := []);
    Dict(txs.order, values)
  }

  /** Units of the records in key order, each once (`indexOf(...) == -1`). */
  function UnitList(order: seq<TxId>, values: map<TxId, Tx>): (us: seq<UnitId>)
    requires forall k :: k in order ==> k in values
    ensures Distinct(us)
    ensures forall u :: u in us <==> exists k :: k in order && values[k].unit == u
    decreases |order|
  {
    if order == [] then []
    else
      var init := order[..|order| - 1];
      var us := UnitList(init, values);
      var u := values[order[|order| - 1]].unit;
      assert forall k :: k in order <==> k in init || k == order[|order| - 1];
      if u in us then us else us + [u]
  }

  function TxUnits(txs: Txs): (us: seq<UnitId>)
    requires txs.Valid()
    ensures Distinct(us)
    ensures forall u :: u in us <==> exists k :: k in txs.values && txs.values[k].unit == u
  {
    UnitList(txs.order, txs.values)
  }

  /** A funding row of `getAmountForInfoAddress`, already in the order the
      records receive them: transfers, then issues, then commissions as
      their sums arrive. */
  datatype FundRow = FundRow(unit: UnitId, asset: Option<string>, source: Source)

  /** One funding row appended to the sources of the record it names, when
      that record exists. */
  function AddSource(txs: Txs, f: FundRow): (t: Txs)
    requires WellFormed(txs)
    ensures WellFormed(t)
    ensures t.order == txs.order && t.values.Keys == txs.values.Keys
  {
    var k := TxId(f.unit, AssetKey(f.asset));
    if k in txs.values then
      var tx := txs.values[k];
      Dict(txs.order, txs.values[k := tx.(from := tx.from + [f.source])])
    else txs
  }

  /** Funding rows appended to the sources of the record they name; a row
      whose record does not exist is dropped. */
  function AddSources(txs: Txs, fs: seq<FundRow>): (t: Txs)
    requires WellFormed(txs)
    ensures WellFormed(t)
    ensures t.order == txs.order && t.values.Keys == txs.values.Keys
    decreases |fs|
  {
    if fs == [] then txs
    else AddSource(AddSources(txs, fs[..|fs| - 1]), fs[|fs| - 1])
  }

  /** Two records agree except possibly in their sources. */
  ghost predicate SameButSources(a: Tx, b: Tx) {
    && a.unit == b.unit && a.senders == b.senders && a.to == b.to
    && a.spent == b.spent && a.asset == b.asset && a.outputId == b.outputId
  }

  /** Each record's sources grow by exactly the funding rows for its key, in
      order, and nothing else about it changes. */
  lemma {:induction false} AddSourcesFrom(txs: Txs, fs: seq<FundRow>, k: TxId)
    requires WellFormed(txs) && k in txs.values
    ensures k in AddSources(txs, fs).values
    ensures SameButSources(AddSources(txs, fs).values[k], txs.values[k])
    ensures AddSources(txs, fs).values[k].from == txs.values[k].from + SourcesFor(fs, k)
    decreases |fs|
  {
    if fs != [] {
      var init := fs[..|fs| - 1];
      var f := fs[|fs| - 1];
      var extra := if TxId(f.unit, AssetKey(f.asset)) == k then [f.source] else [];
      AddSourcesFrom(txs, init, k);
      AddSourceAt(AddSources(txs, init), f, k);
      assert SourcesFor(fs, k) == SourcesFor(init, k) + extra;
      AppendStep(txs.values[k].from, SourcesFor(init, k), extra,
        AddSources(txs, init).values[k].from, AddSources(txs, fs).values[k].from);
    }
  }

  /** Appending in two steps appends the concatenation. */
  lemma AppendStep<T>(a: seq<T>, b: seq<T>, c: seq<T>, x: seq<T>, y: seq<T>)
    requires x == a + b && y == x + c
    ensures y == a + (b + c)
  {
  }

  /** The funding rows leave every record's senders and spent flag alone. */
  lemma AddSourcesKeeps(txs: Txs, fs: seq<FundRow>)
    requires WellFormed(txs)
    ensures forall k :: k in AddSources(txs, fs).values ==>
      && AddSources(txs, fs).values[k].senders == txs.values[k].senders
      && AddSources(txs, fs).values[k].spent == txs.values[k].spent
  {
    forall k | k in AddSources(txs, fs).values
      ensures AddSources(txs, fs).values[k].senders == txs.values[k].senders
      ensures AddSources(txs, fs).values[k].spent == txs.values[k].spent
    {
      AddSourcesFrom(txs, fs, k);
    }
  }

  /** One funding row at one record. */
  lemma AddSourceAt(txs: Txs, f: FundRow, k: TxId)
    requires WellFormed(txs) && k in txs.values
    ensures k in AddSource(txs, f).values
    ensures SameButSources(AddSource(txs, f).values[k], txs.values[k])
    ensures AddSource(txs, f).values[k].from
         == txs.values[k].from + (if TxId(f.unit, AssetKey(f.asset)) == k then [f.source] else [])
  {
  }

  /** The sources the funding rows give the record with key `k`, in order. */
  function SourcesFor(fs: seq<FundRow>, k: TxId): seq<Source> {
    if fs == [] then []
    else
      var f := fs[|fs| - 1];
      SourcesFor(fs[..|fs| - 1], k) + (if TxId(f.unit, AssetKey(f.asset)) == k then [f.source] else [])
  }

  /** A spending row of address.js's `getSpentOutputs`: an output of a
      record's unit and the unit spending it. */
  datatype SpendOut = SpendOut(unit: UnitId, asset: Option<string>, key: OutKey, spender: UnitId)

  /** The record map changes at most in the spent marks of its outputs. */
  ghost predicate OnlySpentMarks(txs: Txs, t: Txs) {
    && t.order == txs.order && t.values.Keys == txs.values.Keys
    && (forall k :: k in t.values ==>
         && t.values[k] == txs.values[k].(to := t.values[k].to)
         && t.values[k].to.order == txs.values[k].to.order
         && t.values[k].to.values.Keys == txs.values[k].to.values.Keys)
    && (forall k, o :: k in t.values && o in t.values[k].to.values ==>
         t.values[k].to.values[o] == txs.values[k].to.values[o].(spent := t.values[k].to.values[o].spent))
  }

  /** One spending row: the named output of the named record, when both
      exist, is marked spent by the spender. */
  function SpendOne(txs: Txs, s: SpendOut): (t: Txs)
    requires WellFormed(txs)
    ensures WellFormed(t)
    ensures OnlySpentMarks(txs, t)
    ensures forall k, o :: k in t.values && o in t.values[k].to.values ==>
      t.values[k].to.values[o].spent ==
        if TxId(s.unit, AssetKey(s.asset)) == k && s.key == o then SpentIn(s.spender)
        else txs.values[k].to.values[o].spent
  {
    var k := TxId(s.unit, AssetKey(s.asset));
    if k in txs.values && s.key in txs.values[k].to.values then
      var tx := txs.values[k];
      var to := Dict(tx.to.order, tx.to.values[s.key := tx.to.values[s.key].(spent := SpentIn(s.spender))]);
      Dict(txs.order, txs.values[k := tx.(to := to)])
    else txs
  }

  /** Spent marks set on outputs that exist; nothing is ever added. */
  function SetSpent(txs: Txs, ss: seq<SpendOut>): (t: Txs)
    requires WellFormed(txs)
    ensures WellFormed(t)
    ensures OnlySpentMarks(txs, t)
    decreases |ss|
  {
    if ss == [] then txs
    else SpendOne(SetSpent(txs, ss[..|ss| - 1]), ss[|ss| - 1])
  }

  /** An output of a record ends with the spender of the last spending row
      about it, or keeps its mark when there is none. */
  lemma {:induction false} SetSpentLastWins(txs: Txs, ss: seq<SpendOut>, k: TxId, o: OutKey)
    requires WellFormed(txs)
    requires k in txs.values && o in txs.values[k].to.values
    ensures var last := LastSpender(ss, k, o);
      SetSpent(txs, ss).values[k].to.values[o].spent
        == if last.Some? then SpentIn(last.value) else txs.values[k].to.values[o].spent
    decreases |ss|
  {
    if ss != [] {
      var init := ss[..|ss| - 1];
      SetSpentLastWins(txs, init, k, o);
      SpendOneAt(SetSpent(txs, init), ss[|ss| - 1], k, o);
    }
  }

  /** One spending row at one output: marked by the row when it names the
      output, unchanged otherwise. */
  lemma SpendOneAt(txs: Txs, s: SpendOut, k: TxId, o: OutKey)
    requires WellFormed(txs)
    requires k in txs.values && o in txs.values[k].to.values
    ensures k in SpendOne(txs, s).values && o in SpendOne(txs, s).values[k].to.values
    ensures SpendOne(txs, s).values[k].to.values[o].spent ==
      if TxId(s.unit, AssetKey(s.asset)) == k && s.key == o then SpentIn(s.spender)
      else txs.values[k].to.values[o].spent
  {
  }

  function LastSpender(ss: seq<SpendOut>, k: TxId, o: OutKey): Option<UnitId> {
    if ss == [] then None
    else
      var s := ss[|ss| - 1];
      if TxId(s.unit, AssetKey(s.asset)) == k && s.key == o then Some(s.spender)
      else LastSpender(ss[..|ss| - 1], k, o)
  }

  /** A row of the unit query of `getUnitsForTransactionsAddress`. */
  datatype PageRow = PageRow(unit: UnitId, inputsRowid: int, outputsRowid: int)

  /** The cursor for the next page: the ROWIDs of the last row, or nothing
      when there is no row. */
  datatype Cursor = Cursor(inputsRowid: int, outputsRowid: int)

  function CursorOf(rows: seq<PageRow>): (c: Option<Cursor>)
    ensures c.None? <==> rows == []
    ensures c.Some? ==> c.value == Cursor(rows[|rows| - 1].inputsRowid, rows[|rows| - 1].outputsRowid)
  {
    if rows == [] then None else Some(Cursor(rows[|rows| - 1].inputsRowid, rows[|rows| - 1].outputsRowid))
  }

  /** A page of an address's history. */
  datatype Page = Page(txs: Txs, cursor: Option<Cursor>)

  /** `getAddressTransactions`: nothing when the unit query or the
      transaction query is empty; otherwise the rows grouped, marked spent,
      given their sources and spent marks, with the cursor of the unit
      query. */
  function AddressTransactions(address: string, units: seq<PageRow>, rows: seq<TxRow>,
                               fs: seq<FundRow>, ss: seq<SpendOut>): (p: Option<Page>)
    ensures units == [] || rows == [] ==> p.None?
    ensures p.Some? ==> WellFormed(p.value.txs) && p.value.cursor == CursorOf(units)
    ensures p.Some? ==> p.value.txs.values.Keys == Group(rows).values.Keys
    ensures p.Some? ==> forall k :: k in p.value.txs.values ==> p.value.txs.values[k].senders == []
  {
    if units == [] || rows == [] then None
    else
      var g := Group(rows);
      var m := MarkSpent(g, address);
      AddSourcesKeeps(m, fs);
      Some(Page(SetSpent(AddSources(m, fs), ss), CursorOf(units)))
  }

  /** A record is marked spent exactly when the address sent one of its
      inputs. */
  lemma SpentIffSender(address: string, units: seq<PageRow>, rows: seq<TxRow>,
                       fs: seq<FundRow>, ss: seq<SpendOut>, k: TxId)
    requires AddressTransactions(address, units, rows, fs, ss).Some?
    requires k in AddressTransactions(address, units, rows, fs, ss).value.txs.values
    ensures AddressTransactions(address, units, rows, fs, ss).value.txs.values[k].spent <==>
      SentFrom(rows, k, address)
  {
    GroupSenders(rows, k, address);
    EmptyGroupNotSpent(rows, k);
    AddSourcesKeeps(MarkSpent(Group(rows), address), fs);
  }

  /** Fresh records start unspent. */
  lemma {:induction false} EmptyGroupNotSpent(rows: seq<TxRow>, k: TxId)
    requires k in Group(rows).values
    ensures !Group(rows).values[k].spent
    decreases |rows|
  {
    var init := rows[..|rows| - 1];
    if k in Group(init).values {
      EmptyGroupNotSpent(init, k);
    }
  }

  /** `end` of the address page: missing when there is no page, else whether
      it has fewer than five records. */
  function EndOf(p: Option<Page>): (e: Option<bool>)
    requires p.Some? ==> p.value.txs.Valid()
    ensures e.None? <==> p.None?
    ensures e.Some? ==> (e.value <==> |p.value.txs.values.Keys| < 5)
  {
    match p
    case None => None
    case Some(pg) => Some(Size(pg.txs) < 5)
  }

  /** An unspent output row of the address. */
  datatype UnspentRow = UnspentRow(outputId: int, amount: int, asset: Option<string>)

  /** The balance key of an output: `bytes` for the base currency. */
  function BalanceKey(a: Option<string>): (k: string)
    ensures a.None? ==> k == "bytes"
    ensures a.Some? ==> k == a.value
  {
    match a
    case None => "bytes"
    case Some(s) => s
  }

  /** Sum of the amounts under one balance key: the reference. */
  function SumFor(rows: seq<UnspentRow>, k: string): int {
    if rows == [] then 0
    else SumFor(rows[..|rows| - 1], k) + (if BalanceKey(rows[|rows| - 1].asset) == k then rows[|rows| - 1].amount else 0)
  }

  /** The balance loop from `{bytes: 0}`: `bytes` is always present; another
      key is present exactly when some output has that asset; each key holds
      the sum of its outputs. */
  function BalanceOf(rows: seq<UnspentRow>): (d: Dict<string, int>)
    ensures d.Valid()
    ensures |d.order| > 0 && d.order[0] == "bytes"
    ensures d.values.Keys == {"bytes"} + BalanceKeys(rows)
    decreases |rows|
  {
    if rows == [] then Put(EmptyDict(), "bytes", 0)
    else
      var d := BalanceOf(rows[..|rows| - 1]);
      var r := rows[|rows| - 1];
      var k := BalanceKey(r.asset);
      Put(d, k, (if k in d.values then d.values[k] else 0) + r.amount)
  }

  /** Each key of the balance holds the sum of the amounts of its outputs. */
  lemma {:induction false} BalanceSums(rows: seq<UnspentRow>, k: string)
    requires k in BalanceOf(rows).values
    ensures BalanceOf(rows).values[k] == SumFor(rows, k)
    decreases |rows|
  {
    if rows != [] {
      var init := rows[..|rows| - 1];
      var d := BalanceOf(init);
      if k in d.values {
        BalanceSums(init, k);
      } else {
        NoSumOutside(init, k);
      }
    }
  }

  /** The balance keys of some unspent outputs, gathered in query order. */
  function BalanceKeys(rows: seq<UnspentRow>): set<string> {
    if rows == [] then {}
    else BalanceKeys(rows[..|rows| - 1]) + {BalanceKey(rows[|rows| - 1].asset)}
  }

  /** A balance key is gathered exactly when some output has that asset. */
  lemma {:induction false} BalanceKeysMembers(rows: seq<UnspentRow>, k: string)
    ensures k in BalanceKeys(rows) <==> exists r :: r in rows && BalanceKey(r.asset) == k
    decreases |rows|
  {
    if rows != [] {
      BalanceKeysMembers(rows[..|rows| - 1], k);
      SnocMembers(rows);
    }
  }

  lemma {:induction false} NoSumOutside(rows: seq<UnspentRow>, k: string)
    requires k !in BalanceKeys(rows)
    ensures SumFor(rows, k) == 0
    decreases |rows|
  {
    if rows != [] {
      NoSumOutside(rows[..|rows| - 1], k);
    }
  }

  /** The balance part of `getAddressInfo`: computed when there is a page or
      an unspent output, with every unspent row listed in order; missing
      otherwise. */
  datatype Holdings = Holdings(unspent: seq<UnspentRow>, balance: Dict<string, int>)

  function AddressBalance(p: Option<Page>, rows: seq<UnspentRow>): (h: Option<Holdings>)
    ensures h.None? <==> p.None? && rows == []
    ensures h.Some? ==> h.value.unspent == rows
    ensures h.Some? ==> forall k :: k in h.value.balance.values ==> h.value.balance.values[k] == SumFor(rows, k)
    ensures h.Some? ==> "bytes" in h.value.balance.values
  {
    if p.Some? || rows != [] then
      var b := BalanceOf(rows);
      assert forall k :: k in b.values ==> b.values[k] == SumFor(rows, k) by {
        forall k | k in b.values ensures b.values[k] == SumFor(rows, k) { BalanceSums(rows, k); }
      }
      Some(Holdings(rows, b))
    else None
  }
}

=== FILE: base.dfy ===
/** Small building blocks shared by the explorer model: an optional value, a
    distinctness predicate on sequences, and an insertion-ordered dictionary
    that behaves like a JavaScript object whose keys are not array indices. */
module Base {

  datatype Option<+T> = None | Some(value: T)

  /** No element occurs twice. */
  ghost predicate Distinct<T>(s: seq<T>) {
    forall i, j :: 0 <= i < j < |s| ==> s[i] != s[j]
  }

  /** An insertion-ordered dictionary: `order` lists each key once, in the
      order it was first stored; `values` holds the current value per key.
      Storing under a key that is already present keeps its position. */
  datatype Dict<K(!new), V> = Dict(order: seq<K>, values: map<K, V>) {
    ghost predicate Valid() {
      && Distinct(order)
      && (forall k :: k in values <==> k in order)
    }
  }

  function EmptyDict<K(!new), V>(): (d: Dict<K, V>)
    ensures d.Valid()
    ensures d.values == map[]
  {
    Dict([], map[])
  }

  /** Membership in a non-empty sequence: in all but the last, or the last. */
  lemma SnocMembers<T>(s: seq<T>)
    requires s != []
    ensures forall x :: x in s <==> x in s[..|s| - 1] || x == s[|s| - 1]
  {
    assert s == s[..|s| - 1] + [s[|s| - 1]];
  }

  /** `obj[k] = v`. */
  function Put<K(!new), V>(d: Dict<K, V>, k: K, v: V): (r: Dict<K, V>)
    ensures d.Valid() ==> r.Valid()
    ensures r.values == d.values[k := v]
    ensures k in d.values ==> r.order == d.order
    ensures k !in d.values ==> r.order == d.order + [k]
  {
    if k in d.values then Dict(d.order, d.values[k := v])
    else Dict(d.order + [k], d.values[k := v])
  }

  /** Number of keys, `Object.keys(obj).length`. */
  function Size<K(!new), V>(d: Dict<K, V>): (n: nat)
    requires d.Valid()
    ensures n == |d.values.Keys|
  {
    DistinctCard(d.order, d.values.Keys);
    |d.order|
  }

  /** A sequence without repeats has as many elements as its set. */
  lemma DistinctCard<K(!new)>(s: seq<K>, keys: set<K>)
    requires Distinct(s)
    requires forall k :: k in keys <==> k in s
    ensures |keys| == |s|
  {
    if s != [] {
      var rest := keys - {s[0]};
      assert forall k :: k in rest <==> k in s[1..] by {
        forall k ensures k in rest <==> k in s[1..] {
          if k in s[1..] {
            var j :| 0 <= j < |s[1..]| && s[1..][j] == k;
            assert s[j + 1] == k;
          }
          if k in s && k != s[0] {
            var j :| 0 <= j < |s| && s[j] == k;
            assert s[1..][j - 1] == k;
          }
        }
      }
      DistinctCard(s[1..], rest);
    }
  }
}

=== FILE: boundary.dfy ===
/** `createEdges` (public/js/main.js): after a slice is placed, every stored
    edge that is not drawn yet is emitted. When one end of such an edge is not
    on the canvas, a placeholder node (a "phantom") is emitted for it: below
    the window for a missing parent, above it for a missing child. Bottom
    phantoms are spread 60 apart to the right of the child, top phantoms 60
    apart to the right of the parent, and their x is remembered so that the
    real unit, when its slice arrives, is put where its phantom stood. Before
    that, every pending phantom is moved to the current lower or upper
    boundary line. */
module Boundary {
  import opened Base
  import opened Text
  import opened Render

  /** The page's edge map: key `child_parent`, value the edge from the child
      (source) to the parent (target). */
  type EdgeStore = Dict<string, CyEdge>

  /** The store is keyed the way the server builds it. */
  ghost predicate KeyedByEnds(store: EdgeStore) {
    forall k :: k in store.values ==> k == JoinKey(store.values[k].source, store.values[k].target)
  }

  /** Keys of the edges on the canvas. */
  function RenderedKeys(es: seq<CyEdge>): set<string> {
    set e | e in es :: JoinKey(e.source, e.target)
  }

  /** The stored edges whose key is not drawn, in store order. */
  function PendingOf(order: seq<string>, values: map<string, CyEdge>, rendered: set<string>): (r: seq<CyEdge>)
    requires forall k :: k in order ==> k in values
    ensures forall k :: k in order && k !in rendered ==> values[k] in r
    ensures forall e :: e in r ==> exists k :: k in order && k !in rendered && values[k] == e
  {
    if order == [] then []
    else
      var rest := PendingOf(order[1..], values, rendered);
      (if order[0] !in rendered then [values[order[0]]] else []) + rest
  }

  /** Edges still to draw: the copy of the store minus every key already on
      the canvas. */
  function Pending(store: EdgeStore, rendered: set<string>): (r: seq<CyEdge>)
    requires store.Valid()
    ensures forall k :: k in store.values && k !in rendered ==> store.values[k] in r
    ensures forall e :: e in r ==> exists k :: k in store.values && k !in rendered && store.values[k] == e
  {
    PendingOf(store.order, store.values, rendered)
  }

  /** A placeholder node: label from its id, no classes. */
  function Placeholder(id: UnitId, x: real, y: real): CyNode {
    CyNode(id, ShortLabel(id), x, y, {})
  }

  /** The first two loops: every pending bottom phantom goes to the lower
      line, then every pending top phantom to the upper line. Only heights of
      phantoms change. */
  function MovePhantoms(ns: seq<CyNode>, bottom: map<UnitId, real>, top: map<UnitId, real>, gy: real, ty: real): (r: seq<CyNode>)
    ensures |r| == |ns| && Ids(r) == Ids(ns)
    ensures forall i :: 0 <= i < |ns| ==> r[i] == ns[i].(y := r[i].y)
    ensures forall i :: 0 <= i < |ns| && ns[i].id in top ==> r[i].y == ty
    ensures forall i :: 0 <= i < |ns| && ns[i].id in bottom && ns[i].id !in top ==> r[i].y == gy
    ensures forall i :: 0 <= i < |ns| && ns[i].id !in bottom && ns[i].id !in top ==> r[i] == ns[i]
  {
    var r := seq(|ns|, i requires 0 <= i < |ns| =>
      if ns[i].id in top then ns[i].(y := ty)
      else if ns[i].id in bottom then ns[i].(y := gy)
      else ns[i]);
    assert Ids(r) == Ids(ns) by {
      forall u | u in Ids(ns) ensures u in Ids(r) {
        var i :| 0 <= i < |ns| && ns[i].id == u;
        assert r[i].id == u;
      }
      forall u | u in Ids(r) ensures u in Ids(ns) {
        var i :| 0 <= i < |r| && r[i].id == u;
        assert ns[i].id == u;
      }
    }
    r
  }

  /** State carried through the main loop: the two phantom maps, the two
      running offsets and the element list built so far. */
  datatype Pass = Pass(
    phantoms: map<UnitId, real>,
    phantomsTop: map<UnitId, real>,
    offset: real,
    offsetTop: real,
    out: seq<Element>)

  /** At least one end of the edge is on the canvas (otherwise the loop
      reads the position of a missing node and throws). */
  predicate Loaded(ns: seq<CyNode>, e: CyEdge) {
    e.source in Ids(ns) || e.target in Ids(ns)
  }

  /** One pending edge. */
  function EmitEdge(ns: seq<CyNode>, gy: real, ty: real, e: CyEdge, st: Pass): (r: Option<Pass>)
    ensures r.Some? <==> Loaded(ns, e)
    ensures e.source in Ids(ns) && e.target in Ids(ns) ==> r == Some(st.(out := st.out + [EdgeEl(e)]))
    ensures e.source in Ids(ns) && e.target !in Ids(ns) ==>
      var x := Find(ns, e.source).value.x + st.offset;
      r == Some(st.(phantoms := st.phantoms[e.target := x], offset := st.offset + 60.0,
                    out := st.out + [NodeEl(Placeholder(e.target, x, gy)), EdgeEl(e)]))
    ensures e.source !in Ids(ns) && e.target in Ids(ns) ==>
      var x := Find(ns, e.target).value.x + st.offsetTop;
      r == Some(st.(phantomsTop := st.phantomsTop[e.source := x], offsetTop := st.offsetTop + 60.0,
                    out := st.out + [EdgeEl(e), NodeEl(Placeholder(e.source, x, ty)), EdgeEl(e)]))
  {
    var afterTarget :=
      if e.target in Ids(ns) then Some(st.(out := st.out + [EdgeEl(e)]))
      else
        match Find(ns, e.source)
        case None => None
        case Some(src) =>
          var x := src.x + st.offset;
          Some(st.(phantoms := st.phantoms[e.target := x], offset := st.offset + 60.0,
                   out := st.out + [NodeEl(Placeholder(e.target, x, gy)), EdgeEl(e)]));
    match afterTarget
    case None => None
    case Some(st1) =>
      if e.source in Ids(ns) then Some(st1)
      else
        match Find(ns, e.target)
        case None => None
        case Some(tgt) =>
          var x := tgt.x + st1.offsetTop;
          assert st1.out + [NodeEl(Placeholder(e.source, x, ty)), EdgeEl(e)]
            == st.out + [EdgeEl(e), NodeEl(Placeholder(e.source, x, ty)), EdgeEl(e)];
          Some(st1.(phantomsTop := st1.phantomsTop[e.source := x], offsetTop := st1.offsetTop + 60.0,
                    out := st1.out + [NodeEl(Placeholder(e.source, x, ty)), EdgeEl(e)]))
  }

  /** Pending edges whose parent is not on the canvas. */
  function MissingTargets(ns: seq<CyNode>, es: seq<CyEdge>): nat {
    if es == [] then 0
    else (if es[0].target !in Ids(ns) then 1 else 0) + MissingTargets(ns, es[1..])
  }

  /** Pending edges whose child is not on the canvas. */
  function MissingSources(ns: seq<CyNode>, es: seq<CyEdge>): nat {
    if es == [] then 0
    else (if es[0].source !in Ids(ns) then 1 else 0) + MissingSources(ns, es[1..])
  }

  /** Parents missing from the canvas. */
  function MissingTargetIds(ns: seq<CyNode>, es: seq<CyEdge>): set<UnitId> {
    if es == [] then {}
    else (if es[0].target !in Ids(ns) then {es[0].target} else {}) + MissingTargetIds(ns, es[1..])
  }

  /** Children missing from the canvas. */
  function MissingSourceIds(ns: seq<CyNode>, es: seq<CyEdge>): set<UnitId> {
    if es == [] then {}
    else (if es[0].source !in Ids(ns) then {es[0].source} else {}) + MissingSourceIds(ns, es[1..])
  }

  /** Missing ends are, indeed, not on the canvas. */
  lemma {:induction false} MissingIdsOutside(ns: seq<CyNode>, es: seq<CyEdge>)
    ensures forall u :: u in MissingTargetIds(ns, es) ==> u !in Ids(ns)
    ensures forall u :: u in MissingSourceIds(ns, es) ==> u !in Ids(ns)
  {
    if es != [] {
      MissingIdsOutside(ns, es[1..]);
    }
  }

  /** Some node element of the list has this id. */
  ghost predicate HasNode(out: seq<Element>, id: UnitId) {
    exists n :: NodeEl(n) in out && n.id == id
  }

  /** Every edge element of the list joins nodes that are on the canvas or
      created by the list itself. */
  ghost predicate Closed(ids: set<UnitId>, out: seq<Element>) {
    forall x :: EdgeEl(x) in out ==>
      (x.source in ids || HasNode(out, x.source)) && (x.target in ids || HasNode(out, x.target))
  }

  /** A placeholder emitted by the pass: not on the canvas, a placeholder
      label, and either on the lower line and recorded as a bottom phantom or
      on the upper line and recorded as a top phantom. */
  ghost predicate FromPass(ns: seq<CyNode>, gy: real, ty: real, p: Pass, n: CyNode) {
    && n.id !in Ids(ns) && n.classes == {} && n.short == ShortLabel(n.id)
    && ((n.y == gy && n.id in p.phantoms) || (n.y == ty && n.id in p.phantomsTop))
  }

  /** The main loop over the pending edges. It fails exactly when some edge
      has neither end on the canvas; otherwise each running offset has grown
      by 60 per edge missing that end, and the elements already emitted stay
      in front. */
  function EmitAll(ns: seq<CyNode>, gy: real, ty: real, es: seq<CyEdge>, st: Pass): (r: Option<Pass>)
    ensures r.Some? <==> forall j :: 0 <= j < |es| ==> Loaded(ns, es[j])
    ensures r.Some? ==> r.value.offset == st.offset + 60.0 * (MissingTargets(ns, es) as real)
    ensures r.Some? ==> r.value.offsetTop == st.offsetTop + 60.0 * (MissingSources(ns, es) as real)
    ensures r.Some? ==> |st.out| <= |r.value.out| && r.value.out[..|st.out|] == st.out
    decreases |es|
  {
    if es == [] then Some(st)
    else
      match EmitEdge(ns, gy, ty, es[0], st)
      case None => None
      case Some(st1) =>
        var r := EmitAll(ns, gy, ty, es[1..], st1);
        assert (forall j :: 0 <= j < |es| ==> Loaded(ns, es[j]))
          <==> Loaded(ns, es[0]) && (forall j :: 0 <= j < |es[1..]| ==> Loaded(ns, es[1..][j])) by {
          if forall j :: 0 <= j < |es[1..]| ==> Loaded(ns, es[1..][j]) {
            forall j | 1 <= j < |es| ensures Loaded(ns, es[j]) {
              assert es[j] == es[1..][j - 1];
            }
          }
        }
        if r.Some? then
          assert r.value.out[..|st.out|] == st.out by {
            assert r.value.out[..|st1.out|][..|st.out|] == st1.out[..|st.out|];
          }
          r
        else r
  }

  /** The loop emits exactly the pending edges (some of them twice). */
  lemma {:induction false} EmitAllEdges(ns: seq<CyNode>, gy: real, ty: real, es: seq<CyEdge>, st: Pass)
    requires EmitAll(ns, gy, ty, es, st).Some?
    ensures forall x :: EdgeEl(x) in EmitAll(ns, gy, ty, es, st).value.out <==> EdgeEl(x) in st.out || x in es
    decreases |es|
  {
    if es != [] {
      var st1 := EmitEdge(ns, gy, ty, es[0], st).value;
      EmitAllEdges(ns, gy, ty, es[1..], st1);
      assert forall x :: x in es <==> x == es[0] || x in es[1..];
    }
  }

  /** The loop records exactly the missing ends as phantoms. */
  lemma {:induction false} EmitAllKeys(ns: seq<CyNode>, gy: real, ty: real, es: seq<CyEdge>, st: Pass)
    requires EmitAll(ns, gy, ty, es, st).Some?
    ensures EmitAll(ns, gy, ty, es, st).value.phantoms.Keys == st.phantoms.Keys + MissingTargetIds(ns, es)
    ensures EmitAll(ns, gy, ty, es, st).value.phantomsTop.Keys == st.phantomsTop.Keys + MissingSourceIds(ns, es)
    decreases |es|
  {
    if es != [] {
      var st1 := EmitEdge(ns, gy, ty, es[0], st).value;
      EmitAllKeys(ns, gy, ty, es[1..], st1);
    }
  }

  /** Every node the loop emits is a placeholder for a missing end, on the
      line of its kind and recorded in the phantom map of its kind. */
  lemma {:induction false} EmitAllNodes(ns: seq<CyNode>, gy: real, ty: real, es: seq<CyEdge>, st: Pass)
    requires EmitAll(ns, gy, ty, es, st).Some?
    ensures forall n :: NodeEl(n) in EmitAll(ns, gy, ty, es, st).value.out && NodeEl(n) !in st.out ==>
      FromPass(ns, gy, ty, EmitAll(ns, gy, ty, es, st).value, n)
    decreases |es|
  {
    if es != [] {
      var st1 := EmitEdge(ns, gy, ty, es[0], st).value;
      var p := EmitAll(ns, gy, ty, es[1..], st1).value;
      EmitAllCons(ns, gy, ty, es, st);
      EmitAllNodes(ns, gy, ty, es[1..], st1);
      EmitAllKeys(ns, gy, ty, es[1..], st1);
      EmitEdgeNodes(ns, gy, ty, es[0], st);
      forall n | NodeEl(n) in st1.out && NodeEl(n) !in st.out ensures FromPass(ns, gy, ty, p, n) {
        FromPassGrows(ns, gy, ty, st1, p, n);
      }
    }
  }

  /** Every node one edge emits is a placeholder recorded by that step. */
  lemma EmitEdgeNodes(ns: seq<CyNode>, gy: real, ty: real, e: CyEdge, st: Pass)
    requires EmitEdge(ns, gy, ty, e, st).Some?
    ensures forall n :: NodeEl(n) in EmitEdge(ns, gy, ty, e, st).value.out && NodeEl(n) !in st.out ==>
      FromPass(ns, gy, ty, EmitEdge(ns, gy, ty, e, st).value, n)
  {
  }

  /** A placeholder stays accounted for as the phantom maps grow. */
  lemma FromPassGrows(ns: seq<CyNode>, gy: real, ty: real, p: Pass, q: Pass, n: CyNode)
    requires FromPass(ns, gy, ty, p, n)
    requires p.phantoms.Keys <= q.phantoms.Keys && p.phantomsTop.Keys <= q.phantomsTop.Keys
    ensures FromPass(ns, gy, ty, q, n)
  {
  }

  /** An element list stays closed when one edge's elements are appended. */
  lemma EmitEdgeClosed(ns: seq<CyNode>, gy: real, ty: real, e: CyEdge, st: Pass)
    requires EmitEdge(ns, gy, ty, e, st).Some?
    requires Closed(Ids(ns), st.out)
    ensures Closed(Ids(ns), EmitEdge(ns, gy, ty, e, st).value.out)
  {
    var out := EmitEdge(ns, gy, ty, e, st).value.out;
    forall x | EdgeEl(x) in out
      ensures (x.source in Ids(ns) || HasNode(out, x.source)) && (x.target in Ids(ns) || HasNode(out, x.target))
    {
      if EdgeEl(x) in st.out {
        if HasNode(st.out, x.source) {
          var n :| NodeEl(n) in st.out && n.id == x.source;
          assert NodeEl(n) in out;
        }
        if HasNode(st.out, x.target) {
          var n :| NodeEl(n) in st.out && n.id == x.target;
          assert NodeEl(n) in out;
        }
      } else if e.target !in Ids(ns) {
        var x0 := Find(ns, e.source).value.x + st.offset;
        assert NodeEl(Placeholder(e.target, x0, gy)) in out;
      } else if e.source !in Ids(ns) {
        var x0 := Find(ns, e.target).value.x + st.offsetTop;
        assert NodeEl(Placeholder(e.source, x0, ty)) in out;
      }
    }
  }

  /** No edge the loop emits dangles: each end is on the canvas or is a
      placeholder emitted in the same list. */
  lemma {:induction false} EmitAllClosed(ns: seq<CyNode>, gy: real, ty: real, es: seq<CyEdge>, st: Pass)
    requires EmitAll(ns, gy, ty, es, st).Some?
    requires Closed(Ids(ns), st.out)
    ensures Closed(Ids(ns), EmitAll(ns, gy, ty, es, st).value.out)
    decreases |es|
  {
    if es != [] {
      var st1 := EmitEdge(ns, gy, ty, es[0], st).value;
      EmitEdgeClosed(ns, gy, ty, es[0], st);
      EmitAllClosed(ns, gy, ty, es[1..], st1);
    }
  }

  /** The lower line, 166 below the bottom offset. */
  function LowerLine(s: Scene): real {
    s.generateOffset + 166.0
  }

  /** The upper line, 166 above the top offset. */
  function UpperLine(s: Scene): real {
    s.newOffset - 166.0
  }

  /** The canvas nodes after the pending phantoms are moved to their lines. */
  function Moved(s: Scene): seq<CyNode> {
    MovePhantoms(s.nodes, s.phantoms, s.phantomsTop, LowerLine(s), UpperLine(s))
  }

  /** The state the main loop starts from. */
  function Start(s: Scene): Pass {
    Pass(s.phantoms, s.phantomsTop, 0.0, 0.0, [])
  }

  /** The main loop of `createEdges` over the pending edges. */
  function RunPass(s: Scene, store: EdgeStore): Option<Pass>
    requires store.Valid()
  {
    EmitAll(Moved(s), LowerLine(s), UpperLine(s), Pending(store, RenderedKeys(s.edges)), Start(s))
  }

  /** Result of `createEdges`: the canvas with phantoms moved and the two
      phantom maps extended, and the element list to add to it. */
  datatype Created = Created(scene: Scene, els: seq<Element>)

  /** `createEdges`. Fails exactly when a pending edge has neither end on the
      canvas. Otherwise only node heights and the phantom maps change: a
      pending top phantom goes to 166 above the top offset, any other pending
      bottom phantom to 166 below the bottom offset, every other node stays. */
  function CreateEdges(s: Scene, store: EdgeStore): (r: Option<Created>)
    requires store.Valid()
    ensures r.Some? <==> forall e :: e in Pending(store, RenderedKeys(s.edges)) ==> Loaded(s.nodes, e)
    ensures r.Some? ==>
      r.value.scene == s.(nodes := r.value.scene.nodes, phantoms := r.value.scene.phantoms,
                          phantomsTop := r.value.scene.phantomsTop)
    ensures r.Some? ==> |r.value.scene.nodes| == |s.nodes| && Ids(r.value.scene.nodes) == Ids(s.nodes)
    ensures r.Some? ==> forall i :: 0 <= i < |s.nodes| ==>
      r.value.scene.nodes[i] == s.nodes[i].(y := r.value.scene.nodes[i].y)
    ensures r.Some? ==> forall i :: 0 <= i < |s.nodes| && s.nodes[i].id in s.phantomsTop ==>
      r.value.scene.nodes[i].y == s.newOffset - 166.0
    ensures r.Some? ==> forall i :: 0 <= i < |s.nodes| && s.nodes[i].id in s.phantoms && s.nodes[i].id !in s.phantomsTop ==>
      r.value.scene.nodes[i].y == s.generateOffset + 166.0
    ensures r.Some? ==> forall i :: 0 <= i < |s.nodes| && s.nodes[i].id !in s.phantoms && s.nodes[i].id !in s.phantomsTop ==>
      r.value.scene.nodes[i] == s.nodes[i]
  {
    var pending := Pending(store, RenderedKeys(s.edges));
    var moved := Moved(s);
    assert (forall j :: 0 <= j < |pending| ==> Loaded(moved, pending[j]))
      <==> (forall e :: e in pending ==> Loaded(s.nodes, e)) by {
      if forall j :: 0 <= j < |pending| ==> Loaded(moved, pending[j]) {
        forall e | e in pending ensures Loaded(s.nodes, e) {
          var j :| 0 <= j < |pending| && pending[j] == e;
        }
      }
      if forall e :: e in pending ==> Loaded(s.nodes, e) {
        forall j | 0 <= j < |pending| ensures Loaded(moved, pending[j]) {
          assert pending[j] in pending;
        }
      }
    }
    match RunPass(s, store)
    case None => None
    case Some(p) =>
      Some(Created(s.(nodes := moved, phantoms := p.phantoms, phantomsTop := p.phantomsTop), p.out))
  }

  /** `createEdges` emits exactly the pending edges, and none of them
      dangles. */
  lemma CreatedEdges(s: Scene, store: EdgeStore)
    requires store.Valid()
    requires CreateEdges(s, store).Some?
    ensures forall x :: EdgeEl(x) in CreateEdges(s, store).value.els <==> x in Pending(store, RenderedKeys(s.edges))
    ensures Closed(Ids(s.nodes), CreateEdges(s, store).value.els)
  {
    var pending := Pending(store, RenderedKeys(s.edges));
    EmitAllEdges(Moved(s), LowerLine(s), UpperLine(s), pending, Start(s));
    EmitAllClosed(Moved(s), LowerLine(s), UpperLine(s), pending, Start(s));
  }

  /** `createEdges` only adds phantoms: the missing parents to the bottom
      map and the missing children to the top map. */
  lemma CreatedPhantomKeys(s: Scene, store: EdgeStore)
    requires store.Valid()
    requires CreateEdges(s, store).Some?
    ensures s.phantoms.Keys <= CreateEdges(s, store).value.scene.phantoms.Keys
    ensures s.phantomsTop.Keys <= CreateEdges(s, store).value.scene.phantomsTop.Keys
    ensures forall u :: u in CreateEdges(s, store).value.scene.phantoms ==> u in s.phantoms || u !in Ids(s.nodes)
    ensures forall u :: u in CreateEdges(s, store).value.scene.phantomsTop ==> u in s.phantomsTop || u !in Ids(s.nodes)
  {
    var pending := Pending(store, RenderedKeys(s.edges));
    EmitAllKeys(Moved(s), LowerLine(s), UpperLine(s), pending, Start(s));
    MissingIdsOutside(Moved(s), pending);
  }

  /** The nodes `createEdges` emits are placeholders for ends missing from
      the canvas, each on its line and recorded in its phantom map. */
  lemma CreatedPlaceholders(s: Scene, store: EdgeStore, n: CyNode)
    requires store.Valid()
    requires CreateEdges(s, store).Some?
    requires NodeEl(n) in CreateEdges(s, store).value.els
    ensures n.id !in Ids(s.nodes) && n.classes == {} && n.short == ShortLabel(n.id)
    ensures || (n.y == s.generateOffset + 166.0 && n.id in CreateEdges(s, store).value.scene.phantoms)
            || (n.y == s.newOffset - 166.0 && n.id in CreateEdges(s, store).value.scene.phantomsTop)
  {
    EmitAllNodes(Moved(s), LowerLine(s), UpperLine(s), Pending(store, RenderedKeys(s.edges)), Start(s));
    assert FromPass(Moved(s), LowerLine(s), UpperLine(s), RunPass(s, store).value, n);
  }

  /** The node with id `id` in an element list is on the canvas after the
      list is added. */
  lemma HasNodeAdded(els: seq<Element>, id: UnitId)
    requires HasNode(els, id)
    ensures id in Ids(NodesOf(els))
  {
    var n :| NodeEl(n) in els && n.id == id;
    assert n in NodesOf(els);
    var i :| 0 <= i < |NodesOf(els)| && NodesOf(els)[i] == n;
  }

  /** `_cy.add(createEdges())`: fails exactly when `createEdges` does; ids
      stay unique, nothing rendered disappears and the offsets stay. */
  function AddCreatedEdges(s: Scene, store: EdgeStore): (r: Option<Scene>)
    requires store.Valid()
    ensures r.Some? <==> CreateEdges(s, store).Some?
    ensures r.Some? ==> r.value == AddElements(CreateEdges(s, store).value.scene, CreateEdges(s, store).value.els)
    ensures r.Some? && UniqueIds(s.nodes) ==> UniqueIds(r.value.nodes)
    ensures r.Some? ==> Ids(s.nodes) <= Ids(r.value.nodes) && s.edges <= r.value.edges
    ensures r.Some? ==> r.value.generateOffset == s.generateOffset && r.value.newOffset == s.newOffset
  {
    match CreateEdges(s, store)
    case None => None
    case Some(c) => Some(AddElements(c.scene, c.els))
  }

  /** After `_cy.add(createEdges())` no edge dangles if none did before. */
  lemma AddedNoDangling(s: Scene, store: EdgeStore)
    requires store.Valid()
    requires AddCreatedEdges(s, store).Some?
    requires NoDangling(s)
    ensures NoDangling(AddCreatedEdges(s, store).value)
  {
    var c := CreateEdges(s, store).value;
    var r := AddCreatedEdges(s, store).value;
    CreatedEdges(s, store);
    forall e | e in r.edges ensures e.source in Ids(r.nodes) && e.target in Ids(r.nodes) {
      if e !in s.edges {
        assert e in EdgesOf(c.els);
        if HasNode(c.els, e.source) { HasNodeAdded(c.els, e.source); }
        if HasNode(c.els, e.target) { HasNodeAdded(c.els, e.target); }
      }
    }
  }

  /** After `_cy.add(createEdges())` every stored edge is on the canvas. */
  lemma AddedRendersStore(s: Scene, store: EdgeStore)
    requires store.Valid()
    requires AddCreatedEdges(s, store).Some?
    requires KeyedByEnds(store)
    ensures forall k :: k in store.values ==> k in RenderedKeys(AddCreatedEdges(s, store).value.edges)
  {
    var c := CreateEdges(s, store).value;
    var r := AddCreatedEdges(s, store).value;
    CreatedEdges(s, store);
    forall k | k in store.values ensures k in RenderedKeys(r.edges) {
      if k !in RenderedKeys(s.edges) {
        var e := store.values[k];
        assert e in Pending(store, RenderedKeys(s.edges));
        assert e in EdgesOf(c.els);
        assert e in r.edges;
      } else {
        var e :| e in s.edges && JoinKey(e.source, e.target) == k;
        assert e in r.edges;
      }
    }
  }

  /** Position of a bottom phantom: for a pending edge whose parent is
      missing, the element list holds a placeholder for the parent at the
      child's x plus 60 for every earlier edge of the pass that also missed
      its parent, on the lower line. */
  lemma {:induction false} BottomPhantomAt(ns: seq<CyNode>, gy: real, ty: real, es: seq<CyEdge>, st: Pass, j: nat)
    requires EmitAll(ns, gy, ty, es, st).Some?
    requires j < |es| && es[j].target !in Ids(ns)
    ensures es[j].source in Ids(ns)
    ensures NodeEl(Placeholder(es[j].target,
      Find(ns, es[j].source).value.x + st.offset + 60.0 * (MissingTargets(ns, es[..j]) as real), gy))
      in EmitAll(ns, gy, ty, es, st).value.out
    decreases j, 1
  {
    if j == 0 {
      BottomPhantomAtFirst(ns, gy, ty, es, st, j);
    } else {
      BottomPhantomAtStep(ns, gy, ty, es, st, j);
    }
  }

  /** Position 0: the first pending edge of the pass. */
  lemma BottomPhantomAtFirst(ns: seq<CyNode>, gy: real, ty: real, es: seq<CyEdge>, st: Pass, j: nat)
    requires EmitAll(ns, gy, ty, es, st).Some?
    requires j == 0 && j < |es| && es[j].target !in Ids(ns)
    ensures es[j].source in Ids(ns)
    ensures NodeEl(Placeholder(es[j].target,
      Find(ns, es[j].source).value.x + st.offset + 60.0 * (MissingTargets(ns, es[..j]) as real), gy))
      in EmitAll(ns, gy, ty, es, st).value.out
  {
    assert Loaded(ns, es[0]);
    FirstBottomPhantom(ns, gy, ty, es, st);
    var x := Find(ns, es[0].source).value.x;
    assert MissingTargets(ns, es[..0]) == 0 by { assert es[..0] == []; }
    assert x + st.offset + 60.0 * (MissingTargets(ns, es[..0]) as real) == x + st.offset;
  }

  /** A later position: the position in the rest of the pass, shifted by
      the first edge's offset. */
  lemma {:induction false} BottomPhantomAtStep(ns: seq<CyNode>, gy: real, ty: real, es: seq<CyEdge>, st: Pass, j: nat)
    requires EmitAll(ns, gy, ty, es, st).Some?
    requires 0 < j < |es| && es[j].target !in Ids(ns)
    ensures es[j].source in Ids(ns)
    ensures NodeEl(Placeholder(es[j].target,
      Find(ns, es[j].source).value.x + st.offset + 60.0 * (MissingTargets(ns, es[..j]) as real), gy))
      in EmitAll(ns, gy, ty, es, st).value.out
    decreases j, 0
  {
    EmitAllCons(ns, gy, ty, es, st);
    var st1 := EmitEdge(ns, gy, ty, es[0], st).value;
    assert es[1..][j - 1] == es[j];
    BottomPhantomAt(ns, gy, ty, es[1..], st1, j - 1);
    StepOffsets(ns, gy, ty, es, st, j);
    ShiftPlaceholder(EmitAll(ns, gy, ty, es[1..], st1).value.out, EmitAll(ns, gy, ty, es, st).value.out,
      es[1..][j - 1].target, Find(ns, es[1..][j - 1].source).value.x, es[j].target, Find(ns, es[j].source).value.x,
      st1.offset, MissingTargets(ns, es[1..][..j - 1]), st.offset, MissingTargets(ns, es[..j]), gy);
  }

  /** Position of a top phantom: for a pending edge whose child is missing,
      the element list holds a placeholder for the child at the parent's x
      plus 60 for every earlier edge of the pass that also missed its child,
      on the upper line. */
  lemma {:induction false} TopPhantomAt(ns: seq<CyNode>, gy: real, ty: real, es: seq<CyEdge>, st: Pass, j: nat)
    requires EmitAll(ns, gy, ty, es, st).Some?
    requires j < |es| && es[j].source !in Ids(ns)
    ensures es[j].target in Ids(ns)
    ensures NodeEl(Placeholder(es[j].source,
      Find(ns, es[j].target).value.x + st.offsetTop + 60.0 * (MissingSources(ns, es[..j]) as real), ty))
      in EmitAll(ns, gy, ty, es, st).value.out
    decreases j, 1
  {
    if j == 0 {
      TopPhantomAtFirst(ns, gy, ty, es, st, j);
    } else {
      TopPhantomAtStep(ns, gy, ty, es, st, j);
    }
  }

  /** Position 0: the first pending edge of the pass. */
  lemma TopPhantomAtFirst(ns: seq<CyNode>, gy: real, ty: real, es: seq<CyEdge>, st: Pass, j: nat)
    requires EmitAll(ns, gy, ty, es, st).Some?
    requires j == 0 && j < |es| && es[j].source !in Ids(ns)
    ensures es[j].target in Ids(ns)
    ensures NodeEl(Placeholder(es[j].source,
      Find(ns, es[j].target).value.x + st.offsetTop + 60.0 * (MissingSources(ns, es[..j]) as real), ty))
      in EmitAll(ns, gy, ty, es, st).value.out
  {
    assert Loaded(ns, es[0]);
    FirstTopPhantom(ns, gy, ty, es, st);
    var x := Find(ns, es[0].target).value.x;
    assert MissingSources(ns, es[..0]) == 0 by { assert es[..0] == []; }
    assert x + st.offsetTop + 60.0 * (MissingSources(ns, es[..0]) as real) == x + st.offsetTop;
  }

  /** A later position: the position in the rest of the pass, shifted by
      the first edge's offset. */
  lemma {:induction false} TopPhantomAtStep(ns: seq<CyNode>, gy: real, ty: real, es: seq<CyEdge>, st: Pass, j: nat)
    requires EmitAll(ns, gy, ty, es, st).Some?
    requires 0 < j < |es| && es[j].source !in Ids(ns)
    ensures es[j].target in Ids(ns)
    ensures NodeEl(Placeholder(es[j].source,
      Find(ns, es[j].target).value.x + st.offsetTop + 60.0 * (MissingSources(ns, es[..j]) as real), ty))
      in EmitAll(ns, gy, ty, es, st).value.out
    decreases j, 0
  {
    EmitAllCons(ns, gy, ty, es, st);
    var st1 := EmitEdge(ns, gy, ty, es[0], st).value;
    assert es[1..][j - 1] == es[j];
    TopPhantomAt(ns, gy, ty, es[1..], st1, j - 1);
    StepOffsets(ns, gy, ty, es, st, j);
    ShiftPlaceholder(EmitAll(ns, gy, ty, es[1..], st1).value.out, EmitAll(ns, gy, ty, es, st).value.out,
      es[1..][j - 1].source, Find(ns, es[1..][j - 1].target).value.x, es[j].source, Find(ns, es[j].target).value.x,
      st1.offsetTop, MissingSources(ns, es[1..][..j - 1]), st.offsetTop, MissingSources(ns, es[..j]), ty);
  }

  /** The loop over a non-empty list is the first edge, then the loop over
      the rest. */
  lemma EmitAllCons(ns: seq<CyNode>, gy: real, ty: real, es: seq<CyEdge>, st: Pass)
    requires es != [] && EmitAll(ns, gy, ty, es, st).Some?
    ensures EmitEdge(ns, gy, ty, es[0], st).Some?
    ensures EmitAll(ns, gy, ty, es[1..], EmitEdge(ns, gy, ty, es[0], st).value)
         == EmitAll(ns, gy, ty, es, st)
  {
  }

  /** The first edge's missing parent is placed at the child's x plus the
      running offset. */
  lemma FirstBottomPhantom(ns: seq<CyNode>, gy: real, ty: real, es: seq<CyEdge>, st: Pass)
    requires es != [] && EmitAll(ns, gy, ty, es, st).Some? && es[0].target !in Ids(ns)
    ensures NodeEl(Placeholder(es[0].target, Find(ns, es[0].source).value.x + st.offset, gy))
      in EmitAll(ns, gy, ty, es, st).value.out
  {
    EmitAllCons(ns, gy, ty, es, st);
    var st1 := EmitEdge(ns, gy, ty, es[0], st).value;
    var el := NodeEl(Placeholder(es[0].target, Find(ns, es[0].source).value.x + st.offset, gy));
    assert el in st1.out;
    InPrefix(st1.out, EmitAll(ns, gy, ty, es[1..], st1).value.out, el);
  }

  /** The first edge's missing child is placed at the parent's x plus the
      running offset. */
  lemma FirstTopPhantom(ns: seq<CyNode>, gy: real, ty: real, es: seq<CyEdge>, st: Pass)
    requires es != [] && EmitAll(ns, gy, ty, es, st).Some? && es[0].source !in Ids(ns)
    ensures NodeEl(Placeholder(es[0].source, Find(ns, es[0].target).value.x + st.offsetTop, ty))
      in EmitAll(ns, gy, ty, es, st).value.out
  {
    EmitAllCons(ns, gy, ty, es, st);
    var st1 := EmitEdge(ns, gy, ty, es[0], st).value;
    var el := NodeEl(Placeholder(es[0].source, Find(ns, es[0].target).value.x + st.offsetTop, ty));
    assert el in st1.out;
    InPrefix(st1.out, EmitAll(ns, gy, ty, es[1..], st1).value.out, el);
  }

  /** Each running offset after the first edge, plus 60 per later miss
      before position j, is the offset before it plus 60 per miss before j. */
  lemma StepOffsets(ns: seq<CyNode>, gy: real, ty: real, es: seq<CyEdge>, st: Pass, j: nat)
    requires 0 < j <= |es| && EmitEdge(ns, gy, ty, es[0], st).Some?
    ensures EmitEdge(ns, gy, ty, es[0], st).value.offset + 60.0 * (MissingTargets(ns, es[1..][..j - 1]) as real)
         == st.offset + 60.0 * (MissingTargets(ns, es[..j]) as real)
    ensures EmitEdge(ns, gy, ty, es[0], st).value.offsetTop + 60.0 * (MissingSources(ns, es[1..][..j - 1]) as real)
         == st.offsetTop + 60.0 * (MissingSources(ns, es[..j]) as real)
  {
    MissingPrefixCons(ns, es, j);
  }

  /** A placeholder found in one list at one sum of offsets is found in an
      equal list at any equal sum. */
  lemma ShiftPlaceholder(out1: seq<Element>, out2: seq<Element>, id1: UnitId, x1: real, id2: UnitId, x2: real,
                         o1: real, m1: nat, o2: real, m2: nat, y: real)
    requires NodeEl(Placeholder(id1, x1 + o1 + 60.0 * (m1 as real), y)) in out1
    requires out1 == out2 && id1 == id2 && x1 == x2
    requires o1 + 60.0 * (m1 as real) == o2 + 60.0 * (m2 as real)
    ensures NodeEl(Placeholder(id2, x2 + o2 + 60.0 * (m2 as real), y)) in out2
  {
    assert x1 + o1 + 60.0 * (m1 as real) == x2 + o2 + 60.0 * (m2 as real);
  }

  /** An element of a prefix is an element of the whole. */
  lemma InPrefix<T>(a: seq<T>, b: seq<T>, x: T)
    requires |a| <= |b| && b[..|a|] == a && x in a
    ensures x in b
  {
    var i :| 0 <= i < |a| && a[i] == x;
    assert b[i] == b[..|a|][i];
  }

  /** Counting the missing ends of a prefix: the first edge, then the rest. */
  lemma MissingPrefixCons(ns: seq<CyNode>, es: seq<CyEdge>, j: nat)
    requires 0 < j <= |es|
    ensures MissingTargets(ns, es[..j])
      == (if es[0].target !in Ids(ns) then 1 else 0) + MissingTargets(ns, es[1..][..j - 1])
    ensures MissingSources(ns, es[..j])
      == (if es[0].source !in Ids(ns) then 1 else 0) + MissingSources(ns, es[1..][..j - 1])
  {
    assert es[..j][1..] == es[1..][..j - 1];
    assert es[..j][0] == es[0];
  }

  /** A bottom phantom entry is not touched by edges with another parent. */
  lemma {:induction false} BottomEntryKept(ns: seq<CyNode>, gy: real, ty: real, es: seq<CyEdge>, st: Pass, u: UnitId)
    requires EmitAll(ns, gy, ty, es, st).Some?
    requires u in st.phantoms
    requires forall k :: 0 <= k < |es| ==> es[k].target != u
    ensures u in EmitAll(ns, gy, ty, es, st).value.phantoms
    ensures EmitAll(ns, gy, ty, es, st).value.phantoms[u] == st.phantoms[u]
    decreases |es|
  {
    EmitAllKeys(ns, gy, ty, es, st);
    if es != [] {
      var st1 := EmitEdge(ns, gy, ty, es[0], st).value;
      assert es[0].target != u;
      forall k | 0 <= k < |es[1..]| ensures es[1..][k].target != u {
        assert es[1..][k] == es[k + 1];
      }
      BottomEntryKept(ns, gy, ty, es[1..], st1, u);
    }
  }

  /** The x recorded for a missing parent is the x its placeholder got for
      the last pending edge into that parent. */
  lemma {:induction false} BottomPhantomRecorded(ns: seq<CyNode>, gy: real, ty: real, es: seq<CyEdge>, st: Pass, j: nat)
    requires EmitAll(ns, gy, ty, es, st).Some?
    requires j < |es| && es[j].target !in Ids(ns)
    requires forall k :: j < k < |es| ==> es[k].target != es[j].target
    ensures es[j].source in Ids(ns)
    ensures es[j].target in EmitAll(ns, gy, ty, es, st).value.phantoms
    ensures EmitAll(ns, gy, ty, es, st).value.phantoms[es[j].target]
      == Find(ns, es[j].source).value.x + st.offset + 60.0 * (MissingTargets(ns, es[..j]) as real)
    decreases j
  {
    assert Loaded(ns, es[j]);
    var st1 := EmitEdge(ns, gy, ty, es[0], st).value;
    if j == 0 {
      assert es[..0] == [];
      forall k | 0 <= k < |es[1..]| ensures es[1..][k].target != es[0].target {
        assert es[1..][k] == es[k + 1];
      }
      BottomEntryKept(ns, gy, ty, es[1..], st1, es[0].target);
    } else {
      assert es[1..][j - 1] == es[j];
      forall k | j - 1 < k < |es[1..]| ensures es[1..][k].target != es[1..][j - 1].target {
        assert es[1..][k] == es[k + 1];
      }
      BottomPhantomRecorded(ns, gy, ty, es[1..], st1, j - 1);
      assert es[..j][1..] == es[1..][..j - 1];
      assert es[..j][0] == es[0];
    }
  }

  /** An edge with both ends on the canvas adds exactly its own edge element
      and no node. */
  lemma BothEndsLoaded(ns: seq<CyNode>, gy: real, ty: real, e: CyEdge, st: Pass)
    requires e.source in Ids(ns) && e.target in Ids(ns)
    ensures EmitEdge(ns, gy, ty, e, st).Some?
    ensures EmitEdge(ns, gy, ty, e, st).value.out == st.out + [EdgeEl(e)]
    ensures EmitEdge(ns, gy, ty, e, st).value.phantoms == st.phantoms
    ensures EmitEdge(ns, gy, ty, e, st).value.phantomsTop == st.phantomsTop
  {
  }
}

=== FILE: conflicts.dfy ===
/** Horizontal post-processing of a freshly laid-out slice
    (public/js/main.js): the width clamp `setMaxWidthNodes` and the row
    collision pass `fixConflicts`.

    `fixConflicts` first marks every node that has another node on the same
    row (equal y) less than 10 away horizontally, grouping the marked nodes by
    row; then, row by row, it walks the marked nodes in array order with a
    running offset that grows by -60 for a node left of the origin and by +60
    otherwise, and adds the running offset to the node's x. The model does
    the second phase in one left-to-right pass with one running offset per
    row, which visits each row's marked nodes in the same order; the marking
    is always computed on the input array. */
module Conflicts {
  import opened Render

  /** `x / (x / 500)` is exactly 500 for any non-zero x. */
  lemma ScaledSelf(x: real)
    requires x != 0.0
    ensures x / (x / 500.0) == 500.0
  {
    var q := x / 500.0;
    assert q * 500.0 == x;
    assert q != 0.0;
    assert 500.0 * q == x;
  }

  /** `setMaxWidthNodes`: the result always lies in [-500, 500], is the input
      itself inside that band, and is exactly the nearer bound outside it. */
  function ClampWidth(x: real): (r: real)
    ensures -500.0 <= r <= 500.0
    ensures -500.0 <= x <= 500.0 ==> r == x
    ensures x > 500.0 ==> r == 500.0
    ensures x < -500.0 ==> r == -500.0
  {
    if x > 500.0 then ScaledSelf(x); x / (x / 500.0)
    else if x < -500.0 then ScaledSelf(x); -(x / (x / 500.0))
    else x
  }

  /** Two nodes on the same row, less than 10 apart horizontally. */
  predicate Near(p: CyNode, q: CyNode) {
    p.y == q.y && q.x - 10.0 < p.x < q.x + 10.0
  }

  /** Node `a` is marked by the first phase of `fixConflicts`. */
  predicate InConflict(arr: seq<CyNode>, a: nat)
    requires a < |arr|
  {
    exists b :: 0 <= b < |arr| && b != a && Near(arr[a], arr[b])
  }

  /** The change of the running offset caused by a node at `x`. */
  function Step(x: real): real {
    if x < 0.0 then -60.0 else 60.0
  }

  /** The running offset of row `y` after the marked nodes among the first
      `n`: the reference, in closed form, for the pass below. */
  function ShiftBefore(arr: seq<CyNode>, y: real, n: nat): real
    requires n <= |arr|
  {
    if n == 0 then 0.0
    else
      ShiftBefore(arr, y, n - 1)
        + (if arr[n - 1].y == y && InConflict(arr, n - 1) then Step(arr[n - 1].x) else 0.0)
  }

  /** How far node `i` moves: the running offset of its row just after it,
      or nothing when it is not marked. */
  function Shift(arr: seq<CyNode>, i: nat): real
    requires i < |arr|
  {
    if InConflict(arr, i) then ShiftBefore(arr, arr[i].y, i + 1) else 0.0
  }

  /** Current running offset of row `y` (rows not met yet start at 0). */
  function Offset(offsets: map<real, real>, y: real): real {
    if y in offsets then offsets[y] else 0.0
  }

  /** The second phase from position `i` on, carrying the running offset of
      every row met so far. */
  function FixFrom(arr: seq<CyNode>, i: nat, offsets: map<real, real>): (r: seq<CyNode>)
    requires i <= |arr|
    requires forall y :: Offset(offsets, y) == ShiftBefore(arr, y, i)
    ensures |r| == |arr| - i
    ensures forall k :: 0 <= k < |r| ==> r[k] == arr[i + k].(x := arr[i + k].x + Shift(arr, i + k))
    decreases |arr| - i
  {
    if i == |arr| then []
    else if InConflict(arr, i) then
      var off := Offset(offsets, arr[i].y) + Step(arr[i].x);
      var next := offsets[arr[i].y := off];
      forall y ensures Offset(next, y) == ShiftBefore(arr, y, i + 1) {
        if y != arr[i].y {
          assert Offset(next, y) == Offset(offsets, y);
        }
      }
      [arr[i].(x := arr[i].x + off)] + FixFrom(arr, i + 1, next)
    else
      assert forall y :: Offset(offsets, y) == ShiftBefore(arr, y, i + 1);
      [arr[i]] + FixFrom(arr, i + 1, offsets)
  }

  /** `fixConflicts`: same length and order, every node keeps its id, label,
      classes and y; a node moves horizontally by the running offset of its
      row, and a node without a near neighbour on its row does not move. */
  function FixConflicts(arr: seq<CyNode>): (r: seq<CyNode>)
    ensures |r| == |arr|
    ensures forall i :: 0 <= i < |arr| ==>
      && r[i].id == arr[i].id && r[i].short == arr[i].short
      && r[i].classes == arr[i].classes && r[i].y == arr[i].y
      && r[i].x == arr[i].x + Shift(arr, i)
    ensures forall i :: 0 <= i < |arr| && !InConflict(arr, i) ==> r[i] == arr[i]
  {
    FixFrom(arr, 0, map[])
  }

  /** Marked nodes of row `y` among the first `n`. */
  function Members(arr: seq<CyNode>, y: real, n: nat): nat
    requires n <= |arr|
  {
    if n == 0 then 0
    else Members(arr, y, n - 1) + (if arr[n - 1].y == y && InConflict(arr, n - 1) then 1 else 0)
  }

  /** Marked nodes of row `y` left of the origin minus those at or right of
      it, with the sign the running offset gives them. */
  function NetSteps(arr: seq<CyNode>, y: real, n: nat): int
    requires n <= |arr|
  {
    if n == 0 then 0
    else
      NetSteps(arr, y, n - 1)
        + (if arr[n - 1].y == y && InConflict(arr, n - 1) then (if arr[n - 1].x < 0.0 then -1 else 1) else 0)
  }

  /** The running offset is always 60 times an integer whose size is at most
      the number of marked nodes seen on the row. */
  lemma {:induction false} ShiftBeforeSteps(arr: seq<CyNode>, y: real, n: nat)
    requires n <= |arr|
    ensures ShiftBefore(arr, y, n) == 60.0 * (NetSteps(arr, y, n) as real)
    ensures -(Members(arr, y, n) as int) <= NetSteps(arr, y, n) <= Members(arr, y, n)
  {
    if n > 0 {
      ShiftBeforeSteps(arr, y, n - 1);
    }
  }

  /** The signed number of 60-steps node `i` moves by. */
  function Steps(arr: seq<CyNode>, i: nat): int
    requires i < |arr|
  {
    if InConflict(arr, i) then NetSteps(arr, arr[i].y, i + 1) else 0
  }

  /** Every move made by `fixConflicts` is a multiple of 60 no larger than 60
      times the number of marked nodes of the row up to and including it. */
  lemma MoveIsMultipleOf60(arr: seq<CyNode>, i: nat)
    requires i < |arr|
    ensures FixConflicts(arr)[i].x - arr[i].x == 60.0 * (Steps(arr, i) as real)
    ensures -(Members(arr, arr[i].y, i + 1) as int) <= Steps(arr, i) <= Members(arr, arr[i].y, i + 1)
  {
    ShiftBeforeSteps(arr, arr[i].y, i + 1);
  }

  /** On a row whose marked nodes all lie at or right of the origin, the
      running offset is +60 per marked node. */
  lemma {:induction false} RightwardOffset(arr: seq<CyNode>, y: real, n: nat)
    requires n <= |arr|
    requires forall j :: 0 <= j < n && arr[j].y == y && InConflict(arr, j) ==> arr[j].x >= 0.0
    ensures ShiftBefore(arr, y, n) == 60.0 * (Members(arr, y, n) as real)
  {
    if n > 0 {
      RightwardOffset(arr, y, n - 1);
    }
  }

  /** On a row whose marked nodes all lie left of the origin, the running
      offset is -60 per marked node. */
  lemma {:induction false} LeftwardOffset(arr: seq<CyNode>, y: real, n: nat)
    requires n <= |arr|
    requires forall j :: 0 <= j < n && arr[j].y == y && InConflict(arr, j) ==> arr[j].x < 0.0
    ensures ShiftBefore(arr, y, n) == -60.0 * (Members(arr, y, n) as real)
  {
    if n > 0 {
      LeftwardOffset(arr, y, n - 1);
    }
  }

  /** In a row whose marked nodes all have x >= 0, the k-th marked node (in
      array order) moves right by exactly 60 k. */
  lemma KthMovesRight(arr: seq<CyNode>, i: nat)
    requires i < |arr| && InConflict(arr, i)
    requires forall j :: 0 <= j <= i && arr[j].y == arr[i].y && InConflict(arr, j) ==> arr[j].x >= 0.0
    ensures Members(arr, arr[i].y, i + 1) >= 1
    ensures FixConflicts(arr)[i].x == arr[i].x + 60.0 * (Members(arr, arr[i].y, i + 1) as real)
  {
    RightwardOffset(arr, arr[i].y, i + 1);
  }

  /** In a row whose marked nodes all have x < 0, the k-th marked node moves
      left by exactly 60 k. */
  lemma KthMovesLeft(arr: seq<CyNode>, i: nat)
    requires i < |arr| && InConflict(arr, i)
    requires forall j :: 0 <= j <= i && arr[j].y == arr[i].y && InConflict(arr, j) ==> arr[j].x < 0.0
    ensures Members(arr, arr[i].y, i + 1) >= 1
    ensures FixConflicts(arr)[i].x == arr[i].x - 60.0 * (Members(arr, arr[i].y, i + 1) as real)
  {
    LeftwardOffset(arr, arr[i].y, i + 1);
  }

  /** Rows with mixed signs are not kept 60 apart: nodes at x = 1, -1, 2 on
      one row end at 61, -1 and 62, so the first and last are 1 apart. */
  lemma MixedSignsCollide()
    ensures var arr := [CyNode("a", "", 1.0, 0.0, {}), CyNode("b", "", -1.0, 0.0, {}),
                        CyNode("c", "", 2.0, 0.0, {})];
      var r := FixConflicts(arr);
      r[0].x == 61.0 && r[1].x == -1.0 && r[2].x == 62.0 && r[0].y == r[2].y
  {
    var arr := [CyNode("a", "", 1.0, 0.0, {}), CyNode("b", "", -1.0, 0.0, {}),
                CyNode("c", "", 2.0, 0.0, {})];
    assert Near(arr[0], arr[1]) && Near(arr[1], arr[0]) && Near(arr[2], arr[0]);
    assert InConflict(arr, 0) && InConflict(arr, 1) && InConflict(arr, 2);
  }
}

=== FILE: dispatch.dfy ===
/** The socket handlers of the explorer's server (controllers/ws.js): the
    opening request by kind, the paging requests of the DAG page, the
    highlight of a searched unit and the next page of an address. The
    database is given as the rows its queries return; `table` is the units
    table in ROWID order. */
module Dispatch {
  import opened Base
  import opened Render
  import opened Stability
  import opened Units
  import opened Address

  /** What the handlers of the DAG page read: the units table in ROWID
      order, the parenthood rows, and the rows of the newest-units query. */
  datatype Db = Db(table: seq<UnitRow>, links: seq<LinkRow>, lastRows: seq<LinkRow>)

  /** The `SELECT ROWID FROM units WHERE unit = ? LIMIT 0,1` lookup: the
      first row of the unit, or nothing when the unit is unknown. */
  function Lookup(t: seq<UnitRow>, unit: UnitId): (r: Option<UnitRow>)
    ensures r.None? <==> forall x :: x in t ==> x.unit != unit
    ensures r.Some? ==> r.value in t && r.value.unit == unit
  {
    if t == [] then None
    else if t[0].unit == unit then Some(t[0])
    else
      var r := Lookup(t[1..], unit);
      assert forall x :: x in t <==> x == t[0] || x in t[1..];
      r
  }

  /** The window a found unit is opened in: the 100 units below
      `rowid + 25`, so the unit sits near the top of the page. */
  function AroundUnit(db: Db, rowid: int): Slice
    requires Ascending(db.table)
  {
    UnitsBefore(db.table, db.links, rowid + 25, 100)
  }

  /** The inputs the address view reads: whether any author, input or
      output names the address, the rows of the queries behind
      `getAddressInfo`, and the definitions stored for the author's newest
      definition hash, if it has one. */
  datatype AddressDb = AddressDb(
    known: bool,
    pageRows: seq<PageRow>,
    rows: seq<TxRow>,
    funds: seq<FundRow>,
    spends: seq<SpendOut>,
    unspent: seq<UnspentRow>,
    definitionChash: Option<string>,
    definitions: seq<string>)

  /** The definition sent with the address view: `false` when the address
      has authored no definition. */
  datatype Definition = Undefined | Defined(text: string)

  /** The address view of `getAddressInfo`. */
  datatype AddressInfo = AddressInfo(
    address: string,
    page: Option<Page>,
    holdings: Option<Holdings>,
    end: Option<bool>,
    definition: Definition)

  /** `getAddressInfo`: the first page of transactions, the holdings, the
      end flag and the definition. When the author row names a definition
      hash with no stored definition, the first definition row is missing
      and the reply never comes (nothing). */
  function AddressInfoOf(address: string, a: AddressDb): (r: Option<AddressInfo>)
    ensures r.None? <==> a.definitionChash.Some? && a.definitions == []
    ensures r.Some? ==> r.value.address == address
    ensures r.Some? ==> (r.value.page.None? <==> a.pageRows == [] || a.rows == [])
    ensures r.Some? ==> (r.value.end.None? <==> r.value.page.None?)
    ensures r.Some? ==> (r.value.holdings.None? <==> r.value.page.None? && a.unspent == [])
    ensures r.Some? ==> (r.value.definition.Defined? <==> a.definitionChash.Some?)
    ensures r.Some? && r.value.definition.Defined? ==> r.value.definition.text == a.definitions[0]
  {
    var p := AddressTransactions(address, a.pageRows, a.rows, a.funds, a.spends);
    var info := AddressInfo(address, p, AddressBalance(p, a.unspent), EndOf(p), Undefined);
    match a.definitionChash
    case None => Some(info)
    case Some(_) =>
      if a.definitions == [] then None
      else Some(info.(definition := Defined(a.definitions[0])))
  }

  /** The reply to `start`. */
  datatype StartReply =
    | Graph(slice: Slice, notFound: bool)
    | AddressView(info: Option<AddressInfo>)
    | NoReply

  /** `start`: the newest units for `last`; for `unit`, the window around
      the unit, or the newest units flagged not found; for `address`, the
      address view, or an empty one for an unknown address; nothing for any
      other kind. */
  function Start(kind: string, unit: UnitId, address: string, db: Db, a: AddressDb): (r: StartReply)
    requires Ascending(db.table)
    ensures kind != "last" && kind != "unit" && kind != "address" ==> r.NoReply?
    ensures kind == "last" ==> r == Graph(LastUnits(db.lastRows), false)
    ensures kind == "unit" ==> r.Graph? && (r.notFound <==> Lookup(db.table, unit).None?)
    ensures kind == "unit" && r.notFound ==> r.slice == LastUnits(db.lastRows)
    ensures kind == "unit" && !r.notFound ==> r.slice == AroundUnit(db, Lookup(db.table, unit).value.rowid)
    ensures kind == "address" && !a.known ==> r == AddressView(None)
    ensures kind == "address" && a.known ==>
      (r.NoReply? <==> AddressInfoOf(address, a).None?)
    ensures kind == "address" && a.known && AddressInfoOf(address, a).Some? ==>
      r == AddressView(AddressInfoOf(address, a))
  {
    if kind == "last" then Graph(LastUnits(db.lastRows), false)
    else if kind == "unit" then
      match Lookup(db.table, unit)
      case None => Graph(LastUnits(db.lastRows), true)
      case Some(x) => Graph(AroundUnit(db, x.rowid), false)
    else if kind == "address" then
      if !a.known then AddressView(None)
      else
        match AddressInfoOf(address, a)
        case None => NoReply
        case Some(info) => AddressView(Some(info))
    else NoReply
  }

  /** A paging reply: the units and edges, the `end` flag where the handler
      sends one, and the units of the page's not-stable list that became
      stable. */
  datatype Batch = Batch(slice: Slice, end: Option<bool>, stable: seq<StableRow>)

  /** `next`: the 100 units below the page's lowest ROWID. */
  function Next(db: Db, notStable: seq<UnitId>, last: int): (b: Batch)
    requires Ascending(db.table)
    ensures b.end.None?
    ensures forall n :: n in b.slice.nodes ==> n.rowid < last
    ensures |b.slice.nodes| == Min(100, |Below(db.table, last)|)
    ensures notStable == [] ==> b.stable == []
  {
    Batch(UnitsBefore(db.table, db.links, last, 100), None, BecameStable(notStable, db.table))
  }

  /** `prev`: the 100 units above the page's highest ROWID, and `end` when
      fewer than 100 came back. */
  function Prev(db: Db, notStable: seq<UnitId>, first: int): (b: Batch)
    ensures b.end.Some?
    ensures forall n :: n in b.slice.nodes ==> n.rowid > first
    ensures notStable == [] ==> b.stable == []
  {
    var s := UnitsAfter(db.table, db.links, first, 100);
    Batch(s, Some(|s.nodes| < 100), BecameStable(notStable, db.table))
  }

  /** `newUnits`: the 100 units above the given ROWID, without `end`. */
  function New(db: Db, notStable: seq<UnitId>, rowid: int): (b: Batch)
    ensures b.end.None?
    ensures forall n :: n in b.slice.nodes ==> n.rowid > rowid
    ensures notStable == [] ==> b.stable == []
  {
    Batch(UnitsAfter(db.table, db.links, rowid, 100), None, BecameStable(notStable, db.table))
  }

  /** The units of an upward query are as many as the table has above the
      bound, up to the limit. */
  lemma UnitsAfterCount(t: seq<UnitRow>, links: seq<LinkRow>, rowid: int, limit: nat)
    ensures |UnitsAfter(t, links, rowid, limit).nodes| == Min(limit, |Above(t, rowid)|)
  {
    var s := UnitsAfter(t, links, rowid, limit);
    assert |multiset(s.nodes)| == |s.nodes|;
  }

  /** `prev`'s `end` says exactly that fewer than 100 units are above the
      page. */
  lemma PrevEndIffTop(db: Db, notStable: seq<UnitId>, first: int)
    ensures Prev(db, notStable, first).end.value <==> |Above(db.table, first)| < 100
  {
    UnitsAfterCount(db.table, db.links, first, 100);
  }

  /** The reply to `highlightNode`. */
  datatype Highlighted =
    | ShowPrev(slice: Slice, end: bool)
    | ShowNext(slice: Slice)
    | ShowStart(slice: Slice)
    | Unknown

  /** `highlightNode`: an unknown unit gets an empty `info`; a unit within
      200 ROWIDs above the page's top gets the 200 units above the top, one
      within 200 below its bottom the 200 units below the bottom (the upward
      test first), any other the window around the unit. */
  function Highlight(db: Db, first: int, last: int, unit: UnitId): (h: Highlighted)
    requires Ascending(db.table)
    ensures h.Unknown? <==> Lookup(db.table, unit).None?
    ensures h.ShowPrev? ==> first < Lookup(db.table, unit).value.rowid < first + 200
    ensures h.ShowNext? ==> last - 200 < Lookup(db.table, unit).value.rowid < last
    ensures h.ShowNext? ==> !(first < Lookup(db.table, unit).value.rowid < first + 200)
    ensures h.ShowStart? ==>
      var r := Lookup(db.table, unit).value.rowid;
      !(first < r < first + 200) && !(last - 200 < r < last)
    ensures h.ShowPrev? ==> (h.end <==> |h.slice.nodes| < 100)
    ensures h.ShowPrev? ==> forall n :: n in h.slice.nodes ==> n.rowid > first
    ensures h.ShowPrev? ==> |h.slice.nodes| == Min(200, |Above(db.table, first)|)
    ensures h.ShowNext? ==> forall n :: n in h.slice.nodes ==> n.rowid < last
    ensures h.ShowNext? ==> |h.slice.nodes| == Min(200, |Below(db.table, last)|)
    ensures h.ShowStart? ==> h.slice == AroundUnit(db, Lookup(db.table, unit).value.rowid)
  {
    match Lookup(db.table, unit)
    case None => Unknown
    case Some(x) =>
      if first < x.rowid < first + 200 then
        var s := UnitsAfter(db.table, db.links, first, 200);
        UnitsAfterCount(db.table, db.links, first, 200);
        ShowPrev(s, |s.nodes| < 100)
      else if last - 200 < x.rowid < last then ShowNext(UnitsBefore(db.table, db.links, last, 200))
      else ShowStart(AroundUnit(db, x.rowid))
  }

  /** The units a highlight reply sends. */
  function Shown(h: Highlighted): seq<NodeRecord> {
    match h
    case ShowPrev(s, _) => s.nodes
    case ShowNext(s) => s.nodes
    case ShowStart(s) => s.nodes
    case Unknown => []
  }

  /** Whatever branch it takes, a highlight of a known unit sends a graph
      that holds the unit. */
  lemma HighlightShowsUnit(db: Db, first: int, last: int, unit: UnitId)
    requires Ascending(db.table)
    requires Lookup(db.table, unit).Some?
    ensures NodeOf(Lookup(db.table, unit).value) in Shown(Highlight(db, first, last, unit))
  {
    var x := Lookup(db.table, unit).value;
    var h := Highlight(db, first, last, unit);
    if first < x.rowid < first + 200 {
      assert Shown(h) == UnitsAfter(db.table, db.links, first, 200).nodes;
      SelectAfterHolds(db.table, first, 200, x);
      AfterHolds(db.table, db.links, first, 200, x);
    } else if last - 200 < x.rowid < last {
      assert Shown(h) == UnitsBefore(db.table, db.links, last, 200).nodes;
      SelectBeforeHolds(db.table, last, 200, x);
      BeforeHolds(db.table, db.links, last, 200, x);
    } else {
      assert Shown(h) == AroundUnit(db, x.rowid).nodes;
      AroundUnitHolds(db, x);
    }
  }

  /** Opening the page on a known unit sends a graph that holds the unit. */
  lemma StartShowsUnit(unit: UnitId, address: string, db: Db, a: AddressDb)
    requires Ascending(db.table)
    requires Lookup(db.table, unit).Some?
    ensures NodeOf(Lookup(db.table, unit).value) in Start("unit", unit, address, db, a).slice.nodes
  {
    AroundUnitHolds(db, Lookup(db.table, unit).value);
  }

  /** The window around a unit holds the unit. */
  lemma AroundUnitHolds(db: Db, x: UnitRow)
    requires Ascending(db.table) && x in db.table
    ensures NodeOf(x) in AroundUnit(db, x.rowid).nodes
  {
    var bound := x.rowid + 25;
    assert bound - 100 <= x.rowid < bound;
    SelectBeforeHolds(db.table, bound, 100, x);
    BeforeHolds(db.table, db.links, bound, 100, x);
    assert AroundUnit(db, x.rowid) == UnitsBefore(db.table, db.links, bound, 100);
  }

  /** A selected row's unit is among the nodes of a downward query. */
  lemma BeforeHolds(t: seq<UnitRow>, links: seq<LinkRow>, rowid: int, limit: nat, x: UnitRow)
    requires Ascending(t)
    requires x in SelectBefore(t, rowid, limit)
    ensures NodeOf(x) in UnitsBefore(t, links, rowid, limit).nodes
  {
    var rows := SelectBefore(t, rowid, limit);
    var i :| 0 <= i < |rows| && rows[i] == x;
    assert UnitsBefore(t, links, rowid, limit).nodes[i] == NodeOf(x);
  }

  /** A selected row's unit is among the nodes of an upward query. */
  lemma AfterHolds(t: seq<UnitRow>, links: seq<LinkRow>, rowid: int, limit: nat, x: UnitRow)
    requires x in SelectAfter(t, rowid, limit)
    ensures NodeOf(x) in UnitsAfter(t, links, rowid, limit).nodes
  {
    var rows := SelectAfter(t, rowid, limit);
    var i :| 0 <= i < |rows| && rows[i] == x;
    assert RecordsOf(rows)[i] == NodeOf(x);
    assert NodeOf(x) in multiset(RecordsOf(rows));
  }

  /** A highlight sent upward carries the same `end` as `prev` would,
      although it asks for 200 units: `end` still means fewer than 100
      units above the page. */
  lemma HighlightPrevEnd(db: Db, first: int, last: int, unit: UnitId)
    requires Ascending(db.table)
    requires Highlight(db, first, last, unit).ShowPrev?
    ensures Highlight(db, first, last, unit).end <==> |Above(db.table, first)| < 100
  {
    UnitsAfterCount(db.table, db.links, first, 200);
  }

  /** The reply to `nextPageTransactions`. */
  datatype NextPage = NextPage(address: string, page: Option<Page>, end: bool)

  /** `nextPageTransactions`: the next page after the cursor the client
      holds (the page's unit rows are those below it); `end` when there is
      no page or it has fewer than five records. */
  function NextPageOf(address: string, pageRows: seq<PageRow>, rows: seq<TxRow>,
                      funds: seq<FundRow>, spends: seq<SpendOut>): (r: NextPage)
    ensures r.address == address
    ensures r.page.None? <==> pageRows == [] || rows == []
    ensures r.end <==> r.page.None? || |r.page.value.txs.values.Keys| < 5
  {
    var p := AddressTransactions(address, pageRows, rows, funds, spends);
    NextPage(address, p, p.None? || Size(p.value.txs) < 5)
  }

  /** The address view and a page request over the same rows agree on the
      page and, when there is one, on `end`; without a page the view sends
      no `end` while the page request sends `end` true. */
  lemma EndAgrees(address: string, a: AddressDb)
    requires AddressInfoOf(address, a).Some?
    ensures var info := AddressInfoOf(address, a).value;
      var next := NextPageOf(address, a.pageRows, a.rows, a.funds, a.spends);
      && info.page == next.page
      && (info.end.Some? ==> info.end.value == next.end)
      && (info.end.None? ==> next.end)
  {
  }
}

=== FILE: placement.dfy ===
/** Re-homing a freshly laid-out slice onto the canvas (public/js/main.js):
    `generate` appends an older slice below the window and `setNew` stacks a
    newer slice above it. The layout coordinates are given (the layout engine
    is not modelled): one entry per unit of the slice that carries a label, in
    the engine's node order, whose first entry is the first unit of the slice.

    Both functions shift the slice horizontally so that its first node lands
    at minus half the slice width, clamp the result to [-500, 500], and nudge
    an off-main-chain node that lands exactly on 0 to 40. A unit that stands
    on the canvas as a phantom keeps the phantom's x instead; the phantom node
    is removed and its entry deleted. Vertically, `generate` puts the slice 66
    below the bottom offset and then moves that offset to the last canvas
    node; `setNew` puts the slice so that it ends 66 below the old top offset
    and raises the top offset by the slice height plus 66. */
module Placement {
  import opened Base
  import opened Render
  import opened Conflicts
  import opened Boundary
  import opened Stability

  /** One laid-out unit: id, label, layout position and the unit's flags. */
  datatype LayoutNode = LayoutNode(
    id: UnitId,
    short: string,
    x: real,
    y: real,
    onMainChain: int,
    stable: int,
    sequence: string)

  /** Ids of a layout. */
  function LayoutIds(l: seq<LayoutNode>): set<UnitId> {
    set n | n in l :: n.id
  }

  /** The layout engine keys nodes by unit, so no unit occurs twice. */
  ghost predicate DistinctIds(l: seq<LayoutNode>) {
    forall i, j :: 0 <= i < j < |l| ==> l[i].id != l[j].id
  }

  /** Style classes of a laid-out unit: main chain and stable follow the
      truthiness of the flags, the two bad sequences get their own class. */
  function ClassesOf(n: LayoutNode): (c: set<NodeClass>)
    ensures OnMainChain in c <==> n.onMainChain != 0
    ensures Stable in c <==> n.stable != 0
    ensures FinalBad in c <==> n.sequence == "final-bad"
    ensures TempBad in c <==> n.sequence == "temp-bad"
  {
    (if n.onMainChain != 0 then {OnMainChain} else {})
    + (if n.stable != 0 then {Stable} else {})
    + (if n.sequence == "final-bad" then {FinalBad} else {})
    + (if n.sequence == "temp-bad" then {TempBad} else {})
  }

  /** Leftmost layout x. */
  function MinX(l: seq<LayoutNode>): (m: real)
    requires l != []
    ensures forall i :: 0 <= i < |l| ==> m <= l[i].x
    ensures exists i :: 0 <= i < |l| && l[i].x == m
  {
    if |l| == 1 then l[0].x
    else
      var m := MinX(l[1..]);
      assert forall i :: 1 <= i < |l| ==> l[i] == l[1..][i - 1];
      if l[0].x < m then l[0].x else m
  }

  /** Rightmost layout x. */
  function MaxX(l: seq<LayoutNode>): (m: real)
    requires l != []
    ensures forall i :: 0 <= i < |l| ==> l[i].x <= m
    ensures exists i :: 0 <= i < |l| && l[i].x == m
  {
    if |l| == 1 then l[0].x
    else
      var m := MaxX(l[1..]);
      assert forall i :: 1 <= i < |l| ==> l[i] == l[1..][i - 1];
      if l[0].x > m then l[0].x else m
  }

  /** Lowest layout y (top of the slice). */
  function MinY(l: seq<LayoutNode>): (m: real)
    requires l != []
    ensures forall i :: 0 <= i < |l| ==> m <= l[i].y
    ensures exists i :: 0 <= i < |l| && l[i].y == m
  {
    if |l| == 1 then l[0].y
    else
      var m := MinY(l[1..]);
      assert forall i :: 1 <= i < |l| ==> l[i] == l[1..][i - 1];
      if l[0].y < m then l[0].y else m
  }

  /** Highest layout y (bottom of the slice). */
  function MaxY(l: seq<LayoutNode>): (m: real)
    requires l != []
    ensures forall i :: 0 <= i < |l| ==> l[i].y <= m
    ensures exists i :: 0 <= i < |l| && l[i].y == m
  {
    if |l| == 1 then l[0].y
    else
      var m := MaxY(l[1..]);
      assert forall i :: 1 <= i < |l| ==> l[i] == l[1..][i - 1];
      if l[0].y > m then l[0].y else m
  }

  /** Horizontal shift of a slice: the first node lands at minus half the
      slice width. */
  function ShiftX(l: seq<LayoutNode>): real
    requires l != []
  {
    -l[0].x - (MaxX(l) - MinX(l)) / 2.0
  }

  /** When the first node is the leftmost one, the slice is centred on 0:
      the midpoint of its extent lands on 0. */
  lemma CentredWhenFirstIsLeftmost(l: seq<LayoutNode>)
    requires l != [] && l[0].x == MinX(l)
    ensures (MinX(l) + MaxX(l)) / 2.0 + ShiftX(l) == 0.0
    ensures MinX(l) + ShiftX(l) == -(MaxX(l) - MinX(l)) / 2.0
    ensures MaxX(l) + ShiftX(l) == (MaxX(l) - MinX(l)) / 2.0
  {
  }

  /** x of a node that does not replace a phantom: the shifted layout x,
      clamped to [-500, 500], and 40 instead of 0 for a node off the main
      chain. */
  function HomeX(n: LayoutNode, offX: real): (x: real)
    ensures -500.0 <= x <= 500.0
    ensures -500.0 <= n.x + offX <= 500.0 && (n.x + offX != 0.0 || n.onMainChain != 0) ==> x == n.x + offX
    ensures n.x + offX > 500.0 ==> x == 500.0
    ensures n.x + offX < -500.0 ==> x == -500.0
    ensures n.x + offX == 0.0 && n.onMainChain == 0 ==> x == 40.0
    ensures n.x + offX == 0.0 && n.onMainChain != 0 ==> x == 0.0
  {
    var p := ClampWidth(n.x + offX);
    if p == 0.0 && n.onMainChain == 0 then p + 40.0 else p
  }

  /** Output of the placement loop: the new node elements, the phantom
      entries left, and the phantom nodes to take off the canvas. */
  datatype Placed = Placed(nodes: seq<CyNode>, rest: map<UnitId, real>, removed: seq<UnitId>)

  /** The layout with its first unit set apart has the first unit's id plus
      the ids of the rest. */
  lemma LayoutIdsCons(l: seq<LayoutNode>)
    requires l != []
    ensures LayoutIds(l) == {l[0].id} + LayoutIds(l[1..])
  {
    assert forall m :: m in l <==> m == l[0] || m in l[1..];
  }

  /** Distinct ids stay distinct in the rest, which lacks the first id. */
  lemma DistinctTail(l: seq<LayoutNode>)
    requires l != [] && DistinctIds(l)
    ensures DistinctIds(l[1..]) && l[0].id !in LayoutIds(l[1..])
  {
    forall i, j | 0 <= i < j < |l[1..]| ensures l[1..][i].id != l[1..][j].id {
      assert l[1..][i] == l[i + 1] && l[1..][j] == l[j + 1];
    }
    forall m | m in l[1..] ensures m.id != l[0].id {
      var i :| 0 <= i < |l[1..]| && l[1..][i] == m;
      assert l[i + 1] == m;
    }
  }

  /** The element built for one unit, given the phantom map as it stands
      when the unit is reached. */
  function PlaceOne(n: LayoutNode, ph: map<UnitId, real>, offX: real, offY: real): (c: CyNode)
    ensures c.id == n.id && c.short == n.short && c.classes == ClassesOf(n) && c.y == n.y + offY
  {
    CyNode(n.id, n.short, if n.id in ph then ph[n.id] else HomeX(n, offX), n.y + offY, ClassesOf(n))
  }

  /** The placement loop over the layout, carrying the phantom map it deletes
      from: each unit keeps its id, label and classes and is lowered by
      `offY`. */
  function PlaceFrom(l: seq<LayoutNode>, ph: map<UnitId, real>, offX: real, offY: real): (r: Placed)
    ensures |r.nodes| == |l|
    ensures forall i :: 0 <= i < |l| ==>
      && r.nodes[i].id == l[i].id && r.nodes[i].short == l[i].short
      && r.nodes[i].classes == ClassesOf(l[i]) && r.nodes[i].y == l[i].y + offY
  {
    if l == [] then Placed([], ph, [])
    else
      var n := l[0];
      var ph1 := if n.id in ph then ph - {n.id} else ph;
      var rest := PlaceFrom(l[1..], ph1, offX, offY);
      var nodes := [PlaceOne(n, ph, offX, offY)] + rest.nodes;
      assert forall i :: 1 <= i < |l| ==> l[i] == l[1..][i - 1] && nodes[i] == rest.nodes[i - 1];
      Placed(nodes, rest.rest, (if n.id in ph then [n.id] else []) + rest.removed)
  }

  /** Exactly the phantom entries of the slice are deleted, and their nodes
      are the ones taken off the canvas. */
  lemma {:induction false} PlacedPhantoms(l: seq<LayoutNode>, ph: map<UnitId, real>, offX: real, offY: real)
    ensures PlaceFrom(l, ph, offX, offY).rest == ph - LayoutIds(l)
    ensures forall u :: u in PlaceFrom(l, ph, offX, offY).removed <==> u in ph && u in LayoutIds(l)
  {
    if l != [] {
      var id := l[0].id;
      var ph1 := if id in ph then ph - {id} else ph;
      PlacedPhantoms(l[1..], ph1, offX, offY);
      LayoutIdsCons(l);
      DeleteThenSubtract(ph, id, LayoutIds(l[1..]));
      var r1 := PlaceFrom(l[1..], ph1, offX, offY);
      assert PlaceFrom(l, ph, offX, offY).removed == (if id in ph then [id] else []) + r1.removed;
    }
  }

  /** Deleting one key and then a set is deleting both at once. */
  lemma DeleteThenSubtract(ph: map<UnitId, real>, id: UnitId, ids: set<UnitId>)
    ensures (if id in ph then ph - {id} else ph) - ids == ph - ({id} + ids)
    ensures forall u :: u in (if id in ph then ph - {id} else ph) <==> u in ph && u != id
  {
  }

  /** Horizontal placement: a unit with a phantom entry takes the entry's x
      (ids of a layout are distinct, so the entry is still there when the
      unit is reached), any other unit its home x. */
  lemma {:induction false} PlacedX(l: seq<LayoutNode>, ph: map<UnitId, real>, offX: real, offY: real, i: nat)
    requires i < |l| && DistinctIds(l)
    ensures l[i].id !in ph ==> PlaceFrom(l, ph, offX, offY).nodes[i].x == HomeX(l[i], offX)
    ensures l[i].id in ph ==> PlaceFrom(l, ph, offX, offY).nodes[i].x == ph[l[i].id]
  {
    if i > 0 {
      var ph1 := if l[0].id in ph then ph - {l[0].id} else ph;
      DistinctTail(l);
      assert l[1..][i - 1] == l[i];
      assert l[i].id != l[0].id;
      PlacedX(l[1..], ph1, offX, offY, i - 1);
    }
  }

  /** `_cy.remove` of each listed node, edges attached to it included. */
  function RemoveAll(s: Scene, ids: seq<UnitId>): (r: Scene)
    ensures Ids(r.nodes) == Ids(s.nodes) - (set u | u in ids)
    ensures UniqueIds(s.nodes) ==> UniqueIds(r.nodes)
    ensures NoDangling(s) ==> NoDangling(r)
    ensures forall e :: e in r.edges ==> e in s.edges
    ensures r == s.(nodes := r.nodes, edges := r.edges)
    decreases |ids|
  {
    if ids == [] then s
    else
      var r := RemoveAll(RemoveNode(s, ids[0]), ids[1..]);
      assert (set u | u in ids) == {ids[0]} + (set u | u in ids[1..]) by {
        assert forall u :: u in ids <==> u == ids[0] || u in ids[1..];
      }
      r
  }

  /** The elements built for a slice, after `fixConflicts`. */
  function Fixed(l: seq<LayoutNode>, ph: map<UnitId, real>, offX: real, offY: real): seq<CyNode> {
    FixConflicts(PlaceFrom(l, ph, offX, offY).nodes)
  }

  /** The placed slice on the canvas, before its edges: the phantom nodes of
      the slice are gone and the slice's nodes (after `fixConflicts`) are
      added; the canvas keeps unique ids and attached edges, and nothing else
      about the scene changes. */
  function Land(s: Scene, l: seq<LayoutNode>, ph: map<UnitId, real>, offX: real, offY: real): (r: Scene)
    ensures UniqueIds(s.nodes) ==> UniqueIds(r.nodes)
    ensures NoDangling(s) ==> NoDangling(r)
    ensures forall e :: e in r.edges ==> e in s.edges
    ensures r == s.(nodes := r.nodes, edges := r.edges)
  {
    var s1 := RemoveAll(s, PlaceFrom(l, ph, offX, offY).removed);
    s1.(nodes := AddNodes(s1.nodes, Fixed(l, ph, offX, offY)))
  }

  /** The nodes built for a slice carry exactly the slice's ids. */
  lemma FixedIds(l: seq<LayoutNode>, ph: map<UnitId, real>, offX: real, offY: real)
    ensures Ids(Fixed(l, ph, offX, offY)) == LayoutIds(l)
  {
    var placed := PlaceFrom(l, ph, offX, offY);
    SameIds(Fixed(l, ph, offX, offY), placed.nodes);
    forall u | u in LayoutIds(l) ensures u in Ids(placed.nodes) {
      var n :| n in l && n.id == u;
      var i :| 0 <= i < |l| && l[i] == n;
      assert placed.nodes[i].id == u;
    }
    forall u | u in Ids(placed.nodes) ensures u in LayoutIds(l) {
      var i :| 0 <= i < |placed.nodes| && placed.nodes[i].id == u;
      assert l[i] in l;
    }
  }

  /** After landing, the canvas holds its old units except the phantoms the
      slice replaces, plus every unit of the slice. */
  lemma LandIds(s: Scene, l: seq<LayoutNode>, ph: map<UnitId, real>, offX: real, offY: real)
    ensures Ids(Land(s, l, ph, offX, offY).nodes) == (Ids(s.nodes) - (ph.Keys * LayoutIds(l))) + LayoutIds(l)
  {
    var placed := PlaceFrom(l, ph, offX, offY);
    PlacedPhantoms(l, ph, offX, offY);
    assert (set u | u in placed.removed) == ph.Keys * LayoutIds(l);
    FixedIds(l, ph, offX, offY);
  }

  /** Vertical shift of a slice placed below the window. */
  function BelowOffset(s: Scene, l: seq<LayoutNode>): real
    requires l != []
  {
    s.generateOffset - l[0].y + 66.0
  }

  /** Height of a slice. */
  function Span(l: seq<LayoutNode>): real
    requires l != []
  {
    MaxY(l) - MinY(l)
  }

  /** Vertical shift of a slice stacked above the window. */
  function AboveOffset(s: Scene, l: seq<LayoutNode>): real
    requires l != []
  {
    s.newOffset - Span(l) + 66.0
  }

  /** The top offset after a slice is stacked: lower by the slice height plus
      66, so strictly lower by at least 66. */
  function RaisedTop(s: Scene, l: seq<LayoutNode>): (t: real)
    requires l != []
    ensures t <= s.newOffset - 66.0
  {
    s.newOffset - (Span(l) + 66.0)
  }

  /** `generate` up to `createEdges`: the slice lands below the window, its
      bottom phantom entries are deleted, and nothing else changes yet. */
  function LandBelow(s: Scene, l: seq<LayoutNode>): (r: Scene)
    ensures UniqueIds(s.nodes) ==> UniqueIds(r.nodes)
    ensures NoDangling(s) ==> NoDangling(r)
    ensures LayoutIds(l) <= Ids(r.nodes)
    ensures r.phantoms.Keys !! LayoutIds(l)
    ensures r.newOffset == s.newOffset
  {
    if l == [] then s
    else
      LandIds(s, l, s.phantoms, ShiftX(l), BelowOffset(s, l));
      Land(s, l, s.phantoms, ShiftX(l), BelowOffset(s, l)).(phantoms := s.phantoms - LayoutIds(l))
  }

  /** `setNew` up to `createEdges`: the slice lands above the window, its top
      phantom entries are deleted, and the top offset is raised. */
  function LandAbove(s: Scene, l: seq<LayoutNode>): (r: Scene)
    ensures UniqueIds(s.nodes) ==> UniqueIds(r.nodes)
    ensures NoDangling(s) ==> NoDangling(r)
    ensures LayoutIds(l) <= Ids(r.nodes)
    ensures r.phantomsTop.Keys !! LayoutIds(l)
    ensures r.generateOffset == s.generateOffset
    ensures l != [] ==> r.newOffset == RaisedTop(s, l)
    ensures l == [] ==> r.newOffset == s.newOffset
  {
    if l == [] then s
    else
      LandIds(s, l, s.phantomsTop, ShiftX(l), AboveOffset(s, l));
      Land(s, l, s.phantomsTop, ShiftX(l), AboveOffset(s, l))
        .(phantomsTop := s.phantomsTop - LayoutIds(l), newOffset := RaisedTop(s, l))
  }

  /** Edges, then the not-stable list: the common tail of `generate` and
      `setNew`. Fails when `createEdges` fails. */
  function Finish(s: Scene, store: EdgeStore): (r: Option<Scene>)
    requires store.Valid()
    ensures r.Some? <==> CreateEdges(s, store).Some?
    ensures r.Some? ==> r.value.generateOffset == s.generateOffset && r.value.newOffset == s.newOffset
    ensures r.Some? ==> forall u :: u in r.value.notStable <==> Unstable(r.value.nodes, u)
    ensures r.Some? ==> Ids(s.nodes) <= Ids(r.value.nodes)
  {
    match AddCreatedEdges(s, store)
    case None => None
    case Some(s1) => Some(UpdListNotStable(s1))
  }

  /** `Finish` keeps unique ids and attached edges, and adds no phantom
      entry for a unit that is on the canvas. */
  lemma FinishKeeps(s: Scene, store: EdgeStore)
    requires store.Valid() && Finish(s, store).Some?
    requires UniqueIds(s.nodes) && NoDangling(s)
    ensures UniqueIds(Finish(s, store).value.nodes) && NoDangling(Finish(s, store).value)
    ensures forall u :: u in Finish(s, store).value.phantoms ==> u in s.phantoms || u !in Ids(s.nodes)
    ensures forall u :: u in Finish(s, store).value.phantomsTop ==> u in s.phantomsTop || u !in Ids(s.nodes)
  {
    AddedNoDangling(s, store);
    CreatedPhantomKeys(s, store);
  }

  /** `generate`, without the final scroll-height update. The slice lands
      below; the bottom offset moves to the last canvas node; the edges are
      created and added; the not-stable list is rebuilt. Fails when the
      canvas is still empty (the last node does not exist) or `createEdges`
      fails. */
  function Generate(s: Scene, store: EdgeStore, l: seq<LayoutNode>): (r: Option<Scene>)
    requires store.Valid()
    ensures LandBelow(s, l).nodes == [] ==> r.None?
    ensures r.Some? ==> r.value.newOffset == s.newOffset
    ensures r.Some? ==> r.value.generateOffset == LandBelow(s, l).nodes[|LandBelow(s, l).nodes| - 1].y
    ensures r.Some? ==> forall u :: u in r.value.notStable <==> Unstable(r.value.nodes, u)
  {
    var landed := LandBelow(s, l);
    if landed.nodes == [] then None
    else Finish(landed.(generateOffset := landed.nodes[|landed.nodes| - 1].y), store)
  }

  /** `setNew`, without the pan animation and the scroll-height update. The
      slice lands above; the top offset is raised; the edges are created and
      added; the not-stable list is rebuilt. Fails when `createEdges` fails. */
  function SetNew(s: Scene, store: EdgeStore, l: seq<LayoutNode>): (r: Option<Scene>)
    requires store.Valid()
    ensures r.Some? ==> r.value.generateOffset == s.generateOffset
    ensures r.Some? && l != [] ==> r.value.newOffset == RaisedTop(s, l) && r.value.newOffset <= s.newOffset - 66.0
    ensures r.Some? && l == [] ==> r.value.newOffset == s.newOffset
    ensures r.Some? ==> forall u :: u in r.value.notStable <==> Unstable(r.value.nodes, u)
  {
    Finish(LandAbove(s, l), store)
  }

  /** After `generate` the canvas still has unique ids and no dangling edge,
      every unit of the slice is on it, and none of them is a bottom phantom
      any more. */
  lemma GenerateShowsSlice(s: Scene, store: EdgeStore, l: seq<LayoutNode>)
    requires store.Valid()
    requires Generate(s, store, l).Some?
    requires UniqueIds(s.nodes) && NoDangling(s)
    ensures UniqueIds(Generate(s, store, l).value.nodes)
    ensures NoDangling(Generate(s, store, l).value)
    ensures LayoutIds(l) <= Ids(Generate(s, store, l).value.nodes)
    ensures forall u :: u in LayoutIds(l) ==> u !in Generate(s, store, l).value.phantoms
  {
    var landed := LandBelow(s, l);
    FinishKeeps(landed.(generateOffset := landed.nodes[|landed.nodes| - 1].y), store);
  }

  /** After `setNew` the canvas still has unique ids and no dangling edge,
      every unit of the slice is on it, and none of them is a top phantom any
      more. */
  lemma SetNewShowsSlice(s: Scene, store: EdgeStore, l: seq<LayoutNode>)
    requires store.Valid()
    requires SetNew(s, store, l).Some?
    requires UniqueIds(s.nodes) && NoDangling(s)
    ensures UniqueIds(SetNew(s, store, l).value.nodes)
    ensures NoDangling(SetNew(s, store, l).value)
    ensures LayoutIds(l) <= Ids(SetNew(s, store, l).value.nodes)
    ensures forall u :: u in LayoutIds(l) ==> u !in SetNew(s, store, l).value.phantomsTop
  {
    FinishKeeps(LandAbove(s, l), store);
  }

  /** The built nodes of a layout with distinct ids have distinct ids. */
  lemma FixedUnique(l: seq<LayoutNode>, ph: map<UnitId, real>, offX: real, offY: real)
    requires DistinctIds(l)
    ensures UniqueIds(Fixed(l, ph, offX, offY))
  {
    var f := Fixed(l, ph, offX, offY);
    forall i, j | 0 <= i < j < |f| ensures f[i].id != f[j].id {
      assert f[i].id == l[i].id && f[j].id == l[j].id;
    }
  }

  /** When every unit of the slice that is already drawn is a phantom being
      replaced, the slice's nodes are all appended, in layout order, after
      what is left of the canvas. */
  lemma LandAppends(s: Scene, l: seq<LayoutNode>, ph: map<UnitId, real>, offX: real, offY: real)
    requires DistinctIds(l)
    requires forall u :: u in LayoutIds(l) && u in Ids(s.nodes) ==> u in ph
    ensures Land(s, l, ph, offX, offY).nodes == RemoveAll(s, PlaceFrom(l, ph, offX, offY).removed).nodes + Fixed(l, ph, offX, offY)
  {
    var placed := PlaceFrom(l, ph, offX, offY);
    var s1 := RemoveAll(s, placed.removed);
    PlacedPhantoms(l, ph, offX, offY);
    FixedIds(l, ph, offX, offY);
    FixedUnique(l, ph, offX, offY);
    assert Ids(s1.nodes) !! LayoutIds(l) by {
      assert forall u :: u in LayoutIds(l) && u in Ids(s.nodes) ==> u in placed.removed;
    }
    AddNodesFresh(s1.nodes, Fixed(l, ph, offX, offY));
  }

  /** When the slice is new to the canvas apart from bottom phantoms,
      `generate` leaves the bottom offset at the height of the slice's last
      unit: its layout y lowered by the slice's vertical shift. */
  lemma GenerateOffsetAtLastUnit(s: Scene, store: EdgeStore, l: seq<LayoutNode>)
    requires store.Valid() && l != [] && DistinctIds(l)
    requires forall u :: u in LayoutIds(l) && u in Ids(s.nodes) ==> u in s.phantoms
    requires Generate(s, store, l).Some?
    ensures Generate(s, store, l).value.generateOffset == l[|l| - 1].y + BelowOffset(s, l)
  {
    GenerateOffsetIsLast(s, store, l);
    LandBelowEndsWithSlice(s, l);
  }

  /** `generate` leaves the bottom offset at the height of the last node on
      the landed canvas. */
  lemma GenerateOffsetIsLast(s: Scene, store: EdgeStore, l: seq<LayoutNode>)
    requires store.Valid() && Generate(s, store, l).Some?
    ensures LandBelow(s, l).nodes != []
    ensures Generate(s, store, l).value.generateOffset == LandBelow(s, l).nodes[|LandBelow(s, l).nodes| - 1].y
  {
  }

  /** Under the same conditions the last node on the canvas after landing
      is the slice's last unit, at its layout y plus the vertical shift. */
  lemma LandBelowEndsWithSlice(s: Scene, l: seq<LayoutNode>)
    requires l != [] && DistinctIds(l)
    requires forall u :: u in LayoutIds(l) && u in Ids(s.nodes) ==> u in s.phantoms
    ensures LandBelow(s, l).nodes != []
    ensures LandBelow(s, l).nodes[|LandBelow(s, l).nodes| - 1].y == l[|l| - 1].y + BelowOffset(s, l)
  {
    var offY := BelowOffset(s, l);
    var f := Fixed(l, s.phantoms, ShiftX(l), offY);
    var rest := RemoveAll(s, PlaceFrom(l, s.phantoms, ShiftX(l), offY).removed).nodes;
    LastFixedY(l, s.phantoms, ShiftX(l), offY);
    LandBelowAppends(s, l);
    LastOfAppend(rest, f, LandBelow(s, l).nodes);
  }

  /** Landing below appends the slice's built nodes after what is left of
      the canvas once the replaced phantoms are removed. */
  lemma LandBelowAppends(s: Scene, l: seq<LayoutNode>)
    requires l != [] && DistinctIds(l)
    requires forall u :: u in LayoutIds(l) && u in Ids(s.nodes) ==> u in s.phantoms
    ensures LandBelow(s, l).nodes
         == RemoveAll(s, PlaceFrom(l, s.phantoms, ShiftX(l), BelowOffset(s, l)).removed).nodes
          + Fixed(l, s.phantoms, ShiftX(l), BelowOffset(s, l))
  {
    LandAppends(s, l, s.phantoms, ShiftX(l), BelowOffset(s, l));
  }

  /** The last built node of a slice sits at the last unit's layout y plus
      the vertical shift. */
  lemma LastFixedY(l: seq<LayoutNode>, ph: map<UnitId, real>, offX: real, offY: real)
    requires l != []
    ensures |Fixed(l, ph, offX, offY)| == |l|
    ensures Fixed(l, ph, offX, offY)[|l| - 1].y == l[|l| - 1].y + offY
  {
    var placed := PlaceFrom(l, ph, offX, offY).nodes;
    assert placed[|l| - 1].y == l[|l| - 1].y + offY;
    assert FixConflicts(placed)[|l| - 1].y == placed[|l| - 1].y;
  }

  /** The last element of a concatenation with a non-empty right part is
      that part's last element. */
  lemma LastOfAppend<T>(a: seq<T>, b: seq<T>, c: seq<T>)
    requires b != [] && c == a + b
    ensures |c| >= |b| && c[|c| - 1] == b[|b| - 1]
  {
  }

  /** Stacking: if the second of two successive upward slices does not start
      66 or more lower in its own layout than the first, every node of the
      second lands strictly above every node of the first. */
  lemma StackedStrictlyAbove(s: Scene, l1: seq<LayoutNode>, l2: seq<LayoutNode>, i: nat, j: nat)
    requires l1 != [] && l2 != []
    requires i < |l1| && j < |l2|
    requires MinY(l2) < MinY(l1) + 66.0
    ensures l2[j].y + AboveOffset(s.(newOffset := RaisedTop(s, l1)), l2) < l1[i].y + AboveOffset(s, l1)
  {
  }
}

=== FILE: render.dfy ===
/** The drawing surface of the DAG page as the placement code sees it: the
    canvas's node and edge elements in insertion order, plus the globals of
    the page script that travel with it (pending phantoms, the two stacking
    offsets, the list of units not yet stable). The graph library itself is
    not modelled; only the behaviour the page relies on: look-up by id,
    removal of a node together with its edges, and adding elements, where a
    node whose id is already present is skipped. */
module Render {
  import opened Base

  type UnitId = string

  /** Style classes a node can carry. */
  datatype NodeClass = OnMainChain | Stable | FinalBad | TempBad

  /** A node element: id, short label, position and style classes. */
  datatype CyNode = CyNode(id: UnitId, short: string, x: real, y: real, classes: set<NodeClass>)

  /** An edge element from a child unit (source) to one of its parents
      (target); `best` marks the best-parent edge. */
  datatype CyEdge = CyEdge(source: UnitId, target: UnitId, best: bool)

  /** One entry of an element list handed to the canvas. */
  datatype Element = NodeEl(node: CyNode) | EdgeEl(edge: CyEdge)

  /** Page state around the canvas. `phantoms` maps a missing child below the
      window to the x its placeholder was given, `phantomsTop` a missing unit
      above the window; `generateOffset` is the y the lowest extension ended
      at and `newOffset` the running top offset. */
  datatype Scene = Scene(
    nodes: seq<CyNode>,
    edges: seq<CyEdge>,
    phantoms: map<UnitId, real>,
    phantomsTop: map<UnitId, real>,
    generateOffset: real,
    newOffset: real,
    notStable: seq<UnitId>)

  /** Ids of the node elements. */
  function Ids(ns: seq<CyNode>): set<UnitId> {
    set i | 0 <= i < |ns| :: ns[i].id
  }

  /** No two node elements share an id. */
  ghost predicate UniqueIds(ns: seq<CyNode>) {
    forall i, j :: 0 <= i < j < |ns| ==> ns[i].id != ns[j].id
  }

  /** Every edge element joins two node elements. */
  ghost predicate NoDangling(s: Scene) {
    forall e :: e in s.edges ==> e.source in Ids(s.nodes) && e.target in Ids(s.nodes)
  }

  /** `cy.getElementById(id)`: the node element with that id, if any. */
  function Find(ns: seq<CyNode>, id: UnitId): (r: Option<CyNode>)
    ensures r.Some? <==> id in Ids(ns)
    ensures r.Some? ==> r.value in ns && r.value.id == id
  {
    if ns == [] then None
    else if ns[0].id == id then Some(ns[0])
    else
      var r := Find(ns[1..], id);
      assert Ids(ns) == {ns[0].id} + Ids(ns[1..]) by {
        IdsCons(ns);
      }
      r
  }

  lemma IdsCons(ns: seq<CyNode>)
    requires ns != []
    ensures Ids(ns) == {ns[0].id} + Ids(ns[1..])
  {
    forall u | u in Ids(ns) ensures u in {ns[0].id} + Ids(ns[1..]) {
      var i :| 0 <= i < |ns| && ns[i].id == u;
      if i > 0 {
        assert ns[1..][i - 1].id == u;
      }
    }
    forall u | u in Ids(ns[1..]) ensures u in Ids(ns) {
      var i :| 0 <= i < |ns[1..]| && ns[1..][i].id == u;
      assert ns[i + 1].id == u;
    }
  }

  lemma IdsSnoc(ns: seq<CyNode>, n: CyNode)
    ensures Ids(ns + [n]) == Ids(ns) + {n.id}
  {
    var ms := ns + [n];
    forall u | u in Ids(ms) ensures u in Ids(ns) + {n.id} {
      var i :| 0 <= i < |ms| && ms[i].id == u;
      if i < |ns| {
        assert ns[i].id == u;
      }
    }
    forall u | u in Ids(ns) ensures u in Ids(ms) {
      var i :| 0 <= i < |ns| && ns[i].id == u;
      assert ms[i].id == u;
    }
    assert ms[|ns|].id == n.id;
  }

  /** Appending node elements; one whose id is already on the canvas (or
      earlier in the same list) is skipped, as the graph library refuses a
      second element with the same id. */
  function AddNodes(ns: seq<CyNode>, add: seq<CyNode>): (r: seq<CyNode>)
    ensures Ids(r) == Ids(ns) + Ids(add)
    ensures |ns| <= |r| && r[..|ns|] == ns
    ensures UniqueIds(ns) ==> UniqueIds(r)
    decreases |add|
  {
    if add == [] then ns
    else
      var next := if add[0].id in Ids(ns) then ns else ns + [add[0]];
      IdsSnoc(ns, add[0]);
      var r := AddNodes(next, add[1..]);
      IdsCons(add);
      assert UniqueIds(ns) && add[0].id !in Ids(ns) ==>
        forall i :: 0 <= i < |ns| ==> ns[i].id != add[0].id;
      assert r[..|ns|] == next[..|ns|];
      r
  }

  /** Adding nodes whose ids are fresh and distinct appends them all. */
  lemma {:induction false} AddNodesFresh(ns: seq<CyNode>, add: seq<CyNode>)
    requires UniqueIds(add)
    requires Ids(ns) !! Ids(add)
    ensures AddNodes(ns, add) == ns + add
    decreases |add|
  {
    if add != [] {
      var n := add[0];
      UniqueTail(add);
      IdsCons(add);
      IdsSnoc(ns, n);
      DisjointStep(Ids(ns), Ids(add), n.id, Ids(ns + [n]), Ids(add[1..]));
      AddNodesStep(ns, add);
      AddNodesFresh(ns + [n], add[1..]);
      MoveHead(ns, add);
    }
  }

  lemma MoveHead<T>(a: seq<T>, b: seq<T>)
    requires b != []
    ensures a + [b[0]] + b[1..] == a + b
  {
  }

  /** Moving an element from one of two disjoint sets to the other keeps
      them disjoint. */
  lemma DisjointStep<T>(a: set<T>, b: set<T>, x: T, a': set<T>, b': set<T>)
    requires a !! b && b == {x} + b' && x !in b' && a' == a + {x}
    ensures x !in a && a' !! b'
  {
  }

  /** A node with a fresh id is appended and the rest follow it. */
  lemma AddNodesStep(ns: seq<CyNode>, add: seq<CyNode>)
    requires add != [] && add[0].id !in Ids(ns)
    ensures AddNodes(ns, add) == AddNodes(ns + [add[0]], add[1..])
  {
  }

  /** The rest of a list with unique ids has unique ids and lacks the first
      id. */
  lemma UniqueTail(ns: seq<CyNode>)
    requires ns != [] && UniqueIds(ns)
    ensures UniqueIds(ns[1..]) && ns[0].id !in Ids(ns[1..])
  {
    forall i, j | 0 <= i < j < |ns[1..]| ensures ns[1..][i].id != ns[1..][j].id {
      assert ns[1..][i] == ns[i + 1] && ns[1..][j] == ns[j + 1];
    }
    forall i | 0 <= i < |ns[1..]| ensures ns[1..][i].id != ns[0].id {
      assert ns[1..][i] == ns[i + 1];
    }
  }

  /** Two node lists with the same ids position by position have the same id
      set. */
  lemma SameIds(a: seq<CyNode>, b: seq<CyNode>)
    requires |a| == |b|
    requires forall i :: 0 <= i < |a| ==> a[i].id == b[i].id
    ensures Ids(a) == Ids(b)
  {
    forall u | u in Ids(a) ensures u in Ids(b) {
      var i :| 0 <= i < |a| && a[i].id == u;
      assert b[i].id == u;
    }
    forall u | u in Ids(b) ensures u in Ids(a) {
      var i :| 0 <= i < |b| && b[i].id == u;
      assert a[i].id == u;
    }
  }

  /** Node elements of an element list, in order. */
  function NodesOf(els: seq<Element>): (r: seq<CyNode>)
    ensures forall n :: n in r <==> NodeEl(n) in els
  {
    if els == [] then []
    else (if els[0].NodeEl? then [els[0].node] else []) + NodesOf(els[1..])
  }

  /** Edge elements of an element list, in order. */
  function EdgesOf(els: seq<Element>): (r: seq<CyEdge>)
    ensures forall e :: e in r <==> EdgeEl(e) in els
  {
    if els == [] then []
    else (if els[0].EdgeEl? then [els[0].edge] else []) + EdgesOf(els[1..])
  }

  /** `cy.add(elements)`: the library creates the nodes of the list before its
      edges, so an edge may point at a node that comes later in the list. */
  function AddElements(s: Scene, els: seq<Element>): (r: Scene)
    ensures Ids(r.nodes) == Ids(s.nodes) + Ids(NodesOf(els))
    ensures r.edges == s.edges + EdgesOf(els)
    ensures UniqueIds(s.nodes) ==> UniqueIds(r.nodes)
    ensures r.phantoms == s.phantoms && r.phantomsTop == s.phantomsTop
  {
    var add := NodesOf(els);
    var ns := AddNodes(s.nodes, add);
    s.(nodes := ns, edges := s.edges + EdgesOf(els))
  }

  /** `cy.remove(cy.getElementById(id))`: the node goes, and so does every
      edge attached to it. */
  function RemoveNode(s: Scene, id: UnitId): (r: Scene)
    ensures Ids(r.nodes) == Ids(s.nodes) - {id}
    ensures forall e :: e in r.edges <==> e in s.edges && e.source != id && e.target != id
    ensures UniqueIds(s.nodes) ==> UniqueIds(r.nodes)
    ensures NoDangling(s) ==> NoDangling(r)
    ensures r == s.(nodes := r.nodes, edges := r.edges)
  {
    var ns := DropId(s.nodes, id);
    var es := DropEdgesAt(s.edges, id);
    s.(nodes := ns, edges := es)
  }

  function DropId(ns: seq<CyNode>, id: UnitId): (r: seq<CyNode>)
    ensures Ids(r) == Ids(ns) - {id}
    ensures forall n :: n in r <==> n in ns && n.id != id
    ensures UniqueIds(ns) ==> UniqueIds(r)
  {
    if ns == [] then []
    else
      IdsCons(ns);
      var rest := DropId(ns[1..], id);
      if ns[0].id == id then rest
      else
        var r := [ns[0]] + rest;
        IdsCons(r);
        assert UniqueIds(ns) ==> forall i :: 0 <= i < |ns[1..]| ==> ns[1..][i].id != ns[0].id by {
          if UniqueIds(ns) {
            forall i | 0 <= i < |ns[1..]| ensures ns[1..][i].id != ns[0].id {
              assert ns[1..][i] == ns[i + 1];
            }
          }
        }
        r
  }

  function DropEdgesAt(es: seq<CyEdge>, id: UnitId): (r: seq<CyEdge>)
    ensures forall e :: e in r <==> e in es && e.source != id && e.target != id
  {
    if es == [] then []
    else (if es[0].source != id && es[0].target != id then [es[0]] else []) + DropEdgesAt(es[1..], id)
  }

  /** `cy.getElementById(id).position('y', y)`: moves the node with that id,
      if there is one, to height `y`. */
  function SetY(ns: seq<CyNode>, id: UnitId, y: real): (r: seq<CyNode>)
    ensures |r| == |ns|
    ensures forall i :: 0 <= i < |ns| ==>
      r[i] == if ns[i].id == id then ns[i].(y := y) else ns[i]
  {
    seq(|ns|, i requires 0 <= i < |ns| => if ns[i].id == id then ns[i].(y := y) else ns[i])
  }

  lemma SetYIds(ns: seq<CyNode>, id: UnitId, y: real)
    ensures Ids(SetY(ns, id, y)) == Ids(ns)
  {
    var r := SetY(ns, id, y);
    forall u | u in Ids(ns) ensures u in Ids(r) {
      var i :| 0 <= i < |ns| && ns[i].id == u;
      assert r[i].id == u;
    }
    forall u | u in Ids(r) ensures u in Ids(ns) {
      var i :| 0 <= i < |r| && r[i].id == u;
      assert ns[i].id == u;
    }
  }
}

=== FILE: requests.dfy ===
/** Request gating of the DAG page (public/js/main.js). Each direction of
    extension (older units below, older units above after a jump, newer
    units on top) has a waiting flag: a request is only sent when no request
    of that direction is in flight, and the matching response clears the
    flag. The model is the flag record with one pure step per call and per
    response; the socket is replaced by the list of requests each step
    sends. */
module Requests {
  /** The page's gating globals; `waitGo` says whether a unit to jump to is
      remembered until the next `next` or `prev` reply. */
  datatype Flags = Flags(
    isInit: bool,
    waitingNext: bool,
    waitingPrev: bool,
    waitingNew: bool,
    delayedNew: bool,
    waitingHighlight: bool,
    notLastUnitUp: bool,
    notLastUnitDown: bool,
    waitGo: bool)

  /** A request sent to the server. */
  datatype Req = StartReq | NextReq | PrevReq | NewReq | HighlightReq | InfoReq

  /** The flags after a step and the requests it sent, in order. */
  datatype Outcome = Outcome(flags: Flags, sent: seq<Req>)

  /** Flags when the page script loads. */
  const Initial := Flags(false, false, false, false, false, false, false, true, false)

  /** What `highlightNode` finds for its unit: whether it is drawn as a unit
      rather than as a placeholder, and if so whether it lies outside the
      visible extent. */
  datatype View = View(shown: bool, offscreen: bool)

  /** `start`: the first request for a graph (the newest units, the window
      around a unit, or an address). When the address bar names a unit, the
      window is marked as not reaching the top; nothing else changes. */
  function CallStart(f: Flags, unitHash: bool): (r: Outcome)
    ensures r.sent == [StartReq]
    ensures r.flags.notLastUnitUp <==> f.notLastUnitUp || unitHash
    ensures r.flags == f.(notLastUnitUp := r.flags.notLastUnitUp)
  {
    Outcome(if unitHash then f.(notLastUnitUp := true) else f, [StartReq])
  }

  /** `getNext`: sends one request for older units iff none is in flight and
      the page is initialised; sending raises the flag, and nothing else
      changes. */
  function GetNext(f: Flags): (r: Outcome)
    ensures r.sent == [] || r.sent == [NextReq]
    ensures r.sent == [NextReq] <==> !f.waitingNext && f.isInit
    ensures r.flags == f.(waitingNext := f.waitingNext || r.sent != [])
  {
    if !f.waitingNext && f.isInit then Outcome(f.(waitingNext := true), [NextReq])
    else Outcome(f, [])
  }

  /** `getPrev`: the same gate for the direction above the window. */
  function GetPrev(f: Flags): (r: Outcome)
    ensures r.sent == [] || r.sent == [PrevReq]
    ensures r.sent == [PrevReq] <==> !f.waitingPrev && f.isInit
    ensures r.flags == f.(waitingPrev := f.waitingPrev || r.sent != [])
  {
    if !f.waitingPrev && f.isInit then Outcome(f.(waitingPrev := true), [PrevReq])
    else Outcome(f, [])
  }

  /** `getNew`: nothing at all while the window is not at the top; otherwise
      a request for newer units when none is in flight, and when one is, the
      call is only remembered as delayed. */
  function GetNew(f: Flags): (r: Outcome)
    ensures f.notLastUnitUp ==> r == Outcome(f, [])
    ensures r.sent == [] || r.sent == [NewReq]
    ensures r.sent == [NewReq] <==> !f.notLastUnitUp && !f.waitingNew
    ensures !f.notLastUnitUp && f.waitingNew ==> r.flags == f.(delayedNew := true)
    ensures r.sent != [] ==> r.flags == f.(waitingNew := true)
  {
    if f.notLastUnitUp then Outcome(f, [])
    else if !f.waitingNew then Outcome(f.(waitingNew := true), [NewReq])
    else Outcome(f.(delayedNew := true), [])
  }

  /** `getHighlightNode`: one jump request at a time. */
  function GetHighlight(f: Flags): (r: Outcome)
    ensures r.sent == [HighlightReq] <==> !f.waitingHighlight
    ensures r.sent == [] || r.sent == [HighlightReq]
    ensures r.flags == f.(waitingHighlight := true)
  {
    if !f.waitingHighlight then Outcome(f.(waitingHighlight := true), [HighlightReq])
    else Outcome(f, [])
  }

  /** `highlightNode`: a drawn unit is selected and its info is asked for;
      when it lies outside the view, the page pans to it and raises the
      `prev` flag for the length of the animation. A unit that is not drawn
      is remembered in `waitGo` and asked for with a jump request. */
  function Highlight(f: Flags, v: View): (r: Outcome)
    ensures v.shown ==> r.sent == [InfoReq]
    ensures v.shown ==> r.flags == f.(waitingPrev := f.waitingPrev || v.offscreen)
    ensures !v.shown ==> (r.sent == [HighlightReq] <==> !f.waitingHighlight)
    ensures !v.shown ==> r.sent == [] || r.sent == [HighlightReq]
    ensures !v.shown ==> r.flags == f.(waitGo := true, waitingHighlight := true)
  {
    if v.shown then Outcome(if v.offscreen then f.(waitingPrev := true) else f, [InfoReq])
    else GetHighlight(f.(waitGo := true))
  }

  /** The end of the pan animation started by `highlightNode`: the `prev`
      flag drops, whether or not a `prev` request is in flight. */
  function AnimationEnd(f: Flags): (r: Outcome)
    ensures r.sent == [] && !r.flags.waitingPrev
    ensures r.flags == f.(waitingPrev := false)
  {
    Outcome(f.(waitingPrev := false), [])
  }

  /** The replay that ends a `next` or `prev` reply: a remembered unit is
      highlighted again, then forgotten. */
  function Replay(f: Flags, v: View): (r: Outcome)
    ensures !f.waitGo ==> r == Outcome(f, [])
    ensures !r.flags.waitGo
    ensures r.sent == [] || r.sent == [InfoReq] || r.sent == [HighlightReq]
    ensures r.flags.waitingPrev <==> f.waitingPrev || (f.waitGo && v.shown && v.offscreen)
    ensures r.flags.waitingHighlight <==> f.waitingHighlight || (f.waitGo && !v.shown)
    ensures f.waitGo ==> (r.sent == [InfoReq] <==> v.shown)
    ensures f.waitGo ==> (r.sent == [HighlightReq] <==> !v.shown && !f.waitingHighlight)
    ensures r.flags.isInit == f.isInit && r.flags.waitingNext == f.waitingNext
    ensures r.flags.notLastUnitUp == f.notLastUnitUp && r.flags.notLastUnitDown == f.notLastUnitDown
    ensures r.flags.waitingNew == f.waitingNew && r.flags.delayedNew == f.delayedNew
  {
    if f.waitGo then
      var h := Highlight(f, v);
      Outcome(h.flags.(waitGo := false), h.sent)
    else Outcome(f, [])
  }

  /** The `info` response, which also answers a jump request for a unit
      the server does not know: the jump flag drops and nothing is sent. */
  function OnInfo(f: Flags): (r: Outcome)
    ensures r.sent == [] && !r.flags.waitingHighlight
    ensures r.flags == f.(waitingHighlight := false)
  {
    Outcome(f.(waitingHighlight := false), [])
  }

  /** The `start` response: the page is (re)initialised, forgetting any
      remembered jump; when the address bar names a unit the window is
      marked as not at the top and the unit is highlighted. The jump flag is
      cleared after that, and the other waiting flags are left as they
      were. */
  function OnStart(f: Flags, hashIsUnit: bool, v: View): (r: Outcome)
    ensures r.flags.isInit && r.flags.notLastUnitDown && !r.flags.waitingHighlight
    ensures r.flags.notLastUnitUp == hashIsUnit
    ensures r.flags.waitGo <==> hashIsUnit && !v.shown
    ensures r.flags.waitingPrev <==> f.waitingPrev || (hashIsUnit && v.shown && v.offscreen)
    ensures r.flags.waitingNext == f.waitingNext
    ensures r.flags.waitingNew == f.waitingNew && r.flags.delayedNew == f.delayedNew
    ensures r.sent == [HighlightReq] <==> hashIsUnit && !v.shown && !f.waitingHighlight
    ensures r.sent == [InfoReq] <==> hashIsUnit && v.shown
    ensures r.sent == [] || r.sent == [HighlightReq] || r.sent == [InfoReq]
  {
    var g := f.(notLastUnitUp := false, notLastUnitDown := true, waitGo := false);
    var h := if hashIsUnit then Highlight(g.(notLastUnitUp := true), v) else Outcome(g, []);
    Outcome(h.flags.(isInit := true, notLastUnitDown := true, waitingHighlight := false), h.sent)
  }

  /** The `next` response with `count` units. It is ignored entirely once the
      bottom has been reached; otherwise it clears the jump and `next` flags,
      replays a remembered jump, and an empty answer marks the bottom as
      reached. */
  function OnNext(f: Flags, count: nat, v: View): (r: Outcome)
    ensures !f.notLastUnitDown ==> r == Outcome(f, [])
    ensures f.notLastUnitDown ==> !r.flags.waitingNext && !r.flags.waitGo
    ensures f.notLastUnitDown ==> (r.flags.notLastUnitDown <==> count != 0)
    ensures f.notLastUnitDown ==> (r.flags.waitingHighlight <==> f.waitGo && !v.shown)
    ensures f.notLastUnitDown ==> (r.flags.waitingPrev <==> f.waitingPrev || (f.waitGo && v.shown && v.offscreen))
    ensures !f.waitGo ==> r.sent == []
    ensures f.notLastUnitDown && f.waitGo ==> (r.sent == [InfoReq] <==> v.shown)
    ensures f.notLastUnitDown && f.waitGo ==> (r.sent == [HighlightReq] <==> !v.shown)
    ensures r.flags.isInit == f.isInit && r.flags.notLastUnitUp == f.notLastUnitUp
    ensures r.flags.waitingNew == f.waitingNew && r.flags.delayedNew == f.delayedNew
  {
    if f.notLastUnitDown then
      var h := Replay(f.(waitingHighlight := false, waitingNext := false), v);
      Outcome(h.flags.(notLastUnitDown := count != 0), h.sent)
    else Outcome(f, [])
  }

  /** The `prev` response: clears the jump and `prev` flags, an answer
      marked as the end means the window now reaches the top, and a
      remembered jump is replayed. */
  function OnPrev(f: Flags, count: nat, end: bool, v: View): (r: Outcome)
    ensures !r.flags.waitGo
    ensures r.flags.waitingPrev <==> f.waitGo && v.shown && v.offscreen
    ensures r.flags.waitingHighlight <==> f.waitGo && !v.shown
    ensures r.flags.notLastUnitUp <==> f.notLastUnitUp && !end
    ensures !f.waitGo ==> r.sent == []
    ensures f.waitGo ==> (r.sent == [InfoReq] <==> v.shown) && (r.sent == [HighlightReq] <==> !v.shown)
    ensures r.flags.isInit == f.isInit && r.flags.waitingNext == f.waitingNext
    ensures r.flags.notLastUnitDown == f.notLastUnitDown
    ensures r.flags.waitingNew == f.waitingNew && r.flags.delayedNew == f.delayedNew
  {
    Replay(f.(waitingHighlight := false, waitingPrev := false, notLastUnitUp := f.notLastUnitUp && !end), v)
  }

  /** The `new` response. A non-empty answer first replays a delayed
      `getNew`, while the `new` flag is still raised, so the replay is
      deferred again rather than sent; a full page of 100 or more units
      means the window is no longer at the top. The `new` flag is cleared
      last. While a `new` request is in flight, which is when its response
      arrives, nothing is sent here. */
  function OnNew(f: Flags, count: nat): (r: Outcome)
    ensures f.waitingNew ==> r.sent == []
    ensures !r.flags.waitingNew
    ensures count > 0 && f.delayedNew && !f.notLastUnitUp && f.waitingNew ==> r.flags.delayedNew
    ensures count == 0 ==> r.flags == f.(waitingNew := false)
    ensures r.flags.notLastUnitUp <==> f.notLastUnitUp || count >= 100
    ensures r.flags.waitingNext == f.waitingNext && r.flags.waitingPrev == f.waitingPrev
  {
    if count > 0 then
      var g := if f.delayedNew then GetNew(f.(delayedNew := false)) else Outcome(f, []);
      Outcome(g.flags.(notLastUnitUp := g.flags.notLastUnitUp || count >= 100, waitingNew := false), g.sent)
    else Outcome(f.(waitingNew := false), [])
  }

  /** What can happen to the gating state: a call of a request function, a
      highlight, the end of its pan animation, or the arrival of a
      response. */
  datatype Event =
    | CallStartEv(unitHash: bool)
    | CallNext
    | CallPrev
    | CallNew
    | CallHighlight(view: View)
    | PanDone
    | InfoResponse
    | StartResponse(hashIsUnit: bool, startView: View)
    | NextResponse(count: nat, nextView: View)
    | PrevResponse(count: nat, end: bool, prevView: View)
    | NewResponse(count: nat)

  /** One event applied to the flags. */
  function Apply(f: Flags, e: Event): Outcome {
    match e
    case CallStartEv(u) => CallStart(f, u)
    case CallNext => GetNext(f)
    case CallPrev => GetPrev(f)
    case CallNew => GetNew(f)
    case CallHighlight(v) => Highlight(f, v)
    case PanDone => AnimationEnd(f)
    case InfoResponse => OnInfo(f)
    case StartResponse(u, v) => OnStart(f, u, v)
    case NextResponse(n, v) => OnNext(f, n, v)
    case PrevResponse(n, end, v) => OnPrev(f, n, end, v)
    case NewResponse(n) => OnNew(f, n)
  }

  /** Events applied in order, collecting every request sent. */
  function Run(f: Flags, es: seq<Event>): (r: Outcome)
    decreases |es|
  {
    if es == [] then Outcome(f, [])
    else
      var o := Apply(f, es[0]);
      var rest := Run(o.flags, es[1..]);
      Outcome(rest.flags, o.sent + rest.sent)
  }

  /** Occurrences of a request in a list of sent requests. */
  function Sent(rs: seq<Req>, q: Req): nat {
    if rs == [] then 0 else (if rs[0] == q then 1 else 0) + Sent(rs[1..], q)
  }

  lemma {:induction false} SentAppend(a: seq<Req>, b: seq<Req>, q: Req)
    ensures Sent(a + b, q) == Sent(a, q) + Sent(b, q)
  {
    if a == [] {
      assert a + b == b;
    } else {
      assert (a + b)[0] == a[0];
      assert (a + b)[1..] == a[1..] + b;
      SentAppend(a[1..], b, q);
    }
  }

  /** Responses of one direction among the events. */
  function NextResponses(es: seq<Event>): nat {
    if es == [] then 0 else (if es[0].NextResponse? then 1 else 0) + NextResponses(es[1..])
  }

  function PrevResponses(es: seq<Event>): nat {
    if es == [] then 0 else (if es[0].PrevResponse? then 1 else 0) + PrevResponses(es[1..])
  }

  function NewResponses(es: seq<Event>): nat {
    if es == [] then 0 else (if es[0].NewResponse? then 1 else 0) + NewResponses(es[1..])
  }

  function Bit(b: bool): nat {
    if b then 1 else 0
  }

  /** One event keeps the balance of `next` requests and responses. */
  lemma NextStep(f: Flags, e: Event)
    ensures Sent(Apply(f, e).sent, NextReq) + Bit(f.waitingNext)
      <= (if e.NextResponse? then 1 else 0) + Bit(Apply(f, e).flags.waitingNext)
  {
    match e
    case CallStartEv(u) =>
    case CallNext =>
    case CallPrev =>
    case CallNew =>
    case CallHighlight(v) =>
    case PanDone =>
    case InfoResponse =>
    case StartResponse(u, v) =>
    case NextResponse(n, v) =>
    case PrevResponse(n, end, v) =>
    case NewResponse(n) =>
  }

  /** At most one `next` request in flight: over any run, the requests sent
      plus the initial flag never exceed the responses received plus the
      final flag, so requests exceed responses by at most one. */
  lemma {:induction false} NextInFlight(f: Flags, es: seq<Event>)
    ensures Sent(Run(f, es).sent, NextReq) + Bit(f.waitingNext)
      <= NextResponses(es) + Bit(Run(f, es).flags.waitingNext)
    ensures Sent(Run(f, es).sent, NextReq) <= NextResponses(es) + 1 - Bit(f.waitingNext)
    decreases |es|
  {
    if es != [] {
      var o := Apply(f, es[0]);
      NextInFlight(o.flags, es[1..]);
      SentAppend(o.sent, Run(o.flags, es[1..]).sent, NextReq);
      NextStep(f, es[0]);
      assert NextResponses(es) == NextResponses(es[1..]) + (if es[0].NextResponse? then 1 else 0);
    }
  }

  /** Ends of the pan animation among the events. */
  function PanEnds(es: seq<Event>): nat {
    if es == [] then 0 else (if es[0].PanDone? then 1 else 0) + PanEnds(es[1..])
  }

  /** One event keeps the balance of `prev` requests against responses and
      ends of the pan animation. */
  lemma PrevStep(f: Flags, e: Event)
    ensures Sent(Apply(f, e).sent, PrevReq) + Bit(f.waitingPrev)
      <= (if e.PrevResponse? || e.PanDone? then 1 else 0) + Bit(Apply(f, e).flags.waitingPrev)
  {
    match e
    case CallStartEv(u) =>
    case CallNext =>
    case CallPrev =>
    case CallNew =>
    case CallHighlight(v) =>
    case PanDone =>
    case InfoResponse =>
    case StartResponse(u, v) =>
    case NextResponse(n, v) =>
    case PrevResponse(n, end, v) =>
    case NewResponse(n) =>
  }

  /** The `prev` flag guards requests only between itself and the pan
      animation: over any run, `prev` requests sent never exceed the
      responses received plus the ends of the animation plus one. */
  lemma {:induction false} PrevInFlight(f: Flags, es: seq<Event>)
    ensures Sent(Run(f, es).sent, PrevReq) + Bit(f.waitingPrev)
      <= PrevResponses(es) + PanEnds(es) + Bit(Run(f, es).flags.waitingPrev)
    ensures Sent(Run(f, es).sent, PrevReq) <= PrevResponses(es) + PanEnds(es) + 1 - Bit(f.waitingPrev)
    decreases |es|
  {
    if es != [] {
      var o := Apply(f, es[0]);
      PrevInFlight(o.flags, es[1..]);
      SentAppend(o.sent, Run(o.flags, es[1..]).sent, PrevReq);
      PrevStep(f, es[0]);
      assert PrevResponses(es) == PrevResponses(es[1..]) + (if es[0].PrevResponse? then 1 else 0);
      assert PanEnds(es) == PanEnds(es[1..]) + (if es[0].PanDone? then 1 else 0);
    }
  }

  /** Without the animation the bound is the usual one: at most one `prev`
      request in flight. The animation breaks it: a highlight of a drawn
      unit outside the view raises the flag over a request in flight, the
      animation's end drops it, and a second request goes out before any
      response. */
  lemma PrevTwiceInFlight(f: Flags)
    requires f.isInit && !f.waitingPrev
    ensures var es := [CallPrev, CallHighlight(View(true, true)), PanDone, CallPrev];
      && Run(f, es).sent == [PrevReq, InfoReq, PrevReq]
      && PrevResponses(es) == 0
  {
    var o1 := GetPrev(f);
    assert o1 == Outcome(f.(waitingPrev := true), [PrevReq]);
    HighlightThenPrev(o1.flags);
    assert [PrevReq] + [InfoReq, PrevReq] == [PrevReq, InfoReq, PrevReq];
  }

  /** A highlight that pans, then the end of the animation, lets the next
      `getPrev` through. */
  lemma HighlightThenPrev(f: Flags)
    requires f.isInit
    ensures Run(f, [CallHighlight(View(true, true)), PanDone, CallPrev])
      == Outcome(f.(waitingPrev := true), [InfoReq, PrevReq])
  {
    var o2 := Highlight(f, View(true, true));
    assert o2 == Outcome(f.(waitingPrev := true), [InfoReq]);
    PanThenPrev(o2.flags);
  }

  /** The end of the animation lets the next `getPrev` through. */
  lemma PanThenPrev(f: Flags)
    requires f.isInit
    ensures Run(f, [PanDone, CallPrev]) == Outcome(f.(waitingPrev := true), [PrevReq])
  {
    var o3 := AnimationEnd(f);
    var o4 := GetPrev(o3.flags);
    assert o3.sent == [] && o4 == Outcome(f.(waitingPrev := true), [PrevReq]);
    assert Run(o3.flags, [CallPrev]) == Outcome(o4.flags, [PrevReq]);
  }

  /** `start` for a unit hash closes the top before its reply arrives: a
      `getNew` prompted in between sends nothing. */
  lemma StartForUnitBlocksNew(f: Flags)
    ensures Run(f, [CallStartEv(true), CallNew]).sent == [StartReq]
    ensures Run(f, [CallStartEv(true), CallNew]).flags.notLastUnitUp
  {
    var o1 := CallStart(f, true);
    var o2 := GetNew(o1.flags);
    assert o2 == Outcome(o1.flags, []);
    assert Run(o1.flags, [CallNew]) == Outcome(o2.flags, []);
  }

  /** One event keeps the balance of `new` requests and responses. */
  lemma NewStep(f: Flags, e: Event)
    ensures Sent(Apply(f, e).sent, NewReq) + Bit(f.waitingNew)
      <= (if e.NewResponse? then 1 else 0) + Bit(Apply(f, e).flags.waitingNew)
  {
    match e
    case CallStartEv(u) =>
    case CallNext =>
    case CallPrev =>
    case CallNew =>
    case CallHighlight(v) =>
    case PanDone =>
    case InfoResponse =>
    case StartResponse(u, v) =>
    case NextResponse(n, v) =>
    case PrevResponse(n, end, v) =>
    case NewResponse(n) =>
  }

  /** At most one `new` request in flight, in the same sense. */
  lemma {:induction false} NewInFlight(f: Flags, es: seq<Event>)
    ensures Sent(Run(f, es).sent, NewReq) + Bit(f.waitingNew)
      <= NewResponses(es) + Bit(Run(f, es).flags.waitingNew)
    ensures Sent(Run(f, es).sent, NewReq) <= NewResponses(es) + 1 - Bit(f.waitingNew)
    decreases |es|
  {
    if es != [] {
      var o := Apply(f, es[0]);
      NewInFlight(o.flags, es[1..]);
      SentAppend(o.sent, Run(o.flags, es[1..]).sent, NewReq);
      NewStep(f, es[0]);
      assert NewResponses(es) == NewResponses(es[1..]) + (if es[0].NewResponse? then 1 else 0);
    }
  }

  /** A delayed `getNew` is never sent by the response it waits for: after a
      call made while a request is in flight, the response leaves the call
      delayed and sends nothing, and only a later call goes out. */
  lemma DelayedNewIsDeferredAgain(f: Flags, count: nat)
    requires !f.notLastUnitUp && !f.waitingNew && !f.delayedNew
    requires 0 < count < 100
    ensures Run(f, [CallNew, CallNew, NewResponse(count)]).sent == [NewReq]
    ensures Run(f, [CallNew, CallNew, NewResponse(count)]).flags.delayedNew
    ensures Run(f, [CallNew, CallNew, NewResponse(count), CallNew]).sent == [NewReq, NewReq]
  {
    var o1 := GetNew(f);
    assert o1 == Outcome(f.(waitingNew := true), [NewReq]);
    DelayedThenAnswered(o1.flags, count);
    var o3 := Run(o1.flags, [CallNew, NewResponse(count)]);
    assert Run(f, [CallNew, CallNew, NewResponse(count)]) == Outcome(o3.flags, [NewReq]);
    var o4 := Run(o1.flags, [CallNew, NewResponse(count), CallNew]);
    assert Run(f, [CallNew, CallNew, NewResponse(count), CallNew]) == Outcome(o4.flags, [NewReq] + [NewReq]);
  }

  /** A `getNew` while a request is in flight is delayed; the response
      sends nothing and leaves it delayed, and the next call goes out. */
  lemma DelayedThenAnswered(f: Flags, count: nat)
    requires !f.notLastUnitUp && f.waitingNew && !f.delayedNew
    requires 0 < count < 100
    ensures Run(f, [CallNew, NewResponse(count)]).sent == []
    ensures Run(f, [CallNew, NewResponse(count)]).flags.delayedNew
    ensures Run(f, [CallNew, NewResponse(count), CallNew]).sent == [NewReq]
  {
    var o2 := GetNew(f);
    var o3 := OnNew(o2.flags, count);
    var o4 := GetNew(o3.flags);
    assert o2 == Outcome(f.(delayedNew := true), []);
    assert o3.sent == [] && o3.flags.delayedNew && !o3.flags.waitingNew && !o3.flags.notLastUnitUp;
    assert o4.sent == [NewReq];
    assert Run(o3.flags, [CallNew]) == Outcome(o4.flags, [NewReq]);
    assert Run(o2.flags, [NewResponse(count)]) == Outcome(o3.flags, []);
    assert Run(o2.flags, [NewResponse(count), CallNew]) == Outcome(o4.flags, [NewReq]);
  }

  /** Once the bottom has been reached, one more `next` request can still
      go out; its response is ignored, so the `next` flag stays raised and
      survives a later `start`, after which no `next` request is sent: the
      run sends exactly one `next` request. */
  lemma NextStaysBlockedAfterBottom(f: Flags, k: nat, v: View)
    requires f.isInit && f.notLastUnitDown && f.waitingNext
    ensures var es := [NextResponse(0, v), CallNext, NextResponse(k, v), StartResponse(false, v), CallNext];
      Sent(Run(f, es).sent, NextReq) == 1 && Run(f, es).flags.waitingNext
  {
    var o1 := OnNext(f, 0, v);
    var o2 := GetNext(o1.flags);
    assert o2.sent == [NextReq] && o2.flags.waitingNext && !o2.flags.notLastUnitDown;
    IgnoredNextThenStart(o2.flags, k, v);
    var o5 := Run(o2.flags, [NextResponse(k, v), StartResponse(false, v), CallNext]);
    assert Run(o1.flags, [CallNext, NextResponse(k, v), StartResponse(false, v), CallNext]) == Outcome(o5.flags, [NextReq]);
    assert Run(f, [NextResponse(0, v), CallNext, NextResponse(k, v), StartResponse(false, v), CallNext])
      == Outcome(o5.flags, o1.sent + [NextReq]);
    SentAppend(o1.sent, [NextReq], NextReq);
    assert Sent(o1.sent, NextReq) == 0 by {
      assert o1.sent == [] || o1.sent == [InfoReq] || o1.sent == [HighlightReq];
    }
  }

  /** Past the bottom, a `next` reply changes nothing, and a later `start`
      leaves the raised `next` flag in place, so `getNext` sends nothing. */
  lemma IgnoredNextThenStart(f: Flags, k: nat, v: View)
    requires f.waitingNext && !f.notLastUnitDown
    ensures Run(f, [NextResponse(k, v), StartResponse(false, v), CallNext]).sent == []
    ensures Run(f, [NextResponse(k, v), StartResponse(false, v), CallNext]).flags.waitingNext
  {
    var o3 := OnNext(f, k, v);
    var o4 := OnStart(o3.flags, false, v);
    var o5 := GetNext(o4.flags);
    assert o3 == Outcome(f, []) && o4.sent == [] && o5.sent == [] && o5.flags.waitingNext;
    assert Apply(o4.flags, CallNext) == o5;
    assert Run(o4.flags, [CallNext]) == Outcome(o5.flags, []);
    assert Run(o3.flags, [StartResponse(false, v), CallNext]) == Outcome(o5.flags, []);
  }

  /** A jump to a unit the server does not know is answered by an empty
      `info`, which reopens the gate: the next jump request goes out. */
  lemma UnknownHighlightDoesNotBlock(f: Flags)
    requires !f.waitingHighlight
    ensures Run(f, [CallHighlight(View(false, false)), InfoResponse, CallHighlight(View(false, false))]).sent
      == [HighlightReq, HighlightReq]
  {
    var o1 := Highlight(f, View(false, false));
    assert o1 == Outcome(f.(waitGo := true, waitingHighlight := true), [HighlightReq]);
    assert Apply(f, CallHighlight(View(false, false))) == o1;
    InfoThenHighlight(o1.flags);
    var rest := Run(o1.flags, [InfoResponse, CallHighlight(View(false, false))]);
    assert Run(f, [CallHighlight(View(false, false)), InfoResponse, CallHighlight(View(false, false))])
      == Outcome(rest.flags, [HighlightReq] + [HighlightReq]);
    assert [HighlightReq] + [HighlightReq] == [HighlightReq, HighlightReq];
  }

  /** After an `info` reply, a jump for an undrawn unit is requested. */
  lemma InfoThenHighlight(f: Flags)
    ensures Run(f, [InfoResponse, CallHighlight(View(false, false))])
      == Outcome(f.(waitGo := true, waitingHighlight := true), [HighlightReq])
  {
    var o2 := OnInfo(f);
    var o3 := Highlight(o2.flags, View(false, false));
    assert o2.sent == [] && o3 == Outcome(f.(waitGo := true, waitingHighlight := true), [HighlightReq]);
    assert Run(o2.flags, [CallHighlight(View(false, false))]) == Outcome(o3.flags, [HighlightReq]);
  }

  /** From the flags the page loads with, nothing goes down or up before
      the `start` reply, and over any run at most one `next` and one `new`
      request are in flight. */
  lemma FromInitial(es: seq<Event>)
    ensures GetNext(Initial).sent == [] && GetPrev(Initial).sent == []
    ensures Sent(Run(Initial, es).sent, NextReq) <= NextResponses(es) + 1
    ensures Sent(Run(Initial, es).sent, NewReq) <= NewResponses(es) + 1
  {
    NextInFlight(Initial, es);
    NewInFlight(Initial, es);
  }
}

=== FILE: session.dfy ===
/** The page's own copy of what it has loaded (public/js/main.js, the
    `next`, `prev` and `new` socket handlers): the list of unit records,
    the edge object keyed like the server's, and the ROWIDs `firstUnit` and
    `lastUnit` that the paging requests start from. Received units are
    concatenated without removing repeats; received edges overwrite by
    key. */
module Session {
  import opened Base
  import opened Render
  import opened Boundary
  import opened Units

  /** The loaded window as the page keeps it. */
  datatype Loaded = Loaded(nodes: seq<NodeRecord>, edges: EdgeStore, first: int, last: int)

  /** The `for (var k in data.edges) edges[k] = data.edges[k]` loop over the
      received keys `ks` in their order. */
  function MergeEdges(edges: EdgeStore, add: map<string, CyEdge>, ks: seq<string>): (r: EdgeStore)
    requires forall k :: k in ks ==> k in add
    ensures edges.Valid() ==> r.Valid()
    ensures r.values.Keys == edges.values.Keys + (set k | k in ks)
    ensures forall k :: k in ks ==> r.values[k] == add[k]
    ensures forall k :: k in edges.values && k !in ks ==> r.values[k] == edges.values[k]
    ensures |edges.order| <= |r.order| && r.order[..|edges.order|] == edges.order
    decreases |ks|
  {
    if ks == [] then edges
    else
      var init := ks[..|ks| - 1];
      var k := ks[|ks| - 1];
      assert forall x :: x in ks <==> x in init || x == k;
      var m := MergeEdges(edges, add, init);
      Put(m, k, add[k])
  }

  /** Merging keeps every edge stored under the key of its two ends. */
  lemma MergeKeyedByEnds(edges: EdgeStore, add: EdgeStore)
    requires add.Valid() && KeyedByEnds(edges) && KeyedByEnds(add)
    ensures KeyedByEnds(MergeEdges(edges, add.values, add.order))
  {
  }

  /** The received edges merged into the page's edges. */
  function Merged(l: Loaded, es: EdgeStore): (r: EdgeStore)
    requires es.Valid()
    ensures l.edges.Valid() ==> r.Valid()
    ensures r.values.Keys == l.edges.values.Keys + es.values.Keys
    ensures forall k :: k in es.values ==> r.values[k] == es.values[k]
  {
    MergeEdges(l.edges, es.values, es.order)
  }

  /** `next` data (while the bottom is not reached): the units are appended
      and `lastUnit` becomes the ROWID of the last loaded unit; with nothing
      loaded and nothing received there is no last unit and the handler
      fails (nothing). */
  function OnNextData(l: Loaded, ns: seq<NodeRecord>, es: EdgeStore): (r: Option<Loaded>)
    requires es.Valid()
    ensures r.None? <==> l.nodes == [] && ns == []
    ensures r.Some? ==> |r.value.nodes| == |l.nodes| + |ns| && r.value.first == l.first
    ensures r.Some? && ns != [] ==> r.value.last == ns[|ns| - 1].rowid
    ensures r.Some? && ns == [] ==> r.value.last == l.nodes[|l.nodes| - 1].rowid
    ensures r.Some? ==> r.value.nodes == l.nodes + ns && r.value.edges == Merged(l, es)
  {
    var nodes := l.nodes + ns;
    if nodes == [] then None
    else Some(Loaded(nodes, Merged(l, es), l.first, nodes[|nodes| - 1].rowid))
  }

  /** `prev` and `new` data: when units arrive they are put in front and
      `firstUnit` becomes the ROWID of the first of them; an empty batch
      changes nothing. */
  function OnUpperData(l: Loaded, ns: seq<NodeRecord>, es: EdgeStore): (r: Loaded)
    requires es.Valid()
    ensures ns == [] ==> r == l
    ensures ns != [] ==> |r.nodes| == |ns| + |l.nodes| && r.first == ns[0].rowid && r.last == l.last
    ensures ns != [] ==> r.nodes == ns + l.nodes && r.edges == Merged(l, es)
  {
    if ns == [] then l
    else Loaded(ns + l.nodes, Merged(l, es), ns[0].rowid, l.last)
  }

  /** Occurrences of a record in the loaded list. */
  function Occurrences(ns: seq<NodeRecord>, n: NodeRecord): nat {
    multiset(ns)[n]
  }

  /** A unit received again is listed twice: concatenation does not remove
      repeats. */
  lemma NextKeepsRepeats(l: Loaded, ns: seq<NodeRecord>, es: EdgeStore, n: NodeRecord)
    requires es.Valid() && n in l.nodes && n in ns
    ensures OnNextData(l, ns, es).Some?
    ensures Occurrences(OnNextData(l, ns, es).value.nodes, n) >= 2
  {
    assert multiset(l.nodes + ns) == multiset(l.nodes) + multiset(ns);
  }

  /** The same for units received from above. */
  lemma UpperKeepsRepeats(l: Loaded, ns: seq<NodeRecord>, es: EdgeStore, n: NodeRecord)
    requires es.Valid() && n in l.nodes && n in ns
    ensures Occurrences(OnUpperData(l, ns, es).nodes, n) >= 2
  {
    assert multiset(ns + l.nodes) == multiset(ns) + multiset(l.nodes);
  }

  /** With a batch in the server's order (highest ROWID first), `firstUnit`
      becomes the highest ROWID received and `lastUnit` the lowest. */
  lemma BoundsOfOrderedBatch(l: Loaded, ns: seq<NodeRecord>, es: EdgeStore)
    requires es.Valid() && ns != [] && NonIncreasing(ns)
    ensures forall n :: n in ns ==> n.rowid <= OnUpperData(l, ns, es).first
    ensures forall n :: n in ns ==> OnNextData(l, ns, es).value.last <= n.rowid
  {
    forall n | n in ns
      ensures n.rowid <= ns[0].rowid && ns[|ns| - 1].rowid <= n.rowid
    {
      var i :| 0 <= i < |ns| && ns[i] == n;
      if 0 < i { assert ns[0].rowid >= ns[i].rowid; }
      if i < |ns| - 1 { assert ns[i].rowid >= ns[|ns| - 1].rowid; }
    }
  }
}

=== FILE: stability.dfy ===
/** Stability bookkeeping of the DAG page (public/js/main.js):
    `setChangesStableUnits` marks the units the server reports as newly
    stable and adjusts their main-chain class, and `updListNotStableUnit`
    recomputes the list of rendered units that are not stable yet (the list
    sent with the next request so the server can report changes). */
module Stability {
  import opened Base
  import opened Render

  /** A row of `getUnitsThatBecameStable`: a unit that is stable now, with
      its main-chain flag as stored. */
  datatype StableRow = StableRow(unit: UnitId, onMainChain: int)

  /** Some node with id `u` lacks the stable class. */
  predicate Unstable(ns: seq<CyNode>, u: UnitId) {
    exists i :: 0 <= i < |ns| && ns[i].id == u && Stable !in ns[i].classes
  }

  /** Ids of the nodes lacking the stable class, in canvas order. */
  function NotStableIds(ns: seq<CyNode>): (r: seq<UnitId>)
    ensures |r| <= |ns|
    ensures forall u :: u in r <==> Unstable(ns, u)
  {
    if ns == [] then []
    else
      var rest := NotStableIds(ns[1..]);
      assert forall u :: Unstable(ns, u) <==> (ns[0].id == u && Stable !in ns[0].classes) || Unstable(ns[1..], u) by {
        forall u | Unstable(ns, u) ensures (ns[0].id == u && Stable !in ns[0].classes) || Unstable(ns[1..], u) {
          var i :| 0 <= i < |ns| && ns[i].id == u && Stable !in ns[i].classes;
          if i > 0 {
            assert ns[1..][i - 1] == ns[i];
          }
        }
        forall u | Unstable(ns[1..], u) ensures Unstable(ns, u) {
          var i :| 0 <= i < |ns[1..]| && ns[1..][i].id == u && Stable !in ns[1..][i].classes;
          assert ns[i + 1] == ns[1..][i];
        }
      }
      (if Stable in ns[0].classes then [] else [ns[0].id]) + rest
  }

  /** `updListNotStableUnit`: only the not-stable list changes, and it lists
      exactly the units of the canvas whose node is not stable. */
  function UpdListNotStable(s: Scene): (r: Scene)
    ensures r.nodes == s.nodes && r.edges == s.edges
    ensures r.phantoms == s.phantoms && r.phantomsTop == s.phantomsTop
    ensures r.generateOffset == s.generateOffset && r.newOffset == s.newOffset
    ensures forall u :: u in r.notStable <==> Unstable(s.nodes, u)
  {
    s.(notStable := NotStableIds(s.nodes))
  }

  /** The effect of one reported row on the main-chain class of a node with
      that unit: 1 sets it, 0 clears it, anything else leaves it. */
  function Verdict(row: StableRow): Option<bool> {
    if row.onMainChain == 1 then Some(true)
    else if row.onMainChain == 0 then Some(false)
    else None
  }

  /** The verdict of the last row about `id` that has one: the reference for
      the main-chain class after a batch. */
  function LastVerdict(rows: seq<StableRow>, id: UnitId): Option<bool> {
    if rows == [] then None
    else
      var last := rows[|rows| - 1];
      if last.unit == id && Verdict(last).Some? then Verdict(last)
      else LastVerdict(rows[..|rows| - 1], id)
  }

  /** Some row reports `id`. */
  predicate Mentions(rows: seq<StableRow>, id: UnitId) {
    exists j :: 0 <= j < |rows| && rows[j].unit == id
  }

  /** One row applied to one node. */
  function MarkRow(n: CyNode, row: StableRow): CyNode {
    if n.id != row.unit then n
    else
      var c := n.classes + {Stable};
      n.(classes := if row.onMainChain == 1 then c + {OnMainChain}
                    else if row.onMainChain == 0 then c - {OnMainChain}
                    else c)
  }

  /** The rows applied, in order, to one node: it becomes stable when some
      row names it, its main-chain class follows the last row about it that
      carries a verdict, and nothing else about it changes. */
  function MarkAll(n: CyNode, rows: seq<StableRow>): (r: CyNode)
    ensures r == n.(classes := r.classes)
    ensures forall c :: c != Stable && c != OnMainChain ==> (c in r.classes <==> c in n.classes)
    ensures Stable in r.classes <==> Stable in n.classes || Mentions(rows, n.id)
    ensures OnMainChain in r.classes <==>
      match LastVerdict(rows, n.id)
      case Some(b) => b
      case None => OnMainChain in n.classes
  {
    if rows == [] then n
    else
      var init := rows[..|rows| - 1];
      var m := MarkAll(n, init);
      assert Mentions(rows, n.id) <==> Mentions(init, n.id) || rows[|rows| - 1].unit == n.id by {
        if Mentions(rows, n.id) && rows[|rows| - 1].unit != n.id {
          var j :| 0 <= j < |rows| && rows[j].unit == n.id;
          assert init[j] == rows[j];
        }
        if Mentions(init, n.id) {
          var j :| 0 <= j < |init| && init[j].unit == n.id;
          assert rows[j] == init[j];
        }
      }
      MarkRow(m, rows[|rows| - 1])
  }

  /** `setChangesStableUnits`: a missing list changes nothing; otherwise
      every node is marked by the rows about it, positions and ids stay, and
      the not-stable list is rebuilt from the marked canvas. */
  function SetChangesStable(s: Scene, rows: Option<seq<StableRow>>): (r: Scene)
    ensures rows.None? ==> r == s
    ensures |r.nodes| == |s.nodes| && r.edges == s.edges
    ensures r.phantoms == s.phantoms && r.phantomsTop == s.phantomsTop
    ensures r.generateOffset == s.generateOffset && r.newOffset == s.newOffset
    ensures rows.Some? ==> forall i :: 0 <= i < |s.nodes| ==> r.nodes[i] == MarkAll(s.nodes[i], rows.value)
    ensures rows.Some? ==> forall u :: u in r.notStable <==> Unstable(r.nodes, u)
  {
    match rows
    case None => s
    case Some(rs) =>
      var ns := seq(|s.nodes|, i requires 0 <= i < |s.nodes| => MarkAll(s.nodes[i], rs));
      UpdListNotStable(s.(nodes := ns))
  }

  /** Marking a node twice with the same rows is marking it once. */
  lemma MarkAllIdempotent(n: CyNode, rows: seq<StableRow>)
    ensures MarkAll(MarkAll(n, rows), rows) == MarkAll(n, rows)
  {
    var m := MarkAll(n, rows);
    var mm := MarkAll(m, rows);
    assert forall c :: c in mm.classes <==> c in m.classes;
  }

  /** Applying the same batch of stability rows twice is applying it once. */
  lemma SetChangesStableIdempotent(s: Scene, rows: Option<seq<StableRow>>)
    ensures SetChangesStable(SetChangesStable(s, rows), rows) == SetChangesStable(s, rows)
  {
    if rows.Some? {
      var r := SetChangesStable(s, rows);
      var rr := SetChangesStable(r, rows);
      forall i | 0 <= i < |s.nodes| ensures rr.nodes[i] == r.nodes[i] {
        MarkAllIdempotent(s.nodes[i], rows.value);
      }
      assert rr.nodes == r.nodes;
    }
  }

  /** After a batch, every rendered unit that was reported is stable, so it
      is no longer in the not-stable list. */
  lemma ReportedLeaveNotStable(s: Scene, rows: seq<StableRow>, i: nat)
    requires i < |s.nodes| && Mentions(rows, s.nodes[i].id)
    ensures s.nodes[i].id !in SetChangesStable(s, Some(rows)).notStable
  {
    var r := SetChangesStable(s, Some(rows));
    forall j | 0 <= j < |r.nodes| && r.nodes[j].id == s.nodes[i].id
      ensures Stable in r.nodes[j].classes
    {
      assert r.nodes[j] == MarkAll(s.nodes[j], rows);
    }
  }
}

=== FILE: text.dfy ===
/** String helpers of the explorer: the short node label, the `a_b` keys of
    the edge and transaction maps, HTML escaping of message payloads and the
    thousands separator applied to every amount on screen. */
module Text {

  /** `unit.substr(0, 7) + '...'`: the label drawn under a node and under a
      phantom. */
  function ShortLabel(u: string): (r: string)
    ensures |r| == (if |u| < 7 then |u| else 7) + 3
    ensures r[..|r| - 3] <= u
    ensures r[|r| - 3..] == "..."
  {
    (if |u| < 7 then u else u[..7]) + "..."
  }

  /** `a + '_' + b`, the key shape of the edge map (child_parent) and of the
      transaction map (unit_asset). */
  function JoinKey(a: string, b: string): string {
    a + "_" + b
  }

  /** Two keys coincide exactly when both parts coincide, as long as the first
      parts hold no underscore (unit hashes are base64 and never do). */
  lemma JoinKeyInjective(a1: string, b1: string, a2: string, b2: string)
    requires '_' !in a1 && '_' !in a2
    ensures JoinKey(a1, b1) == JoinKey(a2, b2) <==> a1 == a2 && b1 == b2
  {
    var k1, k2 := JoinKey(a1, b1), JoinKey(a2, b2);
    if k1 == k2 {
      assert k1[|a1|] == '_';
      assert k2[|a2|] == '_';
      assert |a1| == |a2|;
      assert a1 == k1[..|a1|] && a2 == k2[..|a2|];
      assert b1 == k1[|a1| + 1..] && b2 == k2[|a2| + 1..];
    }
  }

  // ---------------------------------------------------------------------
  // htmlEscape

  /** `str.replace(/c/g, rep)` for a one-character pattern. */
  function ReplaceAll(s: string, c: char, rep: string): string {
    if s == [] then [] else (if s[0] == c then rep else [s[0]]) + ReplaceAll(s[1..], c, rep)
  }

  lemma {:induction false} ReplaceAllAppend(a: string, b: string, c: char, rep: string)
    ensures ReplaceAll(a + b, c, rep) == ReplaceAll(a, c, rep) + ReplaceAll(b, c, rep)
  {
    if a != [] {
      assert (a + b)[1..] == a[1..] + b;
      ReplaceAllAppend(a[1..], b, c, rep);
    } else {
      assert a + b == b;
    }
  }

  lemma {:induction false} ReplaceAllAbsent(s: string, c: char, rep: string)
    requires c !in s
    ensures ReplaceAll(s, c, rep) == s
  {
    if s != [] {
      assert s[1..] <= s[1..];
      assert forall x :: x in s[1..] ==> x in s;
      ReplaceAllAbsent(s[1..], c, rep);
      assert s == [s[0]] + s[1..];
    }
  }

  /** The five chained replacements of `htmlEscape`, in the source's order. */
  function HtmlEscapeChain(s: string): string {
    ReplaceAll(ReplaceAll(ReplaceAll(ReplaceAll(ReplaceAll(s,
      '&', "&amp;"), '"', "&quot;"), '\'', "&#39;"), '<', "&lt;"), '>', "&gt;")
  }

  /** The entity written for one character. */
  function EscapeChar(c: char): string {
    if c == '&' then "&amp;"
    else if c == '"' then "&quot;"
    else if c == '\'' then "&#39;"
    else if c == '<' then "&lt;"
    else if c == '>' then "&gt;"
    else [c]
  }

  /** Character-by-character escaping: the reference the chain is compared to. */
  function EscapeEach(s: string): string {
    if s == [] then [] else EscapeChar(s[0]) + EscapeEach(s[1..])
  }

  /** Decoding of the five entities, as a browser reads the escaped text. */
  function DecodeEntities(t: string): string
    decreases |t|
  {
    if t == [] then []
    else if |t| >= 5 && t[..5] == "&amp;" then "&" + DecodeEntities(t[5..])
    else if |t| >= 6 && t[..6] == "&quot;" then "\"" + DecodeEntities(t[6..])
    else if |t| >= 5 && t[..5] == "&#39;" then "'" + DecodeEntities(t[5..])
    else if |t| >= 4 && t[..4] == "&lt;" then "<" + DecodeEntities(t[4..])
    else if |t| >= 4 && t[..4] == "&gt;" then ">" + DecodeEntities(t[4..])
    else [t[0]] + DecodeEntities(t[1..])
  }

  /** Characters that must not survive escaping. */
  predicate Special(c: char) {
    c == '"' || c == '\'' || c == '<' || c == '>'
  }

  lemma ReplaceOne(c: char, x: char, rep: string)
    ensures ReplaceAll([c], x, rep) == (if c == x then rep else [c])
  {
    assert [c][1..] == [];
  }

  /** The replacements after the first leave an entity or a plain character alone. */
  lemma ChainTail(c: char, e: string)
    requires '"' !in e && '\'' !in e && '<' !in e && '>' !in e
    ensures ReplaceAll(ReplaceAll(ReplaceAll(ReplaceAll(e,
      '"', "&quot;"), '\'', "&#39;"), '<', "&lt;"), '>', "&gt;") == e
  {
    ReplaceAllAbsent(e, '"', "&quot;");
    ReplaceAllAbsent(e, '\'', "&#39;");
    ReplaceAllAbsent(e, '<', "&lt;");
    ReplaceAllAbsent(e, '>', "&gt;");
  }

  lemma ChainOfOneChar(c: char)
    ensures HtmlEscapeChain([c]) == EscapeChar(c)
  {
    var s1 := ReplaceAll([c], '&', "&amp;");
    ReplaceOne(c, '&', "&amp;");
    if c == '&' {
      assert s1 == "&amp;";
      ChainTail(c, s1);
    } else {
      assert s1 == [c];
      ChainAfterAmp(c);
    }
  }

  lemma ChainAfterAmp(c: char)
    requires c != '&'
    ensures ReplaceAll(ReplaceAll(ReplaceAll(ReplaceAll([c],
      '"', "&quot;"), '\'', "&#39;"), '<', "&lt;"), '>', "&gt;") == EscapeChar(c)
  {
    var s2 := ReplaceAll([c], '"', "&quot;");
    ReplaceOne(c, '"', "&quot;");
    if c == '"' {
      ThreeAbsent(s2);
    } else {
      assert s2 == [c];
      ChainOfPlainOrLater(c);
    }
  }

  lemma ThreeAbsent(e: string)
    requires '\'' !in e && '<' !in e && '>' !in e
    ensures ReplaceAll(ReplaceAll(ReplaceAll(e, '\'', "&#39;"), '<', "&lt;"), '>', "&gt;") == e
  {
    ReplaceAllAbsent(e, '\'', "&#39;");
    ReplaceAllAbsent(e, '<', "&lt;");
    ReplaceAllAbsent(e, '>', "&gt;");
  }

  lemma ChainOfPlainOrLater(c: char)
    requires c != '&' && c != '"'
    ensures ReplaceAll(ReplaceAll(ReplaceAll([c], '\'', "&#39;"), '<', "&lt;"), '>', "&gt;") == EscapeChar(c)
  {
    ReplaceOne(c, '\'', "&#39;");
    if c == '\'' {
      ReplaceAllAbsent("&#39;", '<', "&lt;");
      ReplaceAllAbsent("&#39;", '>', "&gt;");
    } else {
      ReplaceOne(c, '<', "&lt;");
      if c == '<' {
        ReplaceAllAbsent("&lt;", '>', "&gt;");
      } else {
        ReplaceOne(c, '>', "&gt;");
      }
    }
  }

  lemma ChainAppend(a: string, b: string)
    ensures HtmlEscapeChain(a + b) == HtmlEscapeChain(a) + HtmlEscapeChain(b)
  {
    ReplaceAllAppend(a, b, '&', "&amp;");
    var a1, b1 := ReplaceAll(a, '&', "&amp;"), ReplaceAll(b, '&', "&amp;");
    ReplaceAllAppend(a1, b1, '"', "&quot;");
    var a2, b2 := ReplaceAll(a1, '"', "&quot;"), ReplaceAll(b1, '"', "&quot;");
    ReplaceAllAppend(a2, b2, '\'', "&#39;");
    var a3, b3 := ReplaceAll(a2, '\'', "&#39;"), ReplaceAll(b2, '\'', "&#39;");
    ReplaceAllAppend(a3, b3, '<', "&lt;");
    var a4, b4 := ReplaceAll(a3, '<', "&lt;"), ReplaceAll(b3, '<', "&lt;");
    ReplaceAllAppend(a4, b4, '>', "&gt;");
  }

  /** The chain of replacements escapes each character on its own: the
      ampersand goes first, so no entity produced later is escaped again. */
  lemma {:induction false} ChainIsPerChar(s: string)
    ensures HtmlEscapeChain(s) == EscapeEach(s)
  {
    if s == [] {
    } else {
      assert s == [s[0]] + s[1..];
      ChainAppend([s[0]], s[1..]);
      ChainOfOneChar(s[0]);
      ChainIsPerChar(s[1..]);
    }
  }

  lemma DecodeEscapeChar(c: char, rest: string)
    ensures DecodeEntities(EscapeChar(c) + rest) == [c] + DecodeEntities(rest)
  {
    var t := EscapeChar(c) + rest;
    if c == '&' {
      assert t[..5] == "&amp;" && t[5..] == rest;
    } else if c == '"' {
      assert t[..6] == "&quot;" && t[6..] == rest;
      assert t[..5][1] == 'q';
    } else if c == '\'' {
      assert t[..5] == "&#39;" && t[5..] == rest;
      assert t[..5][1] == '#';
      assert |t| >= 6 ==> t[..6][1] == '#';
    } else if c == '<' {
      assert t[..4] == "&lt;" && t[4..] == rest;
      assert t[1] == 'l';
      assert |t| >= 5 ==> t[..5][1] == 'l';
      assert |t| >= 6 ==> t[..6][1] == 'l';
    } else if c == '>' {
      assert t[..4] == "&gt;" && t[4..] == rest;
      assert t[1] == 'g';
      assert |t| >= 5 ==> t[..5][1] == 'g';
      assert |t| >= 6 ==> t[..6][1] == 'g';
    } else {
      assert t[0] == c && t[1..] == rest;
      assert |t| >= 4 ==> t[..4][0] == c;
      assert |t| >= 5 ==> t[..5][0] == c;
      assert |t| >= 6 ==> t[..6][0] == c;
    }
  }

  lemma {:induction false} DecodeEscapeEach(s: string)
    ensures DecodeEntities(EscapeEach(s)) == s
  {
    if s != [] {
      DecodeEscapeChar(s[0], EscapeEach(s[1..]));
      DecodeEscapeEach(s[1..]);
    }
  }

  lemma {:induction false} EscapeEachSafe(s: string)
    ensures forall i :: 0 <= i < |EscapeEach(s)| ==> !Special(EscapeEach(s)[i])
  {
    if s != [] {
      EscapeEachSafe(s[1..]);
      var e, t := EscapeChar(s[0]), EscapeEach(s[1..]);
      assert EscapeEach(s) == e + t;
      assert forall i :: 0 <= i < |e| ==> !Special(e[i]);
      forall i | 0 <= i < |e + t| ensures !Special((e + t)[i]) {
        if i >= |e| {
          assert (e + t)[i] == t[i - |e|];
        }
      }
    }
  }

  /** `htmlEscape`: the escaped text holds no quote or angle bracket, and
      decoding its entities gives back exactly the original text. */
  function HtmlEscape(s: string): (r: string)
    ensures forall i :: 0 <= i < |r| ==> !Special(r[i])
    ensures DecodeEntities(r) == s
    ensures r == EscapeEach(s)
  {
    ChainIsPerChar(s);
    EscapeEachSafe(s);
    DecodeEscapeEach(s);
    HtmlEscapeChain(s)
  }

  // ---------------------------------------------------------------------
  // numberFormat

  predicate IsDigit(c: char) {
    '0' <= c <= '9'
  }

  predicate AllDigits(s: string) {
    forall i :: 0 <= i < |s| ==> IsDigit(s[i])
  }

  /** The characters matched by `\s` and removed by `trim` in JavaScript. */
  predicate IsSpace(c: char) {
    || c == '\t' || c == '\n' || c == '\U{000B}' || c == '\U{000C}' || c == '\r'
    || c == ' ' || c == '\U{00A0}' || c == '\U{1680}'
    || ('\U{2000}' <= c <= '\U{200A}')
    || c == '\U{2028}' || c == '\U{2029}' || c == '\U{202F}' || c == '\U{205F}'
    || c == '\U{3000}' || c == '\U{FEFF}'
  }

  /** First replacement, `^(\d{r})(\d{3})` to `"$1 $2"` with r = length mod 3:
      a space after the leading short group when it is followed by three digits. */
  function SplitLead(s: string): string {
    var r := |s| % 3;
    if |s| >= r + 3 && AllDigits(s[..r + 3]) then s[..r] + " " + s[r..] else s
  }

  /** Second replacement, `/(\d{3})+?/g` to `"$1 "`: scanning from the left, a
      space after every run of three digits. */
  function SpaceTriples(s: string): string
    decreases |s|
  {
    if |s| >= 3 && AllDigits(s[..3]) then s[..3] + " " + SpaceTriples(s[3..])
    else if s == [] then []
    else [s[0]] + SpaceTriples(s[1..])
  }

  function TrimStart(s: string): string {
    if s != [] && IsSpace(s[0]) then TrimStart(s[1..]) else s
  }

  function TrimEnd(s: string): string {
    if s != [] && IsSpace(s[|s| - 1]) then TrimEnd(s[..|s| - 1]) else s
  }

  /** Last replacement, `/\s/gi` to `","`. */
  function SpacesToCommas(s: string): string {
    if s == [] then [] else [if IsSpace(s[0]) then ',' else s[0]] + SpacesToCommas(s[1..])
  }

  /** Thousands grouping of a digit string, defined from the right: the
      reference that `numberFormat` is compared to. */
  function Grouped(s: string): string
    decreases |s|
  {
    if |s| <= 3 then s else Grouped(s[..|s| - 3]) + "," + s[|s| - 3..]
  }

  /** Digits split into groups of three from the left, joined by commas. */
  function Commaed(t: string): string
    requires |t| % 3 == 0 && |t| >= 3
    decreases |t|
  {
    if |t| == 3 then t else t[..3] + "," + Commaed(t[3..])
  }

  /** Groups of three from the left, each followed by a space. */
  function Spaced(t: string): string
    requires |t| % 3 == 0
    decreases |t|
  {
    if t == [] then [] else t[..3] + " " + Spaced(t[3..])
  }

  lemma {:induction false} SpacesToCommasAppend(a: string, b: string)
    ensures SpacesToCommas(a + b) == SpacesToCommas(a) + SpacesToCommas(b)
  {
    if a == [] {
      assert a + b == b;
    } else {
      assert (a + b)[1..] == a[1..] + b;
      SpacesToCommasAppend(a[1..], b);
    }
  }

  lemma {:induction false} SpacesToCommasDigits(s: string)
    requires AllDigits(s)
    ensures SpacesToCommas(s) == s
  {
    if s != [] {
      assert IsDigit(s[0]);
      SpacesToCommasDigits(s[1..]);
    }
  }

  lemma {:induction false} SpaceTriplesShort(s: string)
    requires |s| < 3
    ensures SpaceTriples(s) == s
  {
    if s != [] {
      SpaceTriplesShort(s[1..]);
    }
  }

  lemma {:induction false} SpaceTriplesAfterShortGroup(p: string, u: string)
    requires |p| < 3 && AllDigits(p)
    ensures SpaceTriples(p + " " + u) == p + " " + SpaceTriples(u)
  {
    var x := p + " " + u;
    assert x[|p|] == ' ';
    assert |x| >= 3 ==> x[..3][|p|] == ' ';
    if p == [] {
      assert x == " " + u;
      assert x[1..] == u;
    } else {
      assert x[1..] == p[1..] + " " + u;
      SpaceTriplesAfterShortGroup(p[1..], u);
      assert x[0] == p[0];
      assert SpaceTriples(x) == [p[0]] + SpaceTriples(x[1..]);
      ConsRegroup(SpaceTriples(x), p[0], p[1..], " ", SpaceTriples(u), p);
    }
  }

  /** `[h] + ((q + m) + t)` regrouped around `p == [h] + q`. */
  lemma ConsRegroup<T>(x: seq<T>, h: T, q: seq<T>, m: seq<T>, t: seq<T>, p: seq<T>)
    requires x == [h] + ((q + m) + t) && p == [h] + q
    ensures x == (p + m) + t
  {
  }

  lemma {:induction false} SpaceTriplesChunks(t: string)
    requires |t| % 3 == 0 && AllDigits(t)
    ensures SpaceTriples(t) == Spaced(t)
  {
    if t != [] {
      assert AllDigits(t[..3]);
      SpaceTriplesChunks(t[3..]);
    }
  }

  /** `Spaced` without its final space, turned into commas, is `Commaed`. */
  lemma {:induction false} SpacedToCommaed(t: string)
    requires |t| % 3 == 0 && |t| >= 3 && AllDigits(t)
    ensures |Spaced(t)| >= 1
    ensures Spaced(t)[|Spaced(t)| - 1] == ' '
    ensures AllDigits(Spaced(t)[..1])
    ensures SpacesToCommas(Spaced(t)[..|Spaced(t)| - 1]) == Commaed(t)
    decreases |t|, 1
  {
    if |t| == 3 {
      var sp := Spaced(t);
      assert sp == t[..3] + " " + Spaced(t[3..]);
      assert sp[0] == t[0];
      assert Spaced(t[3..]) == [];
      assert sp[..|sp| - 1] == t;
      SpacesToCommasDigits(t);
    } else {
      SpacedToCommaedStep(t);
    }
  }

  /** More than one group: the first group, a comma, then the rest. */
  lemma {:induction false} SpacedToCommaedStep(t: string)
    requires |t| % 3 == 0 && |t| > 3 && AllDigits(t)
    ensures |Spaced(t)| >= 1
    ensures Spaced(t)[|Spaced(t)| - 1] == ' '
    ensures AllDigits(Spaced(t)[..1])
    ensures SpacesToCommas(Spaced(t)[..|Spaced(t)| - 1]) == Commaed(t)
    decreases |t|, 0
  {
    var sp := Spaced(t);
    assert sp == t[..3] + " " + Spaced(t[3..]);
    assert sp[0] == t[0];
    var rest := Spaced(t[3..]);
    SpacedToCommaed(t[3..]);
    assert sp[..|sp| - 1] == t[..3] + " " + rest[..|rest| - 1];
    SpacesToCommasAppend(t[..3] + " ", rest[..|rest| - 1]);
    SpacesToCommasAppend(t[..3], " ");
    SpacesToCommasDigits(t[..3]);
  }

  lemma {:induction false} CommaedSnoc(t: string, l: string)
    requires |t| % 3 == 0 && |t| >= 3 && |l| == 3
    ensures Commaed(t + l) == Commaed(t) + "," + l
  {
    if |t| == 3 {
      assert (t + l)[..3] == t && (t + l)[3..] == l;
    } else {
      assert (t + l)[..3] == t[..3];
      assert (t + l)[3..] == t[3..] + l;
      CommaedSnoc(t[3..], l);
    }
  }

  /** Grouping from the right agrees with a short head group followed by
      groups of three from the left. */
  lemma {:induction false} GroupedSplit(p: string, t: string)
    requires |p| < 3 && |t| % 3 == 0 && |t| >= 3
    ensures Grouped(p + t) == (if p == [] then "" else p + ",") + Commaed(t)
    decreases |t|
  {
    if |t| == 3 {
      GroupedOneGroup(p, t);
    } else {
      var t', l := t[..|t| - 3], t[|t| - 3..];
      assert t == t' + l;
      GroupedSplit(p, t');
      CommaedSnoc(t', l);
      GroupedSnoc(p + t, p + t', l);
      AppendGroup(if p == [] then "" else p + ",", Commaed(t'), Grouped(p + t'), l);
    }
  }

  /** A short head and one group of three. */
  lemma GroupedOneGroup(p: string, t: string)
    requires |p| < 3 && |t| == 3
    ensures Grouped(p + t) == (if p == [] then "" else p + ",") + Commaed(t)
  {
    var s := p + t;
    if p == [] {
      assert s == t;
    } else {
      assert s[..|s| - 3] == p && s[|s| - 3..] == t;
    }
  }

  /** Grouping from the right takes the last three characters off first. */
  lemma GroupedSnoc(a: string, b: string, l: string)
    requires a == b + l && |l| == 3 && |b| > 0
    ensures Grouped(a) == Grouped(b) + "," + l
  {
    assert a[..|a| - 3] == b && a[|a| - 3..] == l;
  }

  lemma AppendGroup(h: string, c: string, g: string, l: string)
    requires g == h + c
    ensures g + "," + l == h + (c + "," + l)
  {
  }

  lemma {:induction false} TrimDigitsEdges(x: string)
    requires |x| >= 2 && IsDigit(x[0]) && IsDigit(x[|x| - 2]) && x[|x| - 1] == ' '
    ensures TrimEnd(TrimStart(x)) == x[..|x| - 1]
  {
    var y := x[..|x| - 1];
    assert y[|y| - 1] == x[|x| - 2];
  }

  /** Lengths that are not a multiple of three: the head group is followed
      by a space, then every group of three gets a trailing space. */
  lemma PassesWithHead(p: string, t: string)
    requires 0 < |p| < 3 && AllDigits(p)
    requires |t| % 3 == 0 && |t| >= 3 && AllDigits(t)
    ensures SpacesToCommas(TrimEnd(TrimStart(SpaceTriples(p + " " + t)))) == p + "," + Commaed(t)
  {
    SpaceTriplesAfterShortGroup(p, t);
    SpaceTriplesChunks(t);
    SpacedToCommaed(t);
    var sp := Spaced(t);
    TrimWithHead(p, t);
    var inner := sp[..|sp| - 1];
    SpacesToCommasAppend(p + " ", inner);
    SpacesToCommasAppend(p, " ");
    SpacesToCommasDigits(p);
  }

  /** The trims of the spaced string with a short first group drop only the
      trailing space. */
  lemma TrimWithHead(p: string, t: string)
    requires 0 < |p| < 3 && AllDigits(p)
    requires |t| % 3 == 0 && |t| >= 3 && AllDigits(t)
    ensures |Spaced(t)| >= 4
    ensures TrimEnd(TrimStart(p + " " + Spaced(t))) == p + " " + Spaced(t)[..|Spaced(t)| - 1]
  {
    SpacedLast(t);
    var sp := Spaced(t);
    var x := p + " " + sp;
    assert IsDigit(x[0]) by { assert x[0] == p[0]; }
    assert IsDigit(x[|x| - 2]) by { assert x[|x| - 2] == sp[|sp| - 2] == t[|t| - 1]; }
    assert x[|x| - 1] == sp[|sp| - 1];
    TrimDigitsEdges(x);
    assert x[..|x| - 1] == p + " " + sp[..|sp| - 1];
  }

  /** Lengths that are a multiple of three: a leading space appears and is
      trimmed away again. */
  lemma PassesWithoutHead(t: string)
    requires |t| % 3 == 0 && |t| >= 3 && AllDigits(t)
    ensures SpacesToCommas(TrimEnd(TrimStart(SpaceTriples("" + " " + t)))) == Commaed(t)
  {
    SpaceTriplesAfterShortGroup("", t);
    SpaceTriplesChunks(t);
    SpacedToCommaed(t);
    SpacedLast(t);
    var sp := Spaced(t);
    var x := "" + " " + sp;
    assert x[1..] == sp;
    assert TrimStart(x) == TrimStart(sp);
    assert sp[0] == t[0];
    TrimDigitsEdges(sp);
  }

  /** The string passes of `numberFormat` on a string of digits. */
  lemma {:induction false} NumberFormatDigits(s: string)
    requires AllDigits(s)
    ensures SpacesToCommas(TrimEnd(TrimStart(SpaceTriples(SplitLead(s))))) == Grouped(s)
  {
    var n := |s|;
    var r := n % 3;
    if n < 3 {
      SpaceTriplesShort(s);
      assert s == [] || !IsSpace(s[0]);
      assert s == [] || !IsSpace(s[|s| - 1]);
      SpacesToCommasDigits(s);
    } else {
      var p, t := s[..r], s[r..];
      assert s == p + t;
      assert AllDigits(s[..r + 3]);
      assert SplitLead(s) == p + " " + t;
      assert AllDigits(p) && AllDigits(t);
      GroupedSplit(p, t);
      if r == 0 {
        assert p == "";
        PassesWithoutHead(t);
      } else {
        PassesWithHead(p, t);
      }
    }
  }

  lemma {:induction false} SpacedLast(t: string)
    requires |t| % 3 == 0 && |t| >= 3
    ensures |Spaced(t)| >= 4
    ensures Spaced(t)[|Spaced(t)| - 2] == t[|t| - 1]
    ensures Spaced(t)[|Spaced(t)| - 1] == ' '
    decreases |t|
  {
    if |t| > 3 {
      SpacedLast(t[3..]);
    }
  }

  /** Removing the commas again, as the mousedown handler does. */
  function StripCommas(s: string): string {
    ReplaceAll(s, ',', "")
  }

  lemma {:induction false} StripGrouped(s: string)
    requires AllDigits(s)
    ensures StripCommas(Grouped(s)) == s
    decreases |s|
  {
    if |s| > 3 {
      var h, l := s[..|s| - 3], s[|s| - 3..];
      assert s == h + l;
      assert AllDigits(h) && AllDigits(l);
      assert Grouped(s) == Grouped(h) + "," + l;
      StripGrouped(h);
      DigitsNoComma(l);
      StripAroundComma(Grouped(h), l);
    } else {
      DigitsNoComma(s);
      ReplaceAllAbsent(s, ',', "");
    }
  }

  /** Removing commas from `g,l` where `l` has none. */
  lemma StripAroundComma(g: string, l: string)
    requires ',' !in l
    ensures StripCommas(g + "," + l) == StripCommas(g) + l
  {
    var gc := g + ",";
    ReplaceAllAppend(gc, l, ',', "");
    ReplaceAllAppend(g, ",", ',', "");
    ReplaceOne(',', ',', "");
    ReplaceAllAbsent(l, ',', "");
    DropEmptyMiddle(StripCommas(gc + l), StripCommas(gc), StripCommas(g), StripCommas(","), l);
  }

  /** `x == (a + b) + c` with `b` empty is `x == a + c`. */
  lemma DropEmptyMiddle<T>(x: seq<T>, y: seq<T>, a: seq<T>, b: seq<T>, c: seq<T>)
    requires x == y + c && y == a + b && b == []
    ensures x == a + c
  {
    assert y == a;
  }

  lemma DigitsNoComma(s: string)
    requires AllDigits(s)
    ensures ',' !in s
  {
    assert forall i :: 0 <= i < |s| ==> IsDigit(s[i]);
  }

  /** `numberFormat`: on a string of digits it inserts a comma before every
      group of three counted from the right, and removing the commas gives the
      digits back. */
  function NumberFormat(s: string): (r: string)
    ensures AllDigits(s) ==> r == Grouped(s)
    ensures AllDigits(s) ==> StripCommas(r) == s
  {
    var r := SpacesToCommas(TrimEnd(TrimStart(SpaceTriples(SplitLead(s)))));
    if AllDigits(s) then NumberFormatDigits(s); StripGrouped(s); r else r
  }
}

=== FILE: units.dfy ===
/** Server-side mapping from database rows to the graph records the DAG page
    draws (controllers/units.js). Query results are given as row sequences in
    the order the query returns them; the two window queries over the units
    table are modelled as selections over the table in ROWID order. */
module Units {
  import opened Base
  import opened Text
  import opened Render
  import opened Boundary
  import opened Stability

  /** A row of the units table. */
  datatype UnitRow = UnitRow(rowid: int, unit: UnitId, onMainChain: int, stable: int, sequence: string)

  /** A row of the parenthood join: a child, one of its parents, and the
      child's flags, including its best parent (missing for the genesis). */
  datatype LinkRow = LinkRow(
    child: UnitId,
    parent: UnitId,
    rowid: int,
    onMainChain: int,
    stable: int,
    bestParent: Option<UnitId>,
    sequence: string)

  /** A node record sent to the page. */
  datatype NodeRecord = NodeRecord(unit: UnitId, short: string, rowid: int, onMainChain: int, stable: int, sequence: string)

  /** A window: node records plus the edge map keyed `child_parent`. */
  datatype Slice = Slice(nodes: seq<NodeRecord>, edges: EdgeStore)

  /** The node record of a unit row; the label is the first seven characters
      of the unit followed by an ellipsis. */
  function NodeOf(r: UnitRow): (n: NodeRecord)
    ensures n.unit == r.unit && n.rowid == r.rowid
    ensures n.short == ShortLabel(r.unit) && n.short[..|n.short| - 3] <= r.unit
  {
    NodeRecord(r.unit, ShortLabel(r.unit), r.rowid, r.onMainChain, r.stable, r.sequence)
  }

  /** The node record of the child of a parenthood row. */
  function ChildNodeOf(r: LinkRow): (n: NodeRecord)
    ensures n.unit == r.child && n.short == ShortLabel(r.child) && n.rowid == r.rowid
  {
    NodeRecord(r.child, ShortLabel(r.child), r.rowid, r.onMainChain, r.stable, r.sequence)
  }

  /** The edge of a parenthood row: from the child to the parent, marked best
      exactly when the parent is the child's best parent. */
  function EdgeOf(r: LinkRow): (e: CyEdge)
    ensures e.source == r.child && e.target == r.parent
    ensures e.best <==> r.bestParent == Some(r.parent)
  {
    CyEdge(r.child, r.parent, r.bestParent == Some(r.parent))
  }

  /** The key an edge is stored under. */
  function LinkKey(r: LinkRow): string {
    JoinKey(r.child, r.parent)
  }

  /** The edge map built from parenthood rows in order: each row stores its
      edge under `child_parent`, a later row with the same pair replacing the
      earlier one in place. */
  function EdgeMap(rows: seq<LinkRow>): (d: EdgeStore)
    ensures d.Valid()
    ensures forall k :: k in d.values <==> exists i :: 0 <= i < |rows| && LinkKey(rows[i]) == k
    decreases |rows|
  {
    if rows == [] then EmptyDict()
    else
      var init := rows[..|rows| - 1];
      var last := rows[|rows| - 1];
      var d := EdgeMap(init);
      assert forall i :: 0 <= i < |init| ==> init[i] == rows[i];
      Put(d, LinkKey(last), EdgeOf(last))
  }

  /** The edge of the last row about a key: the reference for what the map
      holds. */
  function LastEdge(rows: seq<LinkRow>, k: string): Option<CyEdge> {
    if rows == [] then None
    else if LinkKey(rows[|rows| - 1]) == k then Some(EdgeOf(rows[|rows| - 1]))
    else LastEdge(rows[..|rows| - 1], k)
  }

  /** Every key holds the edge of the last row with that key. */
  lemma {:induction false} EdgeMapLastWins(rows: seq<LinkRow>, k: string)
    ensures k in EdgeMap(rows).values <==> LastEdge(rows, k).Some?
    ensures k in EdgeMap(rows).values ==> EdgeMap(rows).values[k] == LastEdge(rows, k).value
    decreases |rows|
  {
    if rows != [] {
      EdgeMapLastWins(rows[..|rows| - 1], k);
    }
  }

  /** Every stored edge is stored under the key made of its own ends. */
  lemma EdgeMapKeyedByEnds(rows: seq<LinkRow>)
    ensures KeyedByEnds(EdgeMap(rows))
  {
    forall k | k in EdgeMap(rows).values
      ensures k == JoinKey(EdgeMap(rows).values[k].source, EdgeMap(rows).values[k].target)
    {
      EdgeMapLastWins(rows, k);
      LastEdgeKey(rows, k);
    }
  }

  lemma {:induction false} LastEdgeKey(rows: seq<LinkRow>, k: string)
    requires LastEdge(rows, k).Some?
    ensures k == JoinKey(LastEdge(rows, k).value.source, LastEdge(rows, k).value.target)
    decreases |rows|
  {
    if LinkKey(rows[|rows| - 1]) != k {
      LastEdgeKey(rows[..|rows| - 1], k);
    }
  }

  /** `getLastUnits`: one node record per parenthood row (a unit with several
      parents appears once per parent) and the edge map of the rows. */
  function LastUnits(rows: seq<LinkRow>): (s: Slice)
    ensures |s.nodes| == |rows|
    ensures forall i :: 0 <= i < |rows| ==> s.nodes[i] == ChildNodeOf(rows[i])
    ensures s.edges.Valid()
    ensures forall k :: k in s.edges.values <==> exists i :: 0 <= i < |rows| && LinkKey(rows[i]) == k
  {
    Slice(seq(|rows|, i requires 0 <= i < |rows| => ChildNodeOf(rows[i])), EdgeMap(rows))
  }

  /** The table in ROWID order: ROWIDs strictly increase. */
  ghost predicate Ascending(t: seq<UnitRow>) {
    forall i, j :: 0 <= i < j < |t| ==> t[i].rowid < t[j].rowid
  }

  /** Records in strictly decreasing ROWID order. */
  ghost predicate Descending(ns: seq<NodeRecord>) {
    forall i, j :: 0 <= i < j < |ns| ==> ns[i].rowid > ns[j].rowid
  }

  /** Records in non-increasing ROWID order. */
  ghost predicate NonIncreasing(ns: seq<NodeRecord>) {
    forall i, j :: 0 <= i < j < |ns| ==> ns[i].rowid >= ns[j].rowid
  }

  /** Strictly increasing integers grow by at least one per step. */
  lemma {:induction false} AscendingGap(t: seq<UnitRow>, i: nat, j: nat)
    requires Ascending(t) && i <= j < |t|
    ensures t[j].rowid - t[i].rowid >= j - i
    decreases j - i
  {
    if i < j {
      AscendingGap(t, i, j - 1);
    }
  }

  /** Membership in a sequence with a first element. */
  lemma InCons<T>(x: T, r: seq<T>)
    ensures forall y :: y in [x] + r <==> y == x || y in r
  {
  }

  /** The rest of an ascending table is ascending and lies above its first
      row. */
  lemma AscendingTail(t: seq<UnitRow>)
    requires t != [] && Ascending(t)
    ensures Ascending(t[1..])
    ensures forall x :: x in t[1..] ==> t[0].rowid < x.rowid
  {
    forall x | x in t[1..] ensures t[0].rowid < x.rowid {
      var j :| 0 <= j < |t[1..]| && t[1..][j] == x;
      assert t[j + 1] == x;
    }
  }

  /** A row below every row of an ascending list can go in front. */
  lemma AscendingCons(x: UnitRow, r: seq<UnitRow>)
    requires Ascending(r) && forall y :: y in r ==> x.rowid < y.rowid
    ensures Ascending([x] + r)
  {
    forall i, j | 0 <= i < j < |[x] + r| ensures ([x] + r)[i].rowid < ([x] + r)[j].rowid {
      assert ([x] + r)[j] == r[j - 1];
      if i > 0 {
        assert ([x] + r)[i] == r[i - 1];
      } else {
        assert r[j - 1] in r;
      }
    }
  }

  /** Rows of the table below a ROWID bound, in table order. */
  function Below(t: seq<UnitRow>, bound: int): (r: seq<UnitRow>)
    ensures forall x :: x in r <==> x in t && x.rowid < bound
    ensures Ascending(t) ==> Ascending(r)
    ensures |r| <= |t|
  {
    if t == [] then []
    else
      var rest := Below(t[1..], bound);
      InCons(t[0], t[1..]);
      InCons(t[0], rest);
      assert t == [t[0]] + t[1..];
      assert Ascending(t) ==> Ascending(rest) && Ascending([t[0]] + rest) by {
        if Ascending(t) {
          AscendingTail(t);
          AscendingCons(t[0], rest);
        }
      }
      if t[0].rowid < bound then [t[0]] + rest else rest
  }

  /** Rows of the table above a ROWID bound, in table order. */
  function Above(t: seq<UnitRow>, bound: int): (r: seq<UnitRow>)
    ensures forall x :: x in r <==> x in t && x.rowid > bound
    ensures Ascending(t) ==> Ascending(r)
    ensures |r| <= |t|
  {
    if t == [] then []
    else
      var rest := Above(t[1..], bound);
      InCons(t[0], t[1..]);
      InCons(t[0], rest);
      assert t == [t[0]] + t[1..];
      assert Ascending(t) ==> Ascending(rest) && Ascending([t[0]] + rest) by {
        if Ascending(t) {
          AscendingTail(t);
          AscendingCons(t[0], rest);
        }
      }
      if t[0].rowid > bound then [t[0]] + rest else rest
  }

  function Min(a: nat, b: nat): nat {
    if a < b then a else b
  }

  /** A sequence backwards. */
  function Reverse<T>(s: seq<T>): (r: seq<T>)
    ensures |r| == |s|
    ensures forall i :: 0 <= i < |s| ==> r[i] == s[|s| - 1 - i]
  {
    if s == [] then [] else Reverse(s[1..]) + [s[0]]
  }

  /** `ROWID < bound ORDER BY ROWID DESC LIMIT limit`: the `limit` highest
      rows below the bound, highest first. */
  function SelectBefore(t: seq<UnitRow>, bound: int, limit: nat): (r: seq<UnitRow>)
    ensures |r| == Min(limit, |Below(t, bound)|)
    ensures forall x :: x in r ==> x in t && x.rowid < bound
  {
    var b := Below(t, bound);
    var tail := b[|b| - Min(limit, |b|)..];
    ReverseMembers(tail);
    SuffixMembers(b, |b| - Min(limit, |b|));
    Reverse(tail)
  }

  /** Reversal keeps the elements. */
  lemma ReverseMembers<T>(s: seq<T>)
    ensures forall x :: x in Reverse(s) <==> x in s
  {
    forall x | x in Reverse(s) ensures x in s {
      var i :| 0 <= i < |Reverse(s)| && Reverse(s)[i] == x;
      assert s[|s| - 1 - i] == x;
    }
    forall x | x in s ensures x in Reverse(s) {
      var i :| 0 <= i < |s| && s[i] == x;
      assert Reverse(s)[|s| - 1 - i] == x;
    }
  }

  lemma SuffixMembers<T>(s: seq<T>, k: nat)
    requires k <= |s|
    ensures forall x :: x in s[k..] ==> x in s
  {
  }

  /** `ROWID > bound ORDER BY ROWID ASC LIMIT limit`: the `limit` lowest rows
      above the bound, lowest first. */
  function SelectAfter(t: seq<UnitRow>, bound: int, limit: nat): (r: seq<UnitRow>)
    ensures |r| == Min(limit, |Above(t, bound)|)
    ensures forall x :: x in r ==> x in t && x.rowid > bound
  {
    var a := Above(t, bound);
    assert forall x :: x in a[..Min(limit, |a|)] ==> x in a;
    a[..Min(limit, |a|)]
  }

  /** A selection before a bound, in the table's order, holds every row of
      the table within `limit` ROWIDs below the bound. */
  lemma SelectBeforeHolds(t: seq<UnitRow>, bound: int, limit: nat, x: UnitRow)
    requires Ascending(t)
    requires x in t && bound - limit <= x.rowid < bound
    ensures x in SelectBefore(t, bound, limit)
  {
    var b := Below(t, bound);
    var n := Min(limit, |b|);
    assert x in b;
    var i :| 0 <= i < |b| && b[i] == x;
    assert i >= |b| - n by {
      assert b[|b| - 1] in b;
      AscendingGap(b, i, |b| - 1);
    }
    var tail := b[|b| - n..];
    assert tail[i - (|b| - n)] == x;
    ReverseMembers(tail);
  }

  /** A selection after a bound holds every row of the table within `limit`
      ROWIDs above the bound. */
  lemma SelectAfterHolds(t: seq<UnitRow>, bound: int, limit: nat, x: UnitRow)
    requires Ascending(t)
    requires x in t && bound < x.rowid <= bound + limit
    ensures x in SelectAfter(t, bound, limit)
  {
    var a := Above(t, bound);
    var i :| 0 <= i < |a| && a[i] == x;
    AscendingGap(a, 0, i);
    assert a[0] in a;
    assert i < limit;
    assert a[..Min(limit, |a|)][i] == x;
  }

  /** The `ORDER BY ROWID DESC LIMIT` keeps the rows nearest the bound: a
      row below the bound that is left out lies below every row kept. */
  lemma SelectBeforeNearest(t: seq<UnitRow>, bound: int, limit: nat, x: UnitRow, y: UnitRow)
    requires Ascending(t)
    requires x in t && x.rowid < bound && x !in SelectBefore(t, bound, limit)
    requires y in SelectBefore(t, bound, limit)
    ensures x.rowid < y.rowid
  {
    var b := Below(t, bound);
    var n := Min(limit, |b|);
    var tail := b[|b| - n..];
    ReverseMembers(tail);
    assert x in b;
    var i :| 0 <= i < |b| && b[i] == x;
    var k :| 0 <= k < |tail| && tail[k] == y;
    if i >= |b| - n {
      assert false;
    }
    assert b[|b| - n + k] == y;
  }

  /** The `ORDER BY ROWID ASC LIMIT` keeps the rows nearest the bound: a row
      above the bound that is left out lies above every row kept. */
  lemma SelectAfterNearest(t: seq<UnitRow>, bound: int, limit: nat, x: UnitRow, y: UnitRow)
    requires Ascending(t)
    requires x in t && x.rowid > bound && x !in SelectAfter(t, bound, limit)
    requires y in SelectAfter(t, bound, limit)
    ensures y.rowid < x.rowid
  {
    var a := Above(t, bound);
    var n := Min(limit, |a|);
    assert x in a;
    var i :| 0 <= i < |a| && a[i] == x;
    var k :| 0 <= k < n && a[..n][k] == y;
    if i < n {
      assert false;
    }
    assert a[k] == y;
  }

  /** Descending sort by ROWID with the order of equal ROWIDs kept
      (`nodes.sort` with a comparator returning 1, -1 or 0): one insertion. */
  function Insert(x: NodeRecord, s: seq<NodeRecord>): (r: seq<NodeRecord>)
    requires NonIncreasing(s)
    ensures NonIncreasing(r)
    ensures multiset(r) == multiset(s) + multiset{x}
    ensures |r| == |s| + 1
  {
    if s == [] || x.rowid >= s[0].rowid then
      NonIncreasingCons(x, s);
      [x] + s
    else
      NonIncreasingTail(s);
      var rest := Insert(x, s[1..]);
      MultisetCons(s);
      MultisetMembers(rest, s[1..], x);
      NonIncreasingCons(s[0], rest);
      [s[0]] + rest
  }

  lemma MultisetCons<T>(s: seq<T>)
    requires s != []
    ensures multiset(s) == multiset{s[0]} + multiset(s[1..])
  {
    assert s == [s[0]] + s[1..];
  }

  lemma MultisetMembers<T>(a: seq<T>, b: seq<T>, x: T)
    requires multiset(a) == multiset(b) + multiset{x}
    ensures forall y :: y in a ==> y in b || y == x
  {
    forall y | y in a ensures y in b || y == x {
      assert y in multiset(a);
    }
  }

  /** The rest of a non-increasing list is non-increasing and lies at or
      below its head. */
  lemma NonIncreasingTail(s: seq<NodeRecord>)
    requires s != [] && NonIncreasing(s)
    ensures NonIncreasing(s[1..])
    ensures forall y :: y in s[1..] ==> s[0].rowid >= y.rowid
  {
    forall y | y in s[1..] ensures s[0].rowid >= y.rowid {
      var k :| 0 <= k < |s[1..]| && s[1..][k] == y;
      assert s[k + 1] == y;
    }
  }

  /** A record at or above every record of a non-increasing list can go in
      front. */
  lemma NonIncreasingCons(x: NodeRecord, r: seq<NodeRecord>)
    requires NonIncreasing(r)
    requires forall y :: y in r ==> x.rowid >= y.rowid
    ensures NonIncreasing([x] + r)
  {
    forall i, j | 0 <= i < j < |[x] + r| ensures ([x] + r)[i].rowid >= ([x] + r)[j].rowid {
      assert ([x] + r)[j] == r[j - 1];
      if i > 0 {
        assert ([x] + r)[i] == r[i - 1];
      } else {
        assert r[j - 1] in r;
      }
    }
  }

  /** `getUnitsAfterRowid`'s sort: the records by ROWID, highest first, as a
      rearrangement of the input. */
  function SortDesc(s: seq<NodeRecord>): (r: seq<NodeRecord>)
    ensures NonIncreasing(r)
    ensures multiset(r) == multiset(s)
    ensures |r| == |s|
  {
    if s == [] then []
    else
      assert s == [s[0]] + s[1..];
      Insert(s[0], SortDesc(s[1..]))
  }

  /** Parenthood rows the edge query returns for a set of units: those whose
      child or parent is one of them. */
  function Touching(links: seq<LinkRow>, units: set<UnitId>): (r: seq<LinkRow>)
    ensures forall l :: l in r <==> l in links && (l.child in units || l.parent in units)
  {
    if links == [] then []
    else
      assert forall l :: l in links <==> l == links[0] || l in links[1..];
      (if links[0].child in units || links[0].parent in units then [links[0]] else []) + Touching(links[1..], units)
  }

  /** Units of a list of rows. */
  function UnitsOf(rows: seq<UnitRow>): (u: set<UnitId>)
    ensures forall x :: x in rows ==> x.unit in u
  {
    set x | x in rows :: x.unit
  }

  /** Node records of unit rows, in order. */
  function RecordsOf(rows: seq<UnitRow>): (ns: seq<NodeRecord>)
    ensures |ns| == |rows|
    ensures forall i :: 0 <= i < |rows| ==> ns[i] == NodeOf(rows[i])
  {
    seq(|rows|, i requires 0 <= i < |rows| => NodeOf(rows[i]))
  }

  /** `getUnitsBeforeRowid`: up to `limit` units below `rowid`, highest
      first, and the edges of the parenthood rows touching them; nothing at
      all, and no edge query, when there is no such unit. */
  function UnitsBefore(t: seq<UnitRow>, links: seq<LinkRow>, rowid: int, limit: nat): (s: Slice)
    requires Ascending(t)
    ensures Descending(s.nodes)
    ensures |s.nodes| == Min(limit, |Below(t, rowid)|)
    ensures forall n :: n in s.nodes ==> n.rowid < rowid
    ensures s.nodes == [] ==> s.edges == EmptyDict()
    ensures s.edges.Valid() && KeyedByEnds(s.edges)
    ensures forall k :: k in s.edges.values ==>
      s.edges.values[k].source in UnitsOf(SelectBefore(t, rowid, limit))
      || s.edges.values[k].target in UnitsOf(SelectBefore(t, rowid, limit))
  {
    var rows := SelectBefore(t, rowid, limit);
    if rows == [] then Slice([], EmptyDict())
    else
      var ls := Touching(links, UnitsOf(rows));
      EdgeMapKeyedByEnds(ls);
      EdgesTouch(ls, UnitsOf(rows));
      SelectBeforeDescending(t, rowid, limit);
      Slice(RecordsOf(rows), EdgeMap(ls))
  }

  /** `getUnitsAfterRowid`: up to `limit` units above `rowid`, sorted highest
      first, with the edges of the parenthood rows touching them; nothing
      when there is no such unit. */
  function UnitsAfter(t: seq<UnitRow>, links: seq<LinkRow>, rowid: int, limit: nat): (s: Slice)
    ensures NonIncreasing(s.nodes)
    ensures multiset(s.nodes) == if SelectAfter(t, rowid, limit) == [] then multiset{}
                                 else multiset(RecordsOf(SelectAfter(t, rowid, limit)))
    ensures forall n :: n in s.nodes ==> n.rowid > rowid
    ensures s.nodes == [] ==> s.edges == EmptyDict()
    ensures s.edges.Valid() && KeyedByEnds(s.edges)
  {
    var rows := SelectAfter(t, rowid, limit);
    if rows == [] then Slice([], EmptyDict())
    else
      var ls := Touching(links, UnitsOf(rows));
      EdgeMapKeyedByEnds(ls);
      var sorted := SortDesc(RecordsOf(rows));
      assert forall n :: n in sorted ==> n.rowid > rowid by {
        forall n | n in sorted ensures n.rowid > rowid {
          assert n in multiset(RecordsOf(rows));
          var i :| 0 <= i < |rows| && RecordsOf(rows)[i] == n;
          assert rows[i] in rows;
        }
      }
      Slice(sorted, EdgeMap(ls))
  }

  /** Every edge of a map built from touching rows touches the units. */
  lemma EdgesTouch(ls: seq<LinkRow>, units: set<UnitId>)
    requires forall l :: l in ls ==> l.child in units || l.parent in units
    ensures forall k :: k in EdgeMap(ls).values ==>
      EdgeMap(ls).values[k].source in units || EdgeMap(ls).values[k].target in units
  {
    forall k | k in EdgeMap(ls).values
      ensures EdgeMap(ls).values[k].source in units || EdgeMap(ls).values[k].target in units
    {
      EdgeMapLastWins(ls, k);
      LastEdgeFrom(ls, k);
    }
  }

  lemma {:induction false} LastEdgeFrom(ls: seq<LinkRow>, k: string)
    requires LastEdge(ls, k).Some?
    ensures exists l :: l in ls && LastEdge(ls, k).value == EdgeOf(l)
    decreases |ls|
  {
    if LinkKey(ls[|ls| - 1]) != k {
      LastEdgeFrom(ls[..|ls| - 1], k);
      var l :| l in ls[..|ls| - 1] && LastEdge(ls, k).value == EdgeOf(l);
      assert l in ls;
    } else {
      assert ls[|ls| - 1] in ls;
    }
  }

  /** The selection before a bound comes highest first. */
  lemma SelectBeforeDescending(t: seq<UnitRow>, bound: int, limit: nat)
    requires Ascending(t)
    ensures Descending(RecordsOf(SelectBefore(t, bound, limit)))
  {
    var b := Below(t, bound);
    var tail := b[|b| - Min(limit, |b|)..];
    assert Ascending(tail) by {
      forall i, j | 0 <= i < j < |tail| ensures tail[i].rowid < tail[j].rowid {
        assert tail[i] == b[|b| - Min(limit, |b|) + i];
        assert tail[j] == b[|b| - Min(limit, |b|) + j];
      }
    }
    ReverseAscending(tail);
  }

  lemma ReverseAscending(s: seq<UnitRow>)
    requires Ascending(s)
    ensures Descending(RecordsOf(Reverse(s)))
  {
    var r := Reverse(s);
    var ns := RecordsOf(r);
    forall i, j | 0 <= i < j < |ns| ensures ns[i].rowid > ns[j].rowid {
      assert r[i] == s[|s| - 1 - i] && r[j] == s[|s| - 1 - j];
    }
  }

  /** `getParentsAndChildren`: a row whose child is the unit contributes its
      parent to `parents`; every other row contributes its child to
      `children`. */
  datatype Family = Family(parents: seq<UnitId>, children: seq<UnitId>)

  /** The rows whose child is `unit`, counted from the front. */
  function RowsWithChild(unit: UnitId, rows: seq<LinkRow>): nat {
    if rows == [] then 0 else (if rows[0].child == unit then 1 else 0) + RowsWithChild(unit, rows[1..])
  }

  /** Counting the rows with a given child, one more row at the end. */
  lemma {:induction false} RowsWithChildSnoc(unit: UnitId, rows: seq<LinkRow>, x: LinkRow)
    ensures RowsWithChild(unit, rows + [x]) == RowsWithChild(unit, rows) + (if x.child == unit then 1 else 0)
    decreases |rows|
  {
    if rows == [] {
      assert rows + [x] == [x];
    } else {
      assert (rows + [x])[0] == rows[0];
      assert (rows + [x])[1..] == rows[1..] + [x];
      RowsWithChildSnoc(unit, rows[1..], x);
    }
  }

  function ParentsAndChildren(unit: UnitId, rows: seq<LinkRow>): (f: Family)
    ensures |f.parents| + |f.children| == |rows|
    ensures |f.parents| == RowsWithChild(unit, rows)
    ensures forall p :: p in f.parents <==> exists i :: 0 <= i < |rows| && rows[i].child == unit && rows[i].parent == p
    ensures forall c :: c in f.children <==> exists i :: 0 <= i < |rows| && rows[i].child != unit && rows[i].child == c
    decreases |rows|
  {
    if rows == [] then Family([], [])
    else
      var init := rows[..|rows| - 1];
      var last := rows[|rows| - 1];
      var f := ParentsAndChildren(unit, init);
      assert forall i :: 0 <= i < |init| ==> init[i] == rows[i];
      assert init + [last] == rows;
      RowsWithChildSnoc(unit, init, last);
      if last.child == unit then Family(f.parents + [last.parent], f.children)
      else Family(f.parents, f.children + [last.child])
  }

  /** An output row of a unit. */
  datatype OutputRow = OutputRow(outputId: int, address: string, amount: int, asset: Option<string>, denomination: int, isSpent: int)

  /** Who spent an output, or `false`. */
  datatype Spent = SpentBy(unit: UnitId) | NotSpent

  /** An output row annotated with its spender. */
  datatype UnitOutput = UnitOutput(row: OutputRow, spent: Spent)

  /** A spending row: an output of the unit and the unit spending it. */
  datatype SpendRow = SpendRow(outputId: int, unit: UnitId)

  /** The object key of an asset: a missing asset stringifies as `null`. */
  function AssetKey(a: Option<string>): (k: string)
    ensures a.Some? ==> k == a.value
    ensures a.None? ==> k == "null"
  {
    match a
    case Some(s) => s
    case None => "null"
  }

  /** `getSpentOutputs` of units.js: output id to spender, a later row for
      the same output replacing an earlier one. */
  function SpenderMap(rows: seq<SpendRow>): (m: map<int, UnitId>)
    ensures forall id :: id in m <==> exists i :: 0 <= i < |rows| && rows[i].outputId == id
    ensures rows != [] ==> m[rows[|rows| - 1].outputId] == rows[|rows| - 1].unit
    decreases |rows|
  {
    if rows == [] then map[]
    else
      var init := rows[..|rows| - 1];
      assert forall i :: 0 <= i < |init| ==> init[i] == rows[i];
      SpenderMap(init)[rows[|rows| - 1].outputId := rows[|rows| - 1].unit]
  }

  /** The spender of an output as reported: the spending unit when one is
      known (and non-empty, as the truthiness test demands), else `false`. */
  function SpentOf(m: map<int, UnitId>, id: int): (s: Spent)
    ensures s.SpentBy? <==> id in m && m[id] != ""
    ensures s.SpentBy? ==> s.unit == m[id]
  {
    if id in m && m[id] != "" then SpentBy(m[id]) else NotSpent
  }

  /** Outputs of one asset key, annotated, in query order: the reference for
      the grouping. */
  function OfAsset(rows: seq<OutputRow>, m: map<int, UnitId>, k: string): (r: seq<UnitOutput>)
    ensures |r| <= |rows|
    decreases |rows|
  {
    if rows == [] then []
    else
      var last := rows[|rows| - 1];
      OfAsset(rows[..|rows| - 1], m, k)
        + (if AssetKey(last.asset) == k then [UnitOutput(last, SpentOf(m, last.outputId))] else [])
  }

  /** `getUnitOutputs`: the outputs grouped by asset key in query order. A
      key is present exactly when some output has that asset, and each
      group holds exactly that asset's outputs, in order, annotated with
      their spenders. */
  function UnitOutputs(rows: seq<OutputRow>, spends: seq<SpendRow>): (d: Dict<string, seq<UnitOutput>>)
    ensures d.Valid()
    ensures d.values.Keys == AssetKeys(rows)
    decreases |rows|
  {
    if rows == [] then EmptyDict()
    else
      var init := rows[..|rows| - 1];
      var last := rows[|rows| - 1];
      var d := UnitOutputs(init, spends);
      var k := AssetKey(last.asset);
      AssetKeysSnoc(rows);
      var group := if k in d.values then d.values[k] else [];
      Put(d, k, group + [UnitOutput(last, SpentOf(SpenderMap(spends), last.outputId))])
  }

  /** The asset keys among some outputs. */
  function AssetKeys(rows: seq<OutputRow>): set<string> {
    set r | r in rows :: AssetKey(r.asset)
  }

  /** The asset keys of some outputs are those of all but the last, plus the
      last one's. */
  lemma AssetKeysSnoc(rows: seq<OutputRow>)
    requires rows != []
    ensures AssetKeys(rows) == AssetKeys(rows[..|rows| - 1]) + {AssetKey(rows[|rows| - 1].asset)}
  {
    SnocMembers(rows);
  }

  /** Each group holds exactly the outputs of its asset, in query order,
      annotated with their spenders. */
  lemma {:induction false} UnitOutputsGroups(rows: seq<OutputRow>, spends: seq<SpendRow>, k: string)
    requires k in UnitOutputs(rows, spends).values
    ensures UnitOutputs(rows, spends).values[k] == OfAsset(rows, SpenderMap(spends), k)
    decreases |rows|
  {
    var m := SpenderMap(spends);
    var init := rows[..|rows| - 1];
    var last := rows[|rows| - 1];
    var d := UnitOutputs(init, spends);
    if k in d.values {
      UnitOutputsGroups(init, spends, k);
    } else {
      assert forall i :: 0 <= i < |init| ==> init[i] in init;
      NoneOfAsset(init, m, k);
    }
  }

  lemma {:induction false} NoneOfAsset(rows: seq<OutputRow>, m: map<int, UnitId>, k: string)
    requires forall i :: 0 <= i < |rows| ==> AssetKey(rows[i].asset) != k
    ensures OfAsset(rows, m, k) == []
    decreases |rows|
  {
    if rows != [] {
      NoneOfAsset(rows[..|rows| - 1], m, k);
    }
  }

  /** A group lists outputs of its own asset only, and as many as the rows
      with that asset. */
  lemma {:induction false} OfAssetContents(rows: seq<OutputRow>, m: map<int, UnitId>, k: string)
    ensures forall o :: o in OfAsset(rows, m, k) ==> o.row in rows && AssetKey(o.row.asset) == k
    ensures forall o :: o in OfAsset(rows, m, k) ==> o.spent == SpentOf(m, o.row.outputId)
    ensures forall i :: 0 <= i < |rows| && AssetKey(rows[i].asset) == k ==>
      UnitOutput(rows[i], SpentOf(m, rows[i].outputId)) in OfAsset(rows, m, k)
    decreases |rows|
  {
    if rows != [] {
      var init := rows[..|rows| - 1];
      OfAssetContents(init, m, k);
      assert forall i :: 0 <= i < |init| ==> init[i] == rows[i];
      assert forall x :: x in init ==> x in rows;
    }
  }

  /** `getUnitsThatBecameStable`: nothing for an empty list, without a
      query; otherwise the stable rows of the table among the listed units. */
  function BecameStable(units: seq<UnitId>, t: seq<UnitRow>): (r: seq<StableRow>)
    ensures units == [] ==> r == []
    ensures forall s :: s in r ==> s.unit in units
    ensures units != [] ==> forall x :: x in t && x.unit in units && x.stable == 1 ==> StableRow(x.unit, x.onMainChain) in r
    ensures forall s :: s in r ==> exists x :: x in t && x.unit in units && x.stable == 1 && s == StableRow(x.unit, x.onMainChain)
    ensures |r| <= |t|
  {
    if units == [] then []
    else StableOf(units, t)
  }

  function StableOf(units: seq<UnitId>, t: seq<UnitRow>): (r: seq<StableRow>)
    ensures forall s :: s in r ==> s.unit in units
    ensures forall x :: x in t && x.unit in units && x.stable == 1 ==> StableRow(x.unit, x.onMainChain) in r
    ensures forall s :: s in r ==> exists x :: x in t && x.unit in units && x.stable == 1 && s == StableRow(x.unit, x.onMainChain)
    ensures |r| <= |t|
  {
    if t == [] then []
    else
      assert forall x :: x in t <==> x == t[0] || x in t[1..];
      (if t[0].unit in units && t[0].stable == 1 then [StableRow(t[0].unit, t[0].onMainChain)] else [])
        + StableOf(units, t[1..])
  }
}

=== FILE: viewport.dfy ===
/** The pan/scroll bridge of the DAG page (public/js/main.js): the page
    keeps a native scroll bar beside the canvas and converts between the
    canvas's vertical pan and the bar's scroll position with an affine map
    about half the bar's height. Both converters take their argument as
    optional and fall back to the live value when it is missing; a falsy
    argument, that is 0, counts as missing too, while the second argument of
    the pan-to-scroll direction is only replaced when it is missing. */
module Viewport {
  import opened Base

  /** An optional argument as the falsy test sees it: missing or 0 means use
      the live value. */
  function OrLive(arg: Option<real>, live: real): (v: real)
    ensures arg.Some? && arg.value != 0.0 ==> v == arg.value
    ensures arg.None? || arg.value == 0.0 ==> v == live
  {
    match arg
    case Some(a) => if a != 0.0 then a else live
    case None => live
  }

  /** `convertPosScrollToPosPan`: the pan y for a scroll position (`posTop`,
      or the bar's live position), reflected about half the bar's height
      less `scrollTopPos`. */
  function ScrollToPan(height: real, scrollTopPos: real, scrollTop: real, posTop: Option<real>): (pan: real)
    ensures pan + OrLive(posTop, scrollTop) == height / 2.0 - scrollTopPos
  {
    (height / 2.0 - scrollTopPos) - OrLive(posTop, scrollTop)
  }

  /** `convertPosPanToPosScroll`: the scroll position for a pan y (`posY`,
      or the canvas's live pan), reflected about half the bar's height less
      `topPos` (or `scrollTopPos` when `topPos` is missing; an explicit 0 is
      kept). */
  function PanToScroll(height: real, scrollTopPos: real, pan: real, posY: Option<real>, topPos: Option<real>): (pos: real)
    ensures topPos.Some? ==> pos + OrLive(posY, pan) == height / 2.0 - topPos.value
    ensures topPos.None? ==> pos + OrLive(posY, pan) == height / 2.0 - scrollTopPos
  {
    var t := if topPos.Some? then topPos.value else scrollTopPos;
    (height / 2.0 - t) - OrLive(posY, pan)
  }

  /** With the same `scrollTopPos`, the two converters undo each other: the
      pan a scroll position maps to maps back to that scroll position, as
      long as neither the scroll position nor the pan is 0. */
  lemma ScrollPanRoundTrip(height: real, scrollTopPos: real, scrollTop: real, pan: real, pos: real)
    requires pos != 0.0
    requires ScrollToPan(height, scrollTopPos, scrollTop, Some(pos)) != 0.0
    ensures PanToScroll(height, scrollTopPos, pan, Some(ScrollToPan(height, scrollTopPos, scrollTop, Some(pos))), None) == pos
  {
  }

  /** The other direction: a pan maps to a scroll position that maps back to
      the same pan, under the same provisos. */
  lemma PanScrollRoundTrip(height: real, scrollTopPos: real, scrollTop: real, pan: real, y: real)
    requires y != 0.0
    requires PanToScroll(height, scrollTopPos, pan, Some(y), None) != 0.0
    ensures ScrollToPan(height, scrollTopPos, scrollTop, Some(PanToScroll(height, scrollTopPos, pan, Some(y), None))) == y
  {
  }

  /** A pan of exactly 0 is read as missing: on a 200-high bar with
      `scrollTopPos` 0, scroll position 100 maps to pan 0, and converting
      that pan back while the live pan is 30 gives 70, not 100. */
  lemma ZeroPanReadsAsMissing()
    ensures ScrollToPan(200.0, 0.0, 0.0, Some(100.0)) == 0.0
    ensures PanToScroll(200.0, 0.0, 30.0, Some(ScrollToPan(200.0, 0.0, 0.0, Some(100.0))), None) == 70.0
  {
  }
}
